=== FILE: README.md ===
# InnriG HTML invoice extraction, modelled in Dafny

This project models the invoice extraction engine of InnriG's backend. The engine is
`HtmlInvoiceParser` with its two item sub-parsers, `TableInvoiceSubParser` and
`DivInvoiceSubParser`. It turns an Icelandic HTML invoice into an `Invoice` record with its
`InvoiceItem`s.

The model covers:

- **Header fields**, each resolved by an ordered chain of strategies:
  - the invoice number, with the file name without its extension as the fallback;
  - the supplier, with "Unknown Supplier" as the fallback;
  - the buyer and the buyer's kennitala (tax id);
  - the issue date.
- **The total**, from five tiers tried in order. A tier counts only when it finds an amount above 0.
- **The items**. The parser asks the table sub-parser, then the div sub-parser. The first one that
  accepts the document and finds at least one item supplies all of them.
- **The final fallback**. When no tier found a total, the total becomes the sum of the items.
- **The number and name parsers** these steps rely on:
  - the parser's own `ParseDecimal`, which reads Icelandic amounts such as "137.214,00" out of
    noisy text, and its `IsDecimal`;
  - the sub-parsers' simpler `ParseDecimal`;
  - the three name cleaners and the sub-parsers' `CleanName`.

The HTML document is abstracted. Module `HtmlDocument` holds what each XPath query of the
parser returns: the texts of the selected nodes, in document order, plus the structure the parser
walks from them (parents, `<b>` children, cells, following siblings). Every regular expression
the parser uses is written out as a scanner that follows .NET's leftmost, greedy, backtracking
matching for that pattern.

Each loop of the source is a `method` with a `while` or `for` loop. Each method is proved equal
to a function on values. The properties are proved about those functions. .NET `decimal` is
modelled as `real` and `int` as a bounded `int`. Strings are `seq<char>`.

Modules, in dependency order:

| module | contents |
|---|---|
| `Wrappers`, `Tiers` | `Option`; "first success wins" (`FirstSome`, `FirstPositive`), "last success wins" (`LastSome`), running maximum (`MaxFromZero`) |
| `Text`, `Numbers`, `Patterns` | .NET whitespace, `Trim`, `Replace`, `Split` into lines; `decimal.TryParse` / `int.TryParse` on digit strings; the removal patterns and the kennitala pattern |
| `AmountParser` | `HtmlInvoiceParser.ParseDecimal` and `IsDecimal` |
| `NameCleaner` | `CleanSupplierName`, `CleanBuyerName`, `CleanItemName`, the sub-parsers' `CleanName` |
| `CellNumbers` | the sub-parsers' `ParseDecimal` (identical in both) |
| `InvoiceModel`, `HtmlDocument` | the records produced; the document as query results |
| `InvoiceNumber`, `Parties`, `InvoiceDate`, `Totals` | the header sections and `ExtractTotalAmount` |
| `TableParser`, `DivParser` | the two sub-parsers |
| `InvoiceParser` | `ParseInvoice`: sub-parser dispatch and the item-sum fallback |

## Model

| member | source | states |
|---|---|---|
| InvoiceParser.ParseInvoice | backend/Services/HtmlInvoiceParser.cs:25-398 | the invoice built section by section equals `InvoiceOf(doc, fileName)`, about which the lemmas below are proved |
| InvoiceParser.DispatchItems | backend/Services/HtmlInvoiceParser.cs:376-387 | the loop over the sub-parsers yields the items of the first one that accepts the document and finds at least one item, or nothing |
| InvoiceParser.ItemsOf | backend/Services/HtmlInvoiceParser.cs:381-384 | items are only ever taken from a sub-parser when they are non-empty |
| InvoiceParser.ItemsFromOneSubParser | backend/Services/HtmlInvoiceParser.cs:376-387 | the table layout wins whenever it accepts and finds items; otherwise the items are exactly the div layout's (when it accepts and finds some) or none; results are never merged |
| InvoiceParser.CanParseWith | backend/Services/HtmlInvoiceParser.cs:378 | each sub-parser's `CanParse` is the acceptance predicate the dispatch uses |
| InvoiceParser.ParseItemsWith | backend/Services/HtmlInvoiceParser.cs:380 | each sub-parser's `ParseItems` is the item list the dispatch uses |
| InvoiceParser.SumItems | backend/Services/HtmlInvoiceParser.cs:393-394 | the summing loop equals `ItemSum`, each item contributing its total with VAT when positive, else its net total |
| InvoiceParser.ItemSumAppend | backend/Services/HtmlInvoiceParser.cs:393-394 | the item sum is additive over concatenation |
| InvoiceParser.ItemSumNonNegative | backend/Services/HtmlInvoiceParser.cs:393-394 | items with non-negative amounts sum to a non-negative total |
| InvoiceParser.TotalFallback | backend/Services/HtmlInvoiceParser.cs:389-395 | a positive total from the tiers is kept as is; the item sum replaces it only when it is 0 and there are items; with no items it stays 0; the result is never negative |
| InvoiceParser.ItemsNonNegative | backend/Services/HtmlInvoiceParser.cs:376-387 | every dispatched item has non-negative totals |
| InvoiceParser.TableItemsNonNegative | backend/Services/Parsers/TableInvoiceSubParser.cs:117-122 | every table item's total and total with VAT are non-negative |
| InvoiceParser.DivItemsNonNegative | backend/Services/Parsers/DivInvoiceSubParser.cs:88-92 | every div item's total and total with VAT are non-negative |
| InvoiceParser.HeaderShapes | backend/Services/HtmlInvoiceParser.cs:174-369 | on every document the supplier name is non-empty, the buyer tax id is empty or ten digits, and the invoice date is a valid calendar date |
| InvoiceNumber.ResolveInvoiceNumber | backend/Services/HtmlInvoiceParser.cs:30-166 | the four strategies, each run only while the number is empty or still the file-name fallback, give `InvoiceNumberOf` |
| InvoiceNumber.NumberIsFallbackOrToken | backend/Services/HtmlInvoiceParser.cs:34-166 | the invoice number is the file name without extension or a non-empty token of `[A-Za-z0-9-]` |
| InvoiceNumber.NothingFoundKeepsFallback | backend/Services/HtmlInvoiceParser.cs:34-166 | when no strategy finds a number, the file name without extension is kept |
| InvoiceNumber.HeadingNumberIsFinal | backend/Services/HtmlInvoiceParser.cs:39-61 | a heading number that differs from the fallback is final: later strategies do not run |
| InvoiceNumber.NumberIsFirstSettlingTier | backend/Services/HtmlInvoiceParser.cs:39-166 | the invoice number is what the first of the four strategies found that is neither empty nor the file-name fallback, and the fallback when no strategy finds such a number |
| InvoiceNumber.NrTierTakesLongNumber | backend/Services/HtmlInvoiceParser.cs:126-142 | the general "Nr." scan returns a token of length at least 4, from the first container whose token is that long |
| InvoiceNumber.DetailsNumberAvoidsInvoiceHeading | backend/Services/HtmlInvoiceParser.cs:149-163 | a number from the `document_details` heading comes from a heading without "REIKNINGUR" (any case) and is its first token |
| InvoiceNumber.ScanHeading | backend/Services/HtmlInvoiceParser.cs:39-58 | the heading regex, then its looser fallback, equals `HeadingTier`, which returns only tokens |
| InvoiceNumber.ScanNumberContainer | backend/Services/HtmlInvoiceParser.cs:63-117 | the container's "Nr." match, else the sibling-div scan, equals `ContainerTier` |
| InvoiceNumber.ScanSiblings | backend/Services/HtmlInvoiceParser.cs:87-112 | the sibling-div loop, searching only after the div mentioning REIKNINGUR, equals `SiblingNumber` |
| InvoiceNumber.ScanNrContainers | backend/Services/HtmlInvoiceParser.cs:123-145 | the loop over "Nr." nodes equals `NrTier` |
| InvoiceNumber.ScanDetailsHeading | backend/Services/HtmlInvoiceParser.cs:151-165 | the details heading strategy equals `DetailsTier` |
| InvoiceNumber.FallbackIsStem | backend/Services/HtmlInvoiceParser.cs:34 | `Path.GetFileNameWithoutExtension` of `dir/stem.ext` and of `stem.ext` is `stem` |
| InvoiceNumber.LastIndexOf | backend/Services/HtmlInvoiceParser.cs:34 | None exactly when the character is absent; otherwise the position of its last occurrence |
| InvoiceNumber.FileName | backend/Services/HtmlInvoiceParser.cs:34 | the file name holds no directory separator and is the whole path when there is none |
| InvoiceNumber.TokenIsTrimmed | backend/Services/HtmlInvoiceParser.cs:47 | a captured token is unchanged by `Trim` |
| InvoiceNumber.NrProbe | backend/Services/HtmlInvoiceParser.cs:133-142 | a container's number is accepted only when it is a token of length at least 4 |
| Text.Lines | backend/Services/HtmlInvoiceParser.cs:168-172 | every line of the split text is trimmed and non-blank |
| Text.Trim | backend/Services/HtmlInvoiceParser.cs:179 | the result starts and ends with non-whitespace, and is empty exactly when the input is blank |
| Parties.ResolveSupplier | backend/Services/HtmlInvoiceParser.cs:176-222 | the supplier strategies (header div, seller `<b>`, seller heading or name div, "Seljandi" text scan, "Unknown Supplier") equal `SupplierNameOf` |
| Parties.SupplierNameOf | backend/Services/HtmlInvoiceParser.cs:222 | the supplier name is never empty |
| Parties.SupplierNameIsPieceOfSource | backend/Services/HtmlInvoiceParser.cs:176-222 | the supplier name is "Unknown Supplier" or a contiguous piece of the text of the strategy that produced it |
| Parties.ScanSupplierLines | backend/Services/HtmlInvoiceParser.cs:204-218 | the scan of the nine lines after the first "Seljandi" line equals `SupplierScan` |
| Parties.SupplierScan | backend/Services/HtmlInvoiceParser.cs:204-218 | the scan finds a name exactly when some line contains "Seljandi" and a company line lies among the nine lines after the first such line; the name is then the cleaned first company line of that window |
| Parties.CompanyLineNeedsOnlyHf | backend/Services/HtmlInvoiceParser.cs:210-212 | the "ehf" test is subsumed: a line counts as a company line exactly when it contains "hf" or "slf", ignoring case |
| Parties.FindLine | backend/Services/HtmlInvoiceParser.cs:204 | `FindIndex`: the first line containing the word, or None when no line does |
| Parties.FirstInWindow | backend/Services/HtmlInvoiceParser.cs:207-217 | the first accepted line in the window, all earlier ones rejected; None when none is accepted |
| Parties.ResolveBuyer | backend/Services/HtmlInvoiceParser.cs:225-309 | the buyer strategies equal `BuyerOf`, giving the name and the text to search for the kennitala |
| Parties.ScanBuyerLabels | backend/Services/HtmlInvoiceParser.cs:251-286 | the loop over "Kaupandi" label parents equals `LabelScan` |
| Parties.LabelSectionIsLastVisited | backend/Services/HtmlInvoiceParser.cs:254-285 | when no label parent yields a name, the section text is the last parent's text |
| Parties.ScanBuyerLines | backend/Services/HtmlInvoiceParser.cs:289-308 | the buyer text scan equals `BuyerLine` |
| Parties.BuyerScanTakesNextLine | backend/Services/HtmlInvoiceParser.cs:294-305 | because every split line is non-blank, the buyer text scan takes the line right after the first "Kaupandi" line |
| Parties.TaxIdOf | backend/Services/HtmlInvoiceParser.cs:311-333 | the buyer tax id is empty or exactly ten digits |
| Parties.TaxIdSources | backend/Services/HtmlInvoiceParser.cs:311-333 | the kennitala comes from the buyer section when one matches there, else from the UBLID element; it is empty exactly when neither holds one |
| Patterns.FirstTaxId | backend/Services/HtmlInvoiceParser.cs:314 | `\b(\d{6}[-]?\d{4})\b`: None exactly when no position matches; otherwise the leftmost match with its dash removed, ten digits |
| Patterns.TaxIdDigits | backend/Services/HtmlInvoiceParser.cs:314-317 | a kennitala match with its dash removed is ten digits |
| Patterns.TaxIdLen | backend/Services/HtmlInvoiceParser.cs:314 | a kennitala match is 0, 10 or 11 characters long |
| InvoiceDate.ResolveInvoiceDate | backend/Services/HtmlInvoiceParser.cs:336-369 | the node scan, then the line scan while the date is still the default, equals `InvoiceDateOf` |
| InvoiceDate.ScanDateNodes | backend/Services/HtmlInvoiceParser.cs:337-353 | the node loop stops at the first container whose first `dd.MM.yyyy` text is a real date |
| InvoiceDate.ScanDateLines | backend/Services/HtmlInvoiceParser.cs:356-369 | the line loop never stops early, so the last label line with a valid date wins |
| InvoiceDate.InvoiceDateIsValid | backend/Services/HtmlInvoiceParser.cs:336-369 | the invoice date is always a valid calendar date |
| InvoiceDate.ParseExactDate | backend/Services/HtmlInvoiceParser.cs:347 | `TryParseExact(.., "dd.MM.yyyy")` succeeds only on a date-shaped text naming a valid date |
| InvoiceDate.ParseFormattedDate | backend/Services/HtmlInvoiceParser.cs:347 | parsing the `dd.MM.yyyy` form of a valid date gives back that date |
| InvoiceDate.FormatParsedDate | backend/Services/HtmlInvoiceParser.cs:347 | formatting a parsed date gives back the text parsed |
| InvoiceDate.ImpossibleDateSkipped | backend/Services/HtmlInvoiceParser.cs:346-347 | a date-shaped text naming no real date ("31.02.2024") yields no date; later containers are then tried |
| InvoiceDate.LeapDay | backend/Services/HtmlInvoiceParser.cs:347 | 29.02.2024 parses; 29.02.2023 does not |
| InvoiceDate.FirstDateText | backend/Services/HtmlInvoiceParser.cs:340 | `(\d{2}\.\d{2}\.\d{4})`: a match is date-shaped; None exactly when no position matches |
| InvoiceDate.DaysInMonth | backend/Services/HtmlInvoiceParser.cs:347 | months have 28 to 31 days; February has 29 exactly in leap years |
| Totals.ExtractTotalAmount | backend/Services/HtmlInvoiceParser.cs:406-585 | the five tiers, returning early from the first positive one, equal `TotalOf` |
| Totals.TotalIsFirstFindingTier | backend/Services/HtmlInvoiceParser.cs:406-585 | the total is 0 exactly when every tier gives 0; otherwise it is the amount of the first tier above 0 |
| Totals.PayableTier | backend/Services/HtmlInvoiceParser.cs:408-414 | the `payable_amount` tier is non-negative |
| Totals.ScanTotalLabels | backend/Services/HtmlInvoiceParser.cs:416-469 | the label loop, over "Samtala reiknings", "Upphæð reiknings" and "Til greiðslu" in that order, equals `LabelTier` |
| Totals.ScanLabelHits | backend/Services/HtmlInvoiceParser.cs:429-467 | the loop over one label's nodes returns the first positive node amount |
| Totals.ScanHit | backend/Services/HtmlInvoiceParser.cs:432-466 | one label node's search (parent text, then `td`/`b`/`p` cells that pass `IsDecimal`, then following element siblings) equals `HitAmount` |
| Totals.HitAmountByParts | backend/Services/HtmlInvoiceParser.cs:436-465 | a node's amount is the parent text's when positive, else the first positive decimal cell, else the first positive following sibling |
| Totals.ScanSummary | backend/Services/HtmlInvoiceParser.cs:473-533 | the `upphaedsamantekt` loops equal `SummaryTier` |
| Totals.SummaryNeedsNet | backend/Services/HtmlInvoiceParser.cs:524-532 | the summary tier gives 0 without a positive net total; otherwise it gives net plus VAT (VAT possibly 0) |
| Totals.SummaryTier | backend/Services/HtmlInvoiceParser.cs:473-533 | the summary tier is non-negative and 0 when there is no summary block |
| Totals.ScanSamtalsRows | backend/Services/HtmlInvoiceParser.cs:535-562 | the "Samtals" loop keeps the running maximum, `SamtalsTier` |
| Totals.SamtalsTierIsLargest | backend/Services/HtmlInvoiceParser.cs:539-561 | the tier bounds every cell amount (or the parent text amount for rows without cells) and is one of them, or 0 |
| Totals.ScanTotalLines | backend/Services/HtmlInvoiceParser.cs:564-579 | the line scan returns the first positive amount of a line naming a total label, ignoring case |
| Totals.TotalOf | backend/Services/HtmlInvoiceParser.cs:406-585 | the total is never negative |
| AmountParser.ParseDecimal | backend/Services/HtmlInvoiceParser.cs:587-629 | the one-pass loop over the candidates equals `Amount` |
| AmountParser.AmountSelection | backend/Services/HtmlInvoiceParser.cs:603-628 | when some comma-bearing candidate is positive, the result is the largest of them; otherwise it is the largest candidate overall, or 0 |
| AmountParser.SelectionStep | backend/Services/HtmlInvoiceParser.cs:615-624 | one more candidate updates both running maxima exactly as the loop body does |
| AmountParser.AmountOfCandidates | backend/Services/HtmlInvoiceParser.cs:627-628 | with candidates, the decimal maximum wins when positive, else the overall maximum |
| AmountParser.Amount | backend/Services/HtmlInvoiceParser.cs:587-629 | an amount is never negative, and it is 0 for blank text and when no candidate is left after the currency words are removed |
| AmountParser.AmountOfGroupedAmount | backend/Services/HtmlInvoiceParser.cs:598 | "137.214,00" reads as 137214 |
| AmountParser.AmountOfUngroupedThousand | backend/Services/HtmlInvoiceParser.cs:599 | "1000" reads as 100: the first alternative of the pattern always wins and cuts the run after three digits |
| AmountParser.PlainAlternativeUnreachable | backend/Services/HtmlInvoiceParser.cs:599 | the second alternative `\d+(?:,\d{2})?` never matches: wherever it could, the first matches instead |
| AmountParser.AmountMatches | backend/Services/HtmlInvoiceParser.cs:599 | every candidate is non-empty |
| AmountParser.NoCurrencyInDigits | backend/Services/HtmlInvoiceParser.cs:595 | the currency removal leaves a text of digits, dots and commas unchanged |
| AmountParser.CandidateValue | backend/Services/HtmlInvoiceParser.cs:613-615 | a parsed candidate is non-negative |
| AmountParser.IsDecimal | backend/Services/HtmlInvoiceParser.cs:400-404 | a text accepted by `IsDecimal` contains a digit |
| AmountParser.IsDecimalAcceptsAmount | backend/Services/HtmlInvoiceParser.cs:400-404 | a text of digits and dots with a digit, with or without surrounding whitespace, is accepted |
| AmountParser.IsDecimalAcceptsCommaAmount | backend/Services/HtmlInvoiceParser.cs:400-404 | digits and dots, one comma, digits and dots, with a digit somewhere, with or without surrounding whitespace, is accepted |
| AmountParser.IsDecimalRejectsLetter | backend/Services/HtmlInvoiceParser.cs:400-404 | a text holding an ASCII letter other than the exponent marker 'e' or 'E' is rejected |
| AmountParser.IsDecimalRejectsTwoCommas | backend/Services/HtmlInvoiceParser.cs:400-404 | a text with two commas is rejected, since both become decimal points |
| AmountParser.IsDecimalExamples | backend/Services/HtmlInvoiceParser.cs:445-452 | the label tier reads a cell "137.214,00" and skips a cell "1.234 kr" |
| AmountParser.DigitSurvivesCleaning | backend/Services/HtmlInvoiceParser.cs:402-403 | every number `decimal.TryParse` accepts after the cleaning has a digit, which comes from the input |
| Numbers.ParsePointNumber | backend/Services/HtmlInvoiceParser.cs:615 | `decimal.TryParse` on digits and points succeeds exactly when there is at most one point and some digit; the value is non-negative |
| Numbers.ParseDigitsPointDigits | backend/Services/HtmlInvoiceParser.cs:615 | digits, a point and digits read as the integer part plus the fraction |
| Numbers.ParseInt32 | backend/Services/Parsers/TableInvoiceSubParser.cs:69-70 | `int.TryParse` on a digit string succeeds exactly when it is non-empty and at most `int.MaxValue` |
| Patterns.RemoveAllOnlyDeletes | backend/Services/HtmlInvoiceParser.cs:687-697 | removing the matches of a pattern only deletes characters |
| Patterns.RemoveAllNoMatch | backend/Services/HtmlInvoiceParser.cs:595 | a text where the pattern matches nowhere is unchanged |
| Patterns.CurrencyTokenStartsWithLetter | backend/Services/HtmlInvoiceParser.cs:595 | the currency pattern (ISK, kr, EUR or USD between word boundaries) matches only where a letter starts |
| NameCleaner.CleanSupplierName | backend/Services/HtmlInvoiceParser.cs:631-651 | a blank name is returned as is; otherwise the result is empty or starts with non-whitespace and ends with neither ',' nor '.' |
| NameCleaner.SupplierNameIsPieceOfRaw | backend/Services/HtmlInvoiceParser.cs:631-651 | the cleaned supplier name is a contiguous piece of the raw name; without a comma it is the trimmed name minus trailing ',' and '.' |
| NameCleaner.CutShape | backend/Services/HtmlInvoiceParser.cs:646 | an address pattern followed by `.*$` removes from a comma to the end of the last line, keeping only whitespace after the cut; without a match or a comma the text is unchanged |
| NameCleaner.TrimCut | backend/Services/HtmlInvoiceParser.cs:646-650 | after trimming, the cut name is the prefix before the leftmost address match |
| NameCleaner.AddressMatchEnd | backend/Services/HtmlInvoiceParser.cs:639-646 | an address match starts at a comma and only whitespace follows its end |
| NameCleaner.Leftmost | backend/Services/HtmlInvoiceParser.cs:646 | the regex engine's leftmost match position: None exactly when nothing matches, otherwise the first matching position |
| NameCleaner.CleanBuyerName | backend/Services/HtmlInvoiceParser.cs:653-677 | a blank name is returned as is; otherwise the result is empty or starts with non-whitespace and ends with neither ',' nor '.' |
| NameCleaner.BuyerNameDrawnFromRaw | backend/Services/HtmlInvoiceParser.cs:653-677 | the cleaned buyer name uses only characters of the raw name; with no comma and no kennitala it is the trimmed name minus trailing ',' and '.' |
| NameCleaner.CutDrawnFromRaw | backend/Services/HtmlInvoiceParser.cs:659-670 | the three address cuts only delete characters, and change nothing when there is no comma |
| NameCleaner.CleanItemName | backend/Services/HtmlInvoiceParser.cs:679-706 | a blank name is returned as is; otherwise no two whitespace characters are adjacent, and the result is empty or starts with non-whitespace and ends with none of ',', '.', '-' |
| NameCleaner.CleanItemNameDrawnFrom | backend/Services/HtmlInvoiceParser.cs:679-706 | item-name cleaning adds nothing but spaces |
| NameCleaner.StripItemCodesOnlyDeletes | backend/Services/HtmlInvoiceParser.cs:685-697 | the four code removals only delete characters |
| NameCleaner.CollapseLongWhiteSpace | backend/Services/HtmlInvoiceParser.cs:703 | `\s{2,}` to one space: no two whitespace characters are adjacent, and the first and last characters keep their kind |
| NameCleaner.CollapseLongDrawnFrom | backend/Services/HtmlInvoiceParser.cs:703 | collapsing adds nothing but spaces |
| NameCleaner.CleanName | backend/Services/Parsers/TableInvoiceSubParser.cs:163-171 | a blank cell gives the empty name |
| NameCleaner.CleanNameIsOneLine | backend/Services/Parsers/DivInvoiceSubParser.cs:121-129 | a cleaned cell name has no bar, no line break, no two adjacent whitespace characters, and no leading whitespace |
| Text.CollapseWhiteSpace | backend/Services/Parsers/TableInvoiceSubParser.cs:168 | `\s+` to one space: no two whitespace characters are adjacent and every whitespace left is a space |
| CellNumbers.CellAmount | backend/Services/Parsers/TableInvoiceSubParser.cs:173-187 | the sub-parsers' `ParseDecimal` is non-negative, and 0 for blank text and for text without a digit, dot or comma |
| CellNumbers.CellAmountFailedParse | backend/Services/Parsers/TableInvoiceSubParser.cs:181-186 | a first run with two commas cleans to two decimal points, which `decimal.TryParse` rejects, so the cell reads as 0 |
| CellNumbers.CellAmountFailedParseExample | backend/Services/Parsers/TableInvoiceSubParser.cs:181-186 | "1,2,3" reads as 0 |
| CellNumbers.FirstAmountRun | backend/Services/Parsers/TableInvoiceSubParser.cs:176-177 | `[\d.,]+`: None exactly when the text has no digit, dot or comma; otherwise the leftmost maximal run of them, a slice of the text with no amount character before it and none directly after it |
| CellNumbers.CellAmountOfFirstRun | backend/Services/Parsers/TableInvoiceSubParser.cs:173-187 | only the first run counts: a cell has the value of its first run of digits, dots and commas read alone, whatever text without such characters precedes the run and whatever follows it once a non-amount character ends it |
| CellNumbers.CellAmountIgnoresDots | backend/Services/Parsers/TableInvoiceSubParser.cs:179-185 | dots are always dropped: a cell without a comma reads as the integer written by its digits |
| CellNumbers.CellAmountCommaIsPoint | backend/Services/Parsers/DivInvoiceSubParser.cs:137-143 | with one comma, a cell reads as the digits before it plus the fraction written by the digits after it |
| CellNumbers.DottedQuantityQuirk | backend/Services/Parsers/TableInvoiceSubParser.cs:181 | "6.60" reads as 660, not 6.6 |
| TableParser.CanParse | backend/Services/Parsers/TableInvoiceSubParser.cs:10-25 | true exactly when some table contains "Vörunr", "Lýsing" and "Magn" |
| TableParser.IdentifyTables | backend/Services/Parsers/TableInvoiceSubParser.cs:37-48 | the items table is the first qualifying table and the discounts table the last |
| TableParser.ItemsTable | backend/Services/Parsers/TableInvoiceSubParser.cs:40-43 | None exactly when no table qualifies; otherwise the first qualifying table |
| TableParser.DiscountsTable | backend/Services/Parsers/TableInvoiceSubParser.cs:44-47 | None exactly when no table contains "Línunr." and "Listaverð"; otherwise the last that does |
| TableParser.LineNumber | backend/Services/Parsers/TableInvoiceSubParser.cs:69-70 | the digits of a cell parse as a line number exactly when there is a digit and the value fits in 32 bits |
| TableParser.ReadDiscounts | backend/Services/Parsers/TableInvoiceSubParser.cs:54-82 | the discount loop builds `DiscountMap` |
| TableParser.DiscountMapStep | backend/Services/Parsers/TableInvoiceSubParser.cs:76-79 | one more row adds its entry only when its line number is not yet recorded |
| TableParser.DiscountMapKeys | backend/Services/Parsers/TableInvoiceSubParser.cs:54-82 | a line number is in the map exactly when some row of six or more cells, outside `thead`, records it |
| TableParser.DiscountFirstWins | backend/Services/Parsers/TableInvoiceSubParser.cs:76-79 | the first row recording a line number supplies its list price and discount |
| TableParser.ReadItems | backend/Services/Parsers/TableInvoiceSubParser.cs:85-158 | the item loop builds `TableItems` |
| TableParser.ParseItems | backend/Services/Parsers/TableInvoiceSubParser.cs:27-161 | `ParseItems` equals `TableItemsOf`: the items table's rows, priced with the discounts table |
| TableParser.TableItemsStep | backend/Services/Parsers/TableInvoiceSubParser.cs:90-156 | one more row appends its item, if it keeps one |
| TableParser.TableItemsAppend | backend/Services/Parsers/TableInvoiceSubParser.cs:90-156 | the items of concatenated rows are the concatenated items, in row order |
| TableParser.TableItemsFromRows | backend/Services/Parsers/TableInvoiceSubParser.cs:90-156 | at most one item per row; every item comes from some row; every item has a non-zero quantity or total |
| TableParser.RowSkips | backend/Services/Parsers/TableInvoiceSubParser.cs:93-155 | a row yields no item exactly when it has fewer than nine cells, is in `thead`, has a blank id, has an id starting with "Samtals" (any case), or has zero quantity and zero total |
| TableParser.KeptItemPrices | backend/Services/Parsers/TableInvoiceSubParser.cs:105-148 | the column of every field of a kept item: id (cell 1, trimmed, non-empty), name (cell 2, cleaned), quantity (3), unit (4), unit price (5), VAT code (6), total (8), total with VAT from cell 9 when the row has more than nine cells and 0 otherwise; list price and discount come from the discount entry for its line number, else the unit price and 0 |
| TableParser.EighthCellIgnored | backend/Services/Parsers/TableInvoiceSubParser.cs:115 | the discount column (cell 7) and the cells after cell 9 are never read: rows that differ only there give the same item, also in the loop as written |
| TableParser.DiscountReachesItem | backend/Services/Parsers/TableInvoiceSubParser.cs:76-133 | an item whose line number the discounts table records first in row `i` gets row `i`'s list price and discount |
| TableParser.NoItemsTableNoItems | backend/Services/Parsers/TableInvoiceSubParser.cs:85 | without an items table there are no items |
| TableParser.RowItemAsWritten | backend/Services/Parsers/TableInvoiceSubParser.cs:93-123 | the row as written agrees with the corrected row except on rows of exactly eight cells |
| TableParser.EightCellRowFails | backend/Services/Parsers/TableInvoiceSubParser.cs:93-117 | an eight-cell data row passes the guard and then reads cell 8, which does not exist |
| TableParser.EightCellExample | backend/Services/Parsers/TableInvoiceSubParser.cs:93-117 | the row with the cells "1.", "6311", "Rækja", "10,00", "KGM", "1.990,00", "S11" and "0" fails as written |
| DivParser.ParseItems | backend/Services/Parsers/DivInvoiceSubParser.cs:16-119 | the holder loop builds `DivItems` |
| DivParser.DivItemsStep | backend/Services/Parsers/DivInvoiceSubParser.cs:22-116 | one more holder appends its item, if it has one |
| DivParser.DivItemsPerHolder | backend/Services/Parsers/DivInvoiceSubParser.cs:22-116 | one item per holder with at least five data divs and none for the others; list price is the unit price and discount 0; the quantity comes from the fourth data text |
| DivParser.HolderColumns | backend/Services/Parsers/DivInvoiceSubParser.cs:42-111 | every column of a holder's item: id from text 1, the cleaned name, quantity and unit from text 3, unit price (and list price) from text 4; VAT code, total and total with VAT from texts 5, 6 and 7 when present, else "" and 0; discount 0 |
| DivParser.ReferenceHolderItem | tests/InnriGreifi.Tests/ParserTests.cs:35-44 | the reference invoice's holder for item 6311 gives quantity 10, unit "KGM", unit and list price 1990, VAT code "S11", total 19900 and 22089 with VAT |
| DivParser.CannotParseNoItems | backend/Services/Parsers/DivInvoiceSubParser.cs:10-20 | without item holders there are no items |
| DivParser.NameHeaderWins | backend/Services/Parsers/DivInvoiceSubParser.cs:55-64 | a name-header div with a text child supplies the cleaned item name |
| DivParser.Texts | backend/Services/Parsers/DivInvoiceSubParser.cs:29 | one trimmed text per data div |
| DivParser.QuantityMatch | backend/Services/Parsers/DivInvoiceSubParser.cs:71-72 | `([\d.,]+)\s*([A-Za-z]*)` fails exactly when the text has no digit, dot or comma |
| DivParser.QuantityGroups | backend/Services/Parsers/DivInvoiceSubParser.cs:71 | the number group is a non-empty run of digits, dots and commas, and the unit group is ASCII letters |
| DivParser.QuantityAndUnit | backend/Services/Parsers/DivInvoiceSubParser.cs:68-80 | the quantity is non-negative |
| DivParser.QuantityIsCellAmount | backend/Services/Parsers/DivInvoiceSubParser.cs:68-80 | both branches give the quantity `ParseDecimal` reads from the whole text |
| DivParser.UnitIsLetters | backend/Services/Parsers/DivInvoiceSubParser.cs:69-76 | the unit is ASCII letters; without a number the quantity is 0 and the unit empty |
| DivParser.QuantityExample | backend/Services/Parsers/DivInvoiceSubParser.cs:35 | "10,00 KGM" splits into quantity 10 and unit "KGM" |

## Findings

| source | as written | input that shows it | evidently intended | confidence | as-written member | corrected member |
|---|---|---|---|---|---|---|
| backend/Services/Parsers/TableInvoiceSubParser.cs:93 | rows with fewer than 8 cells are skipped, but line 117 then reads `cells[8]`, the ninth cell | a non-header row of exactly eight cells with a non-blank id not starting with "Samtals", such as with the cells "1.", "6311", "Rækja", "10,00", "KGM", "1.990,00", "S11" and "0"; `cells[8]` throws `ArgumentOutOfRangeException` and `ParseItems` fails | the guard skips rows with fewer than 9 cells | not executed | TableParser.EightCellRowFails | TableParser.RowSkips |

`TableParser.RowItemAsWritten` models the row as written. Its `IndexOutOfRange` result is the
exception. `TableParser.EightCellExample` exhibits it on the row above. The rest of the model
uses the corrected `TableParser.RowItem`, which skips such rows.

## Left out

- HTML loading, HtmlAgilityPack's parser and the XPath queries are not modelled. The document is given as the results of those queries (module `HtmlDocument`).
- `WebUtility.HtmlDecode` is not modelled. The source decodes only in `ParseDecimal` (HtmlInvoiceParser.cs:592), in the invoice-number container and its sibling divs (:67, :92) and in the "Nr." containers (:131). Everywhere else, such as `IsDecimal`, the label `Contains` tests, the name cleaners and the tax-id and date patterns, it reads raw `InnerText`. The model therefore assumes that no text holds a character reference such as "&nbsp;" or "&amp;", so that decoding would change nothing.
- The identities `Id`, `InvoiceId` and the `Guid`s, and `CreatedAt` (the clock), are not modelled. They carry no extraction logic.
- The invoice object is built by assigning its fields in place in `ParseInvoice`. The model builds it as one value. No other code sees it before it is returned, so nothing depends on the order of the assignments.
- .NET `decimal` has 28-29 significant digits and a bounded range. The model uses unbounded `real`, so amounts too large for `decimal` parse here where `decimal.TryParse` would fail.
- `\d` is modelled as ASCII digits only. .NET's `\d` also matches other Unicode decimal digits.
- `\w`, `\b` and ignore-case matching are modelled for ASCII and Latin-1 letters only. Other Unicode letters and Unicode case folding are not modelled.
- Parties.BuyerInfoName: the `buyer_info` first-line fallback splits at line breaks only. The extra "<br>" separator at HtmlInvoiceParser.cs:240 is not modelled, because `InnerText` holds no tags.
- AmountParser.IsDecimal: `NumberStyles.Any` under the invariant culture also accepts whitespace before a trailing sign or a closing parenthesis ("5 -", "(5 )") and the currency sign "¤", with whitespace after it ("-¤ 5"). The model rejects these forms. Whitespace after a leading sign ("- 5") is rejected by both.
- InvoiceDate: the `DateTimeStyles` flags of the line tier (assume and adjust to universal time) and the `DateTime` kind are not modelled. The model keeps only the calendar date.
- InvoiceNumber.FileName: '/' is the only directory separator, as on Linux. A '\\' in a file name is an ordinary character there too.
- The sub-parsers' `CanParse` receives the supplier name, but neither uses it, so the model leaves the argument out.
- The div sub-parser's item-id regex test (DivInvoiceSubParser.cs:44-49) has an empty body. Its second count check, `texts.Count < 4` at line 41, is unreachable after the `< 5` check. Both are left out.
- Parties.SupplierScan: the text scan covers the nine lines after the "Seljandi" line (`i < idx + 10`), as the code does. The buyer scan after "Kaupandi" is the same.
- The later "detail" table of the table layout, with item-code and line-number overrides, does not exist in this version of `TableInvoiceSubParser.cs`. Nothing of it is modelled.
- Totals.TierAmounts: its contract gives only the number of tiers. What each tier yields is stated by the tier functions and their scanning methods. `TotalIsFirstFindingTier` ties the tiers to the total.

=== FILE: amount_parser.dfy ===
/**
 * The parser's own number scanner (`HtmlInvoiceParser.ParseDecimal` and
 * `IsDecimal`): Icelandic amounts such as "137.214,00" (dots group
 * thousands, the comma starts two decimals) found in noisy text.
 */
module AmountParser {
  import opened Wrappers
  import opened Text
  import opened Numbers
  import opened Tiers
  import opened Patterns

  // ---------------------------------------------------------------------------
  // The amount pattern  \d{1,3}(?:\.\d{3})*(?:,\d{2})?|\d+(?:,\d{2})?
  // ---------------------------------------------------------------------------

  /** `(?:\.\d{3})*`, greedy: the length of the thousands groups starting at `j`. */
  function ThousandsGroupsLen(s: string, j: nat): (n: nat)
    requires j <= |s|
    ensures j + n <= |s|
    decreases |s| - j
  {
    if j + 4 <= |s| && s[j] == '.' && IsDigit(s[j + 1]) && IsDigit(s[j + 2]) && IsDigit(s[j + 3])
    then 4 + ThousandsGroupsLen(s, j + 4)
    else 0
  }

  /** `(?:,\d{2})?`: 3 when a comma and two digits start at `k`, else 0. */
  function DecimalsLen(s: string, k: nat): (n: nat)
    requires k <= |s|
    ensures k + n <= |s|
  {
    if k + 3 <= |s| && s[k] == ',' && IsDigit(s[k + 1]) && IsDigit(s[k + 2]) then 3 else 0
  }

  /** First alternative `\d{1,3}(?:\.\d{3})*(?:,\d{2})?` at `i`: its length, 0 when it does not match. */
  function GroupedLen(s: string, i: nat): (n: nat)
    requires i <= |s|
    ensures i + n <= |s|
  {
    var d := DigitRun(s, i);
    if d == 0 then 0
    else
      var lead := if d < 3 then d else 3;
      var g := ThousandsGroupsLen(s, i + lead);
      lead + g + DecimalsLen(s, i + lead + g)
  }

  /** Second alternative `\d+(?:,\d{2})?` at `i`: its length, 0 when it does not match. */
  function PlainLen(s: string, i: nat): (n: nat)
    requires i <= |s|
    ensures i + n <= |s|
  {
    var d := DigitRun(s, i);
    if d == 0 then 0 else d + DecimalsLen(s, i + d)
  }

  /** The match of the whole pattern at `i`: the first alternative that matches wins. */
  function AmountMatchLen(s: string, i: nat): (n: nat)
    requires i <= |s|
    ensures i + n <= |s|
  {
    if GroupedLen(s, i) > 0 then GroupedLen(s, i) else PlainLen(s, i)
  }

  /**
   * The second alternative never decides a match: wherever it would match, the
   * first one matches too, so a run of more than three digits is cut after
   * its third digit.
   */
  lemma PlainAlternativeUnreachable(s: string, i: nat)
    requires i <= |s|
    ensures AmountMatchLen(s, i) == GroupedLen(s, i)
    ensures PlainLen(s, i) > 0 <==> GroupedLen(s, i) > 0
  {
  }

  /** `Regex.Matches(s, pattern)` from index `i`: successive leftmost, non-overlapping matches. */
  function AmountMatches(s: string, i: nat): (ms: seq<string>)
    requires i <= |s|
    ensures forall m :: m in ms ==> |m| > 0
    decreases |s| - i
  {
    if i == |s| then []
    else
      var n := AmountMatchLen(s, i);
      if n > 0 then [s[i..i + n]] + AmountMatches(s, i + n) else AmountMatches(s, i + 1)
  }

  // ---------------------------------------------------------------------------
  // Candidate values and the selection loop
  // ---------------------------------------------------------------------------

  /** `valStr.Replace(".", "").Replace(",", ".")`. */
  function StripDotsCommaToPoint(m: string): (r: string)
  {
    ReplaceChar(ReplaceChar(m, '.', ""), ',', ".")
  }

  /** After the replacement a text of digits, dots and commas holds only digits and points. */
  lemma {:induction false} StripKeepsDigitsAndPoints(m: string)
    requires forall i :: 0 <= i < |m| ==> IsDigit(m[i]) || m[i] == '.' || m[i] == ','
    ensures DigitsAndPoints(StripDotsCommaToPoint(m))
  {
    DotsRemoved(m);
    CommasToPoints(ReplaceChar(m, '.', ""));
  }

  lemma {:induction false} DotsRemoved(m: string)
    requires forall i :: 0 <= i < |m| ==> IsDigit(m[i]) || m[i] == '.' || m[i] == ','
    ensures forall i :: 0 <= i < |ReplaceChar(m, '.', "")| ==>
      IsDigit(ReplaceChar(m, '.', "")[i]) || ReplaceChar(m, '.', "")[i] == ','
  {
    if |m| > 0 {
      DotsRemoved(m[1..]);
    }
  }

  lemma {:induction false} CommasToPoints(m: string)
    requires forall i :: 0 <= i < |m| ==> IsDigit(m[i]) || m[i] == ','
    ensures DigitsAndPoints(ReplaceChar(m, ',', "."))
  {
    if |m| > 0 {
      CommasToPoints(m[1..]);
    }
  }

  predicate AmountChars(m: string) {
    forall i :: 0 <= i < |m| ==> IsDigit(m[i]) || m[i] == '.' || m[i] == ','
  }

  /** Dropping the dots of a text of digits and dots leaves its digits. */
  lemma {:induction false} DotsDropped(m: string)
    requires forall i :: 0 <= i < |m| ==> IsDigit(m[i]) || m[i] == '.'
    ensures ReplaceChar(m, '.', "") == DigitsOnly(m)
  {
    if |m| > 0 {
      DotsDropped(m[1..]);
    }
  }

  /** Without a comma, cleaning keeps the digits and nothing else. */
  lemma StripWithoutComma(m: string)
    requires AmountChars(m) && ',' !in m
    ensures StripDotsCommaToPoint(m) == DigitsOnly(m)
  {
    DotsDropped(m);
    assert ',' !in DigitsOnly(m);
    ReplaceCharAbsent(DigitsOnly(m), ',', ".");
  }

  /** With one comma, cleaning gives the digits before it, a point, and the digits after it. */
  lemma StripWithComma(x: string, y: string)
    requires AmountChars(x) && AmountChars(y) && ',' !in x && ',' !in y
    ensures StripDotsCommaToPoint(x + "," + y) == DigitsOnly(x) + "." + DigitsOnly(y)
  {
    var m := x + "," + y;
    ReplaceCharAppend(x + ",", y, '.', "");
    ReplaceCharAppend(x, ",", '.', "");
    DotsDropped(x);
    DotsDropped(y);
    var dx, dy := DigitsOnly(x), DigitsOnly(y);
    assert ReplaceChar(",", '.', "") == ",";
    assert ReplaceChar(m, '.', "") == dx + [','] + dy;
    assert ',' !in dx && ',' !in dy;
    ReplaceCharOnce(dx, dy, ',', ".");
  }

  /** Two runs of digits and dots joined by a comma form one non-blank run. */
  lemma CommaJoinIsRun(x: string, y: string)
    requires AmountChars(x) && AmountChars(y)
    ensures AmountChars(x + "," + y) && !IsBlank(x + "," + y)
  {
    var m := x + "," + y;
    forall i | 0 <= i < |m| ensures IsDigit(m[i]) || m[i] == '.' || m[i] == ',' {
      if i < |x| { assert m[i] == x[i]; } else if i > |x| { assert m[i] == y[i - |x| - 1]; }
    }
    assert !IsWhiteSpace(m[|x|]);
  }

  /** `decimal.TryParse` on a cleaned candidate; None when the text is not a number. */
  function CandidateValue(m: string): (r: Option<real>)
    ensures r.Some? ==> r.value >= 0.0
  {
    if AmountChars(m) then
      StripKeepsDigitsAndPoints(m);
      ParsePointNumber(StripDotsCommaToPoint(m))
    else None
  }

  /** The values of the candidates that parse, in order. */
  function ParsedValues(ms: seq<string>): (vs: seq<real>)
    ensures forall j :: 0 <= j < |vs| ==> vs[j] >= 0.0
  {
    if |ms| == 0 then []
    else
      var v := CandidateValue(ms[|ms| - 1]);
      ParsedValues(ms[..|ms| - 1]) + (if v.Some? then [v.value] else [])
  }

  /** The values of the candidates that contain a comma and parse, in order. */
  function CommaValues(ms: seq<string>): (vs: seq<real>)
    ensures forall j :: 0 <= j < |vs| ==> vs[j] >= 0.0
  {
    if |ms| == 0 then []
    else
      var v := CandidateValue(ms[|ms| - 1]);
      CommaValues(ms[..|ms| - 1]) + (if v.Some? && ',' in ms[|ms| - 1] then [v.value] else [])
  }

  /** No candidate amount is left once the currency words are removed. */
  predicate NoCandidate(input: string) {
    |AmountMatches(RemoveAll(CurrencyToken, input, 0), 0)| == 0
  }

  /**
   * The value `ParseDecimal` reads from `input`: 0 for blank text or when no
   * candidate matches; otherwise the largest comma-bearing candidate when one
   * is positive, else the largest candidate.
   */
  function Amount(input: string): (r: real)
    ensures r >= 0.0
    ensures IsBlank(input) ==> r == 0.0
    ensures NoCandidate(input) ==> r == 0.0
  {
    if IsBlank(input) then 0.0
    else
      var ms := AmountMatches(RemoveAll(CurrencyToken, input, 0), 0);
      if |ms| == 0 then 0.0
      else
        var withDecimals := MaxFromZero(CommaValues(ms));
        if withDecimals > 0.0 then withDecimals else MaxFromZero(ParsedValues(ms))
  }

  /**
   * `ParseDecimal(input)`: one pass over the candidates keeping the largest
   * value and the largest comma-bearing value.
   */
  method ParseDecimal(input: string) returns (r: real)
    ensures r == Amount(input)
  {
    if IsBlank(input) {
      return 0.0;
    }
    var cleaned := RemoveAll(CurrencyToken, input, 0);
    var matches := AmountMatches(cleaned, 0);
    if |matches| == 0 {
      return 0.0;
    }
    var maxAmount := 0.0;
    var maxAmountWithDecimals := 0.0;
    for i := 0 to |matches|
      invariant maxAmount == MaxFromZero(ParsedValues(matches[..i]))
      invariant maxAmountWithDecimals == MaxFromZero(CommaValues(matches[..i]))
    {
      var valStr := matches[i];
      var result := CandidateValue(valStr);
      SelectionStep(matches, i);
      if result.Some? {
        if result.value > maxAmount {
          maxAmount := result.value;
        }
        if ',' in valStr && result.value > maxAmountWithDecimals {
          maxAmountWithDecimals := result.value;
        }
      }
    }
    assert matches[..|matches|] == matches;
    r := if maxAmountWithDecimals > 0.0 then maxAmountWithDecimals else maxAmount;
  }

  /** The values of one more candidate: the previous values, then this one if it parses. */
  lemma ValuesStep(ms: seq<string>, i: nat)
    requires i < |ms|
    ensures var v := CandidateValue(ms[i]);
      && ParsedValues(ms[..i + 1]) == ParsedValues(ms[..i]) + (if v.Some? then [v.value] else [])
      && CommaValues(ms[..i + 1]) == CommaValues(ms[..i]) + (if v.Some? && ',' in ms[i] then [v.value] else [])
  {
    var p := ms[..i + 1];
    assert p[..|p| - 1] == ms[..i];
    assert p[|p| - 1] == ms[i];
  }

  /** One more candidate updates both running maxima as the loop body does. */
  lemma SelectionStep(ms: seq<string>, i: nat)
    requires i < |ms|
    ensures var v := CandidateValue(ms[i]);
      && MaxFromZero(ParsedValues(ms[..i + 1])) ==
         (if v.Some? && v.value > MaxFromZero(ParsedValues(ms[..i])) then v.value else MaxFromZero(ParsedValues(ms[..i])))
      && MaxFromZero(CommaValues(ms[..i + 1])) ==
         (if v.Some? && ',' in ms[i] && v.value > MaxFromZero(CommaValues(ms[..i])) then v.value
          else MaxFromZero(CommaValues(ms[..i])))
  {
    var v := CandidateValue(ms[i]);
    ValuesStep(ms, i);
    var pv, cv := ParsedValues(ms[..i]), CommaValues(ms[..i]);
    if v.Some? {
      MaxFromZeroAppend(pv, v.value);
      if ',' in ms[i] {
        MaxFromZeroAppend(cv, v.value);
      } else {
        assert cv + [] == cv;
      }
    } else {
      assert pv + [] == pv;
      assert cv + [] == cv;
    }
  }

  /**
   * The selection rule: when some comma-bearing candidate is positive the
   * result is the largest comma-bearing candidate; otherwise it is the largest
   * candidate overall (0 when there is none).
   */
  lemma AmountSelection(input: string)
    requires !IsBlank(input)
    ensures var ms := AmountMatches(RemoveAll(CurrencyToken, input, 0), 0);
      var cs := CommaValues(ms);
      var vs := ParsedValues(ms);
      && ((exists k :: 0 <= k < |cs| && cs[k] > 0.0) ==>
            (Amount(input) in cs && forall k :: 0 <= k < |cs| ==> cs[k] <= Amount(input)))
      && ((forall k :: 0 <= k < |cs| ==> cs[k] <= 0.0) ==>
            ((Amount(input) == 0.0 || Amount(input) in vs) && forall k :: 0 <= k < |vs| ==> vs[k] <= Amount(input)))
  {
    var ms := AmountMatches(RemoveAll(CurrencyToken, input, 0), 0);
    if |ms| == 0 {
      assert ParsedValues(ms) == [] && CommaValues(ms) == [];
    }
  }

  /** `Amount` on a non-blank text whose candidates are `ms`. */
  lemma AmountOfCandidates(input: string, ms: seq<string>)
    requires !IsBlank(input) && AmountMatches(RemoveAll(CurrencyToken, input, 0), 0) == ms && |ms| > 0
    ensures Amount(input) ==
      if MaxFromZero(CommaValues(ms)) > 0.0 then MaxFromZero(CommaValues(ms)) else MaxFromZero(ParsedValues(ms))
  {
  }

  /** A grouped amount with decimals reads as written: "137.214,00" is 137214. */
  lemma AmountOfGroupedAmount()
    ensures Amount("137.214,00") == 137214.0
  {
    var s := "137.214,00";
    NotBlank(s);
    assert AmountChars(s);
    NoCurrencyInDigits(s);
    GroupedAmountIsOneMatch();
    AmountOfCandidates(s, [s]);
    GroupedAmountCommaValues();
    SingletonMax(137214.0);
  }

  lemma NotBlank(s: string)
    requires |s| > 0 && !IsWhiteSpace(s[0])
    ensures !IsBlank(s)
  {
  }

  lemma SingletonMax(x: real)
    requires x >= 0.0
    ensures MaxFromZero([x]) == x
  {
    assert [x][..0] == [];
  }

  lemma GroupedAmountCommaValues()
    ensures CommaValues(["137.214,00"]) == [137214.0]
    ensures ParsedValues(["137.214,00"]) == [137214.0]
  {
    hide CandidateValue;
    GroupedAmountValue();
    assert ["137.214,00"][..0] == [];
  }

  lemma GroupedAmountIsOneMatch()
    ensures AmountMatches("137.214,00", 0) == ["137.214,00"]
  {
    var s := "137.214,00";
    assert DigitRun(s, 3) == 0;
    assert DigitRun(s, 2) == 1;
    assert DigitRun(s, 1) == 2;
    assert DigitRun(s, 0) == 3;
    assert ThousandsGroupsLen(s, 7) == 0;
    assert ThousandsGroupsLen(s, 3) == 4;
    assert DecimalsLen(s, 7) == 3;
    assert GroupedLen(s, 0) == 10;
    assert AmountMatches(s, 10) == [];
    assert s[0..10] == s;
  }

  lemma GroupedAmountValue()
    ensures CandidateValue("137.214,00") == Some(137214.0)
  {
    var s := "137.214,00";
    assert AmountChars(s);
    GroupedAmountStripped();
    GroupedAmountParsed();
  }

  lemma GroupedAmountStripped()
    ensures StripDotsCommaToPoint("137.214,00") == "137214.00"
  {
    hide ReplaceChar;
    ReplaceCharOnce("137", "214,00", '.', "");
    assert "137" + ['.'] + "214,00" == "137.214,00";
    assert "137" + "" + "214,00" == "137214,00";
    ReplaceCharOnce("137214", "00", ',', ".");
    assert "137214" + [','] + "00" == "137214,00";
    assert "137214" + "." + "00" == "137214.00";
  }

  lemma GroupedAmountParsed()
    ensures ParsePointNumber("137214.00") == Some(137214.0)
  {
    hide DigitsValue, FractionValue, ParsePointNumber;
    assert AllDigits("137214") && AllDigits("00");
    ParseDigitsPointDigits("137214", "00");
    assert "137214" + "." + "00" == "137214.00";
    ValueOf137214();
    ValueOfZeroFraction();
  }

  lemma ValueOf137214()
    ensures DigitsValue("137214") == 137214
  {
    assert "137214"[..5] == "13721";
    assert "13721"[..4] == "1372";
    assert "1372"[..3] == "137";
    assert "137"[..2] == "13";
    assert "13"[..1] == "1";
    assert "1"[..0] == "";
  }

  lemma ValueOfZeroFraction()
    ensures FractionValue("00") == 0.0
  {
    assert "00"[1..] == "0";
    assert "0"[1..] == "";
  }

  /** A text of digits, dots and commas holds no currency token. */
  lemma NoCurrencyInDigits(s: string)
    requires AmountChars(s)
    ensures RemoveAll(CurrencyToken, s, 0) == s
  {
    forall k | 0 <= k < |s| ensures MatchLen(CurrencyToken, s, k) == 0 {
      CurrencyTokenStartsWithLetter(s, k);
    }
    RemoveAllNoMatch(CurrencyToken, s);
  }

  /**
   * As written, a run of more than three digits without thousands dots is cut
   * after its third digit: "1000" yields the candidates "100" and "0", so its
   * amount is 100.
   */
  lemma AmountOfUngroupedThousand()
    ensures Amount("1000") == 100.0
  {
    var s := "1000";
    NotBlank(s);
    assert AmountChars(s);
    NoCurrencyInDigits(s);
    UngroupedThousandMatches();
    var ms := ["100", "0"];
    AmountOfCandidates(s, ms);
    UngroupedThousandValues();
    assert MaxFromZero([100.0, 0.0]) == 100.0 by {
      assert [100.0, 0.0][..1] == [100.0];
      SingletonMax(100.0);
    }
    assert MaxFromZero([]) == 0.0;
  }

  lemma UngroupedThousandValues()
    ensures CommaValues(["100", "0"]) == []
    ensures ParsedValues(["100", "0"]) == [100.0, 0.0]
  {
    hide CandidateValue;
    SmallValues();
    var ms := ["100", "0"];
    assert ms[..1] == ["100"] && ms[..1][..0] == [];
  }

  lemma UngroupedThousandMatches()
    ensures AmountMatches("1000", 0) == ["100", "0"]
  {
    var s := "1000";
    assert DigitRun(s, 4) == 0;
    assert DigitRun(s, 3) == 1;
    assert DigitRun(s, 0) == 4;
    assert ThousandsGroupsLen(s, 3) == 0;
    assert DecimalsLen(s, 3) == 0;
    assert GroupedLen(s, 0) == 3;
    assert ThousandsGroupsLen(s, 4) == 0;
    assert DecimalsLen(s, 4) == 0;
    assert GroupedLen(s, 3) == 1;
    assert AmountMatches(s, 4) == [];
    assert s[3..4] == "0";
    assert AmountMatches(s, 3) == ["0"];
    assert s[0..3] == "100";
  }

  lemma SmallValues()
    ensures CandidateValue("100") == Some(100.0)
    ensures CandidateValue("0") == Some(0.0)
  {
    assert AmountChars("100") && AmountChars("0");
    assert ReplaceChar("100", '.', "") == "100";
    assert ReplaceChar("100", ',', ".") == "100";
    assert ReplaceChar("0", '.', "") == "0";
    assert ReplaceChar("0", ',', ".") == "0";
    assert IndexOfChar("100", '.') == 3;
    assert "100"[..3] == "100";
    assert "100"[..2] == "10";
    assert "10"[..1] == "1";
    assert "1"[..0] == "";
    assert IndexOfChar("0", '.') == 1;
    assert "0"[..1] == "0";
    assert "0"[..0] == "";
  }

  // ---------------------------------------------------------------------------
  // IsDecimal
  // ---------------------------------------------------------------------------

  predicate IsSign(c: char) { c == '+' || c == '-' }

  /** Index of the first exponent letter 'e' or 'E', or |m|. */
  function ExponentIndex(m: string): (k: nat)
    ensures k <= |m|
    ensures forall j :: 0 <= j < k ==> m[j] != 'e' && m[j] != 'E'
  {
    if |m| == 0 || m[0] == 'e' || m[0] == 'E' then 0 else 1 + ExponentIndex(m[1..])
  }

  /** Digits with at most one decimal point and at least one digit. */
  predicate IsNumberBody(b: string) {
    DigitsAndPoints(b) && AtMostOnePoint(b) && HasDigit(b)
  }

  /** `e`/`E`, an optional sign, then at least one digit. */
  predicate IsExponent(e: string) {
    |e| >= 2 && (e[0] == 'e' || e[0] == 'E')
    && if IsSign(e[1]) then |e| >= 3 && AllDigits(e[2..]) else AllDigits(e[1..])
  }

  /** A number body followed by an optional exponent. */
  predicate IsMantissa(m: string) {
    var k := ExponentIndex(m);
    IsNumberBody(m[..k]) && (k == |m| || IsExponent(m[k..]))
  }

  /**
   * The texts `decimal.TryParse(t, NumberStyles.Any, InvariantCulture)` accepts
   * once they hold no group separators: a leading or trailing sign, or
   * enclosing parentheses, around a mantissa.
   */
  predicate IsNetNumber(t: string) {
    |t| > 0 &&
    (IsMantissa(t)
     || (IsSign(t[0]) && IsMantissa(t[1..]))
     || (IsSign(t[|t| - 1]) && IsMantissa(t[..|t| - 1]))
     || (|t| >= 2 && t[0] == '(' && t[|t| - 1] == ')' && IsMantissa(t[1..|t| - 1])))
  }

  /** `IsDecimal(input)`: the trimmed text, dots removed and the comma made a point, parses as a number. */
  function IsDecimal(input: string): (b: bool)
    ensures b ==> exists i :: 0 <= i < |input| && IsDigit(input[i])
  {
    var clean := StripDotsCommaToPoint(Trim(input));
    var ok := IsNetNumber(clean);
    if ok then
      DigitSurvivesCleaning(input);
      ok
    else ok
  }

  /** Every mantissa has a digit, and every digit of the cleaned text comes from the input. */
  lemma DigitSurvivesCleaning(input: string)
    requires IsNetNumber(StripDotsCommaToPoint(Trim(input)))
    ensures exists i :: 0 <= i < |input| && IsDigit(input[i])
  {
    var t := StripDotsCommaToPoint(Trim(input));
    var c := NetNumberDigit(t);
    DigitInReplaced(ReplaceChar(Trim(input), '.', ""), ',', ".", c);
    var c2 :| 0 <= c2 < |ReplaceChar(Trim(input), '.', "")| && IsDigit(ReplaceChar(Trim(input), '.', "")[c2]);
    DigitInReplaced(Trim(input), '.', "", c2);
    var c3 :| 0 <= c3 < |Trim(input)| && IsDigit(Trim(input)[c3]);
    TrimIsInfix(input, c3);
  }

  /** The position of a digit in a number text. */
  lemma NetNumberDigit(t: string) returns (c: nat)
    requires IsNetNumber(t)
    ensures c < |t| && IsDigit(t[c])
  {
    var off: nat, m: string;
    if IsMantissa(t) {
      off, m := 0, t;
    } else if IsSign(t[0]) && IsMantissa(t[1..]) {
      off, m := 1, t[1..];
    } else if IsSign(t[|t| - 1]) && IsMantissa(t[..|t| - 1]) {
      off, m := 0, t[..|t| - 1];
    } else {
      off, m := 1, t[1..|t| - 1];
    }
    assert off + |m| <= |t| && forall j :: 0 <= j < |m| ==> m[j] == t[off + j];
    var j := MantissaDigit(m);
    c := off + j;
  }

  lemma MantissaDigit(m: string) returns (j: nat)
    requires IsMantissa(m)
    ensures j < |m| && IsDigit(m[j])
  {
    var k := ExponentIndex(m);
    assert HasDigit(m[..k]);
    j :| 0 <= j < |m[..k]| && IsDigit(m[..k][j]);
  }

  /** A digit of a replaced text is a digit of the original (the replacements hold no digits). */
  lemma {:induction false} DigitInReplaced(s: string, from: char, to: string, c: nat)
    requires !IsDigit(from) && forall j :: 0 <= j < |to| ==> !IsDigit(to[j])
    requires c < |ReplaceChar(s, from, to)| && IsDigit(ReplaceChar(s, from, to)[c])
    ensures exists i :: 0 <= i < |s| && IsDigit(s[i])
  {
    var head := if s[0] == from then to else [s[0]];
    assert ReplaceChar(s, from, to) == head + ReplaceChar(s[1..], from, to);
    if c < |head| {
      assert IsDigit(s[0]);
    } else {
      DigitInReplaced(s[1..], from, to, c - |head|);
      var i :| 0 <= i < |s[1..]| && IsDigit(s[1..][i]);
      assert IsDigit(s[i + 1]);
    }
  }

  /** Every character of the trimmed text is a character of the text. */
  lemma TrimIsInfix(s: string, c: nat)
    requires c < |Trim(s)|
    ensures exists i :: 0 <= i < |s| && s[i] == Trim(s)[c]
  {
    var t := TrimStart(s);
    assert Trim(s) == TrimEnd(t);
    assert TrimEnd(t)[c] == t[c];
    assert t[c] == s[|s| - |t| + c];
  }

  // ---------------------------------------------------------------------------
  // Which texts IsDecimal accepts
  // ---------------------------------------------------------------------------

  /** A text of digits and points holds no exponent letter. */
  lemma {:induction false} NoExponentLetter(b: string)
    requires DigitsAndPoints(b)
    ensures ExponentIndex(b) == |b|
    decreases |b|
  {
    if |b| > 0 {
      assert DigitsAndPoints(b[1..]) by {
        forall i | 0 <= i < |b[1..]| ensures IsDigit(b[1..][i]) || b[1..][i] == '.' {
          assert b[1..][i] == b[i + 1];
        }
      }
      NoExponentLetter(b[1..]);
    }
  }

  /** A number body without exponent is a whole number text. */
  lemma BodyIsNetNumber(b: string)
    requires IsNumberBody(b)
    ensures IsNetNumber(b)
  {
    NoExponentLetter(b);
    assert b[..|b|] == b;
  }

  /** Keeping the digits of a text with a digit keeps at least one. */
  lemma {:induction false} DigitsOnlyKeepsDigit(s: string)
    requires HasDigit(s)
    ensures |DigitsOnly(s)| > 0
    decreases |s|
  {
    if !IsDigit(s[0]) {
      var i :| 0 <= i < |s| && IsDigit(s[i]);
      assert IsDigit(s[1..][i - 1]);
      DigitsOnlyKeepsDigit(s[1..]);
    }
  }

  /** `IsDecimal` is the number test on the trimmed, cleaned text. */
  lemma IsDecimalMeans(input: string)
    ensures IsDecimal(input) == IsNetNumber(StripDotsCommaToPoint(Trim(input)))
  {
  }

  /** The digits of a text with a digit form a number body. */
  lemma DigitsBody(m: string)
    requires HasDigit(m)
    ensures IsNumberBody(DigitsOnly(m))
  {
    DigitsOnlyKeepsDigit(m);
    var d := DigitsOnly(m);
    assert IsDigit(d[0]);
  }

  /** Digits, one point, digits, with a digit somewhere, form a number body. */
  lemma PointBody(dx: string, dy: string)
    requires AllDigits(dx) && AllDigits(dy) && |dx| + |dy| > 0
    ensures IsNumberBody(dx + "." + dy)
  {
    var b := dx + "." + dy;
    forall i | 0 <= i < |b| ensures IsDigit(b[i]) || b[i] == '.'
      ensures b[i] == '.' ==> i == |dx|
    {
      if i > |dx| {
        assert b[i] == dy[i - |dx| - 1];
      }
    }
    if |dx| > 0 {
      assert IsDigit(b[0]);
    } else {
      assert IsDigit(b[|dx| + 1]);
    }
  }

  /**
   * `IsDecimal` accepts an amount without a comma, such as "1.234" or "660",
   * when it has a digit, with or without surrounding whitespace.
   */
  lemma IsDecimalAcceptsAmount(w1: string, m: string, w2: string)
    requires IsBlank(w1) && IsBlank(w2)
    requires AmountChars(m) && ',' !in m && HasDigit(m)
    ensures IsDecimal(w1 + m + w2)
  {
    hide IsDecimal, IsNetNumber, IsNumberBody, Trim, StripDotsCommaToPoint, DigitsOnly;
    assert !IsWhiteSpace(m[0]) && !IsWhiteSpace(m[|m| - 1]);
    TrimPadded(w1, m, w2);
    StripWithoutComma(m);
    DigitsBody(m);
    BodyIsNetNumber(DigitsOnly(m));
    IsDecimalMeans(w1 + m + w2);
  }

  /**
   * `IsDecimal` accepts an amount with one comma, such as "137.214,00", when
   * it has a digit, with or without surrounding whitespace.
   */
  lemma IsDecimalAcceptsCommaAmount(w1: string, x: string, y: string, w2: string)
    requires IsBlank(w1) && IsBlank(w2)
    requires AmountChars(x) && AmountChars(y) && ',' !in x && ',' !in y
    requires HasDigit(x) || HasDigit(y)
    ensures IsDecimal(w1 + (x + "," + y) + w2)
  {
    hide IsDecimal, IsNetNumber, IsNumberBody, Trim, StripDotsCommaToPoint, DigitsOnly;
    var m := x + "," + y;
    CommaJoinIsRun(x, y);
    assert !IsWhiteSpace(m[0]) && !IsWhiteSpace(m[|m| - 1]);
    TrimPadded(w1, m, w2);
    StripWithComma(x, y);
    if HasDigit(x) {
      DigitsOnlyKeepsDigit(x);
    } else {
      DigitsOnlyKeepsDigit(y);
    }
    PointBody(DigitsOnly(x), DigitsOnly(y));
    BodyIsNetNumber(DigitsOnly(x) + "." + DigitsOnly(y));
    IsDecimalMeans(w1 + m + w2);
  }

  /** The characters a number text can hold. */
  predicate IsNumberChar(c: char) {
    IsDigit(c) || c == '.' || IsSign(c) || c == '(' || c == ')' || c == 'e' || c == 'E'
  }

  /** A mantissa holds only number characters and at most one point. */
  lemma MantissaShape(m: string)
    requires IsMantissa(m)
    ensures forall i :: 0 <= i < |m| ==> IsNumberChar(m[i])
    ensures AtMostOnePoint(m)
  {
    var k := ExponentIndex(m);
    var body := m[..k];
    forall i | k <= i < |m| ensures m[i] != '.' && IsNumberChar(m[i]) {
      var e := m[k..];
      assert m[i] == e[i - k];
      if i > k {
        if IsSign(e[1]) {
          if i > k + 1 {
            assert e[i - k] == e[2..][i - k - 2];
          }
        } else {
          assert e[i - k] == e[1..][i - k - 1];
        }
      }
    }
    forall i | 0 <= i < k ensures IsNumberChar(m[i]) {
      assert m[i] == body[i];
    }
    forall i, j | 0 <= i < j < |m| && m[i] == '.' ensures m[j] != '.' {
      if j < k {
        assert body[i] == '.' && body[j] == m[j];
      }
    }
  }

  /** A mantissa wrapped in characters that are no points keeps its shape. */
  lemma WrappedShape(t: string, off: nat, len: nat)
    requires off + len <= |t| && IsMantissa(t[off..off + len])
    requires forall i :: 0 <= i < |t| && !(off <= i < off + len) ==> IsNumberChar(t[i]) && t[i] != '.'
    ensures forall i :: 0 <= i < |t| ==> IsNumberChar(t[i])
    ensures AtMostOnePoint(t)
  {
    var m := t[off..off + len];
    MantissaShape(m);
    forall i | off <= i < off + len ensures IsNumberChar(t[i]) {
      assert t[i] == m[i - off];
    }
    forall i, j | 0 <= i < j < |t| && t[i] == '.' ensures t[j] != '.' {
      if off <= j < off + len {
        assert t[i] == m[i - off] && t[j] == m[j - off];
      }
    }
  }

  /** Every text `IsDecimal` accepts after cleaning holds only number characters and at most one point. */
  lemma NetNumberShape(t: string)
    requires IsNetNumber(t)
    ensures forall i :: 0 <= i < |t| ==> IsNumberChar(t[i])
    ensures AtMostOnePoint(t)
  {
    hide IsMantissa;
    if IsMantissa(t) {
      assert t[0..|t|] == t;
      WrappedShape(t, 0, |t|);
    } else if IsSign(t[0]) && IsMantissa(t[1..]) {
      assert t[1..1 + (|t| - 1)] == t[1..];
      WrappedShape(t, 1, |t| - 1);
    } else if IsSign(t[|t| - 1]) && IsMantissa(t[..|t| - 1]) {
      assert t[0..|t| - 1] == t[..|t| - 1];
      WrappedShape(t, 0, |t| - 1);
    } else {
      WrappedShape(t, 1, |t| - 2);
    }
  }

  /** Where the character at `i` of a trimmed, cleaned text lands, when it is no dot and no comma. */
  lemma CleanedPosition(t: string, i: nat) returns (r: nat)
    requires i < |t| && t[i] != '.' && t[i] != ','
    ensures r < |StripDotsCommaToPoint(t)| && StripDotsCommaToPoint(t)[r] == t[i]
  {
    var u := ReplaceChar(t, '.', "");
    ReplacedAt(t, '.', "", i);
    var q := |ReplaceChar(t[..i], '.', "")|;
    ReplacedAt(u, ',', ".", q);
    r := |ReplaceChar(u[..q], ',', ".")|;
  }

  /** Two commas of a text become two decimal points of the cleaned text. */
  lemma CleanedTwoPoints(t: string, p1: nat, p2: nat)
    requires p1 < p2 < |t| && t[p1] == ',' && t[p2] == ','
    ensures !AtMostOnePoint(StripDotsCommaToPoint(t))
  {
    hide ReplaceChar;
    var q1, q2 := ReplacedTwice(t, '.', "", p1, p2);
    var r1, r2 := ReplacedTwice(ReplaceChar(t, '.', ""), ',', ".", q1, q2);
    assert StripDotsCommaToPoint(t)[r1] == '.' && StripDotsCommaToPoint(t)[r2] == '.';
  }

  /**
   * `IsDecimal` rejects a text holding an ASCII letter other than the
   * exponent marker, such as "1.234 kr".
   */
  lemma IsDecimalRejectsLetter(input: string, i: nat)
    requires i < |input| && IsAsciiLetter(input[i]) && input[i] != 'e' && input[i] != 'E'
    ensures !IsDecimal(input)
  {
    hide IsDecimal, IsNetNumber, Trim, StripDotsCommaToPoint;
    var a := TrimKeepsNonSpace(input);
    var t := Trim(input);
    assert t[i - a] == input[i];
    var r := CleanedPosition(t, i - a);
    IsDecimalMeans(input);
    if IsNetNumber(StripDotsCommaToPoint(t)) {
      NetNumberShape(StripDotsCommaToPoint(t));
    }
  }

  /** `IsDecimal` rejects a text with two commas: each becomes a decimal point. */
  lemma IsDecimalRejectsTwoCommas(input: string, i: nat, j: nat)
    requires i < j < |input| && input[i] == ',' && input[j] == ','
    ensures !IsDecimal(input)
  {
    hide IsDecimal, IsNetNumber, Trim, StripDotsCommaToPoint;
    var a := TrimKeepsNonSpace(input);
    var t := Trim(input);
    assert t[i - a] == ',' && t[j - a] == ',';
    CleanedTwoPoints(t, i - a, j - a);
    IsDecimalMeans(input);
    if IsNetNumber(StripDotsCommaToPoint(t)) {
      NetNumberShape(StripDotsCommaToPoint(t));
    }
  }

  lemma GroupedAmountPieces()
    ensures AmountChars("137.214") && ',' !in "137.214" && AmountChars("00") && ',' !in "00"
    ensures HasDigit("137.214")
    ensures "" + ("137.214" + "," + "00") + "" == "137.214,00"
  {
    var x := "137.214";
    assert forall i :: 0 <= i < |x| ==> (IsDigit(x[i]) || x[i] == '.') && x[i] != ',';
    assert IsDigit(x[0]);
  }

  /** The label tier's examples: a grouped amount passes, an amount followed by its currency does not. */
  lemma IsDecimalExamples()
    ensures IsDecimal("137.214,00")
    ensures !IsDecimal("1.234 kr")
  {
    hide IsDecimal, AmountChars, HasDigit;
    GroupedAmountPieces();
    IsDecimalAcceptsCommaAmount("", "137.214", "00", "");
    assert "1.234 kr"[6] == 'k';
    IsDecimalRejectsLetter("1.234 kr", 6);
  }
}

=== FILE: cell_amount.dfy ===
/**
 * The sub-parsers' `ParseDecimal` (identical in the table and the div
 * parser): the first run of digits, dots and commas is read with every dot
 * dropped as a thousands separator and the comma taken as the decimal point.
 */
module CellNumbers {
  import opened Wrappers
  import opened Text
  import opened Numbers
  import opened AmountParser

  /** `[\d.,]` */
  predicate IsAmountChar(c: char) { IsDigit(c) || c == '.' || c == ',' }

  /** Index of the first character of `[\d.,]` at or after `i`, or |s|. */
  function AmountRunStart(s: string, i: nat): (k: nat)
    requires i <= |s|
    ensures i <= k <= |s|
    ensures forall j :: i <= j < k ==> !IsAmountChar(s[j])
    ensures k < |s| ==> IsAmountChar(s[k])
    decreases |s| - i
  {
    if i == |s| || IsAmountChar(s[i]) then i else AmountRunStart(s, i + 1)
  }

  /** Length of the run of `[\d.,]` starting at `i`. */
  function AmountCharRun(s: string, i: nat): (n: nat)
    requires i <= |s|
    ensures i + n <= |s|
    ensures forall k :: i <= k < i + n ==> IsAmountChar(s[k])
    ensures i + n == |s| || !IsAmountChar(s[i + n])
    decreases |s| - i
  {
    if i < |s| && IsAmountChar(s[i]) then 1 + AmountCharRun(s, i + 1) else 0
  }

  /**
   * `m` is the leftmost maximal run of `[\d.,]` in `s`, starting at `k`: no
   * amount character comes before it and none follows it directly.
   */
  predicate IsRunAt(s: string, k: int, m: string) {
    && 0 <= k && k + |m| <= |s| && m == s[k..k + |m|]
    && (forall j :: 0 <= j < k ==> !IsAmountChar(s[j]))
    && (k + |m| == |s| || !IsAmountChar(s[k + |m|]))
  }

  /** The leftmost match of `[\d.,]+` in `s`, None when there is none. */
  function FirstAmountRun(s: string): (r: Option<string>)
    ensures r.None? <==> forall i :: 0 <= i < |s| ==> !IsAmountChar(s[i])
    ensures r.Some? ==> |r.value| > 0 && AmountChars(r.value)
    ensures r.Some? ==> exists k :: IsRunAt(s, k, r.value)
  {
    var k := AmountRunStart(s, 0);
    if k == |s| then None
    else
      var n := AmountCharRun(s, k);
      assert forall j :: k <= j < k + n ==> s[k..k + n][j - k] == s[j];
      assert IsRunAt(s, k, s[k..k + n]);
      Some(s[k..k + n])
  }

  /**
   * `ParseDecimal(input)`: 0 for blank text, for text without a digit, dot
   * or comma, and when the cleaned run does not parse.
   */
  function CellAmount(input: string): (r: real)
    ensures r >= 0.0
    ensures IsBlank(input) ==> r == 0.0
    ensures (forall i :: 0 <= i < |input| ==> !IsAmountChar(input[i])) ==> r == 0.0
  {
    if IsBlank(input) then 0.0
    else
      match FirstAmountRun(input)
      case None => 0.0
      case Some(m) => CandidateValue(m).GetOr(0.0)
  }

  // ---------------------------------------------------------------------------
  // What the cleaning does to a run
  // ---------------------------------------------------------------------------

  /** A text made only of `[\d.,]` is its own leftmost match. */
  lemma WholeRun(m: string)
    requires |m| > 0 && AmountChars(m)
    ensures FirstAmountRun(m) == Some(m)
  {
    assert AmountRunStart(m, 0) == 0;
    var n := AmountCharRun(m, 0);
    assert n == |m|;
    assert m[0..n] == m;
  }

  /**
   * Only the first run counts: text before it without amount characters and
   * text after it that does not continue it leave the value unchanged, so
   * "kr 1.990,00" reads as "1.990,00" does and "10,00 KGM" as "10,00".
   */
  lemma CellAmountOfFirstRun(p: string, m: string, q: string)
    requires forall j :: 0 <= j < |p| ==> !IsAmountChar(p[j])
    requires |m| > 0 && AmountChars(m)
    requires |q| == 0 || !IsAmountChar(q[0])
    ensures FirstAmountRun(p + m + q) == Some(m)
    ensures CellAmount(p + m + q) == CellAmount(m)
  {
    FirstRunOf(p, m, q);
    hide FirstAmountRun, CandidateValue, AmountRunStart, AmountCharRun, AmountChars;
    assert (p + m + q)[|p|] == m[0];
    AmountCharNotBlank(p + m + q, |p|);
    AmountCharNotBlank(m, 0);
    WholeRun(m);
  }

  /** A text holding an amount character is not blank. */
  lemma AmountCharNotBlank(s: string, i: nat)
    requires i < |s| && IsAmountChar(s[i])
    ensures !IsBlank(s)
  {
    assert !IsWhiteSpace(s[i]);
  }

  /** The first run of `p + m + q` is `m` under the conditions above. */
  lemma FirstRunOf(p: string, m: string, q: string)
    requires forall j :: 0 <= j < |p| ==> !IsAmountChar(p[j])
    requires |m| > 0 && AmountChars(m)
    requires |q| == 0 || !IsAmountChar(q[0])
    ensures FirstAmountRun(p + m + q) == Some(m)
  {
    hide CellAmount;
    var s := p + m + q;
    var k := AmountRunStart(s, 0);
    assert s[|p|] == m[0];
    assert k == |p|;
    var n := AmountCharRun(s, k);
    assert forall j :: 0 <= j < |m| ==> s[k + j] == m[j];
    assert |q| > 0 ==> s[k + |m|] == q[0];
    assert n == |m|;
    assert s[k..k + n] == m;
  }

  /**
   * Dots are always thousands separators: a cell without a comma reads as the
   * integer written by all its digits ("6.60" reads as 660).
   */
  lemma CellAmountIgnoresDots(m: string)
    requires |m| > 0 && AmountChars(m) && ',' !in m
    ensures CellAmount(m) == if |DigitsOnly(m)| > 0 then DigitsValue(DigitsOnly(m)) as real else 0.0
  {
    assert !IsBlank(m) by { assert !IsWhiteSpace(m[0]); }
    WholeRun(m);
    StripWithoutComma(m);
    StripKeepsDigitsAndPoints(m);
    var d := DigitsOnly(m);
    if |d| > 0 {
      ParseDigits(d);
    } else {
      assert !HasDigit(d);
    }
  }

  /**
   * The comma is the decimal point: a cell with one comma reads as the digits
   * before it (dots dropped) plus the fraction written by the digits after it.
   */
  lemma CellAmountCommaIsPoint(x: string, y: string)
    requires AmountChars(x) && AmountChars(y) && ',' !in x && ',' !in y
    ensures CellAmount(x + "," + y) ==
      if |DigitsOnly(x)| + |DigitsOnly(y)| > 0
      then DigitsValue(DigitsOnly(x)) as real + FractionValue(DigitsOnly(y))
      else 0.0
  {
    hide DigitsValue, FractionValue, ParsePointNumber, StripDotsCommaToPoint;
    var m := x + "," + y;
    CommaJoinIsRun(x, y);
    WholeRun(m);
    StripWithComma(x, y);
    var dx, dy := DigitsOnly(x), DigitsOnly(y);
    if |dx| + |dy| > 0 {
      ParseDigitsPointDigits(dx, dy);
    } else {
      assert dx + "." + dy == ".";
      assert !HasDigit(".");
    }
  }

  /**
   * A run that `decimal.TryParse` rejects reads as 0: when the first run has
   * two commas, cleaning turns both into decimal points.
   */
  lemma CellAmountFailedParse(input: string, m: string, i: nat, j: nat)
    requires FirstAmountRun(input) == Some(m)
    requires i < j < |m| && m[i] == ',' && m[j] == ','
    ensures CellAmount(input) == 0.0
  {
    CleanedTwoPoints(m, i, j);
  }

  /** "1,2,3" is a run of amount characters that does not parse, so it reads as 0. */
  lemma CellAmountFailedParseExample()
    ensures CellAmount("1,2,3") == 0.0
  {
    var m := "1,2,3";
    assert AmountChars(m) by {
      assert forall i :: 0 <= i < 5 ==> IsAmountChar(m[i]);
    }
    WholeRun(m);
    CellAmountFailedParse(m, m, 1, 3);
  }

  /** A cell with dots and no comma, such as "6.60", reads as 660, not 6.6: the dot is dropped. */
  lemma DottedQuantityQuirk()
    ensures CellAmount("6.60") == 660.0
  {
    var m := "6.60";
    assert AmountChars(m) && ',' !in m by {
      assert forall i :: 0 <= i < 4 ==> IsAmountChar(m[i]) && m[i] != ',';
    }
    DigitsOf660();
    CellAmountIgnoresDots(m);
  }

  lemma DigitsOf660()
    ensures DigitsOnly("6.60") == "660" && AllDigits("660") && DigitsValue("660") == 660
  {
    assert "6.60"[1..] == ".60" && ".60"[1..] == "60" && "60"[1..] == "0" && "0"[1..] == "";
    assert "660"[..2] == "66" && "66"[..1] == "6" && "6"[..0] == "";
  }
}

=== FILE: div_parser.dfy ===
/**
 * The sub-parser for the div layout (`DivInvoiceSubParser`): one item per
 * `items_table_body_holder` div with at least five data divs.
 */
module DivParser {
  import opened Wrappers
  import opened Text
  import opened Numbers
  import opened AmountParser
  import opened CellNumbers
  import opened NameCleaner
  import opened InvoiceModel
  import opened HtmlDocument

  /** `CanParse`: the document has an item holder div (the supplier name is not consulted). */
  predicate CanParse(holders: seq<Holder>) {
    |holders| > 0
  }

  /** The data divs' texts, each trimmed. */
  function Texts(h: Holder): (texts: seq<string>)
    ensures |texts| == |h.cells|
  {
    seq(|h.cells|, i requires 0 <= i < |h.cells| => Trim(h.cells[i]))
  }

  /**
   * The raw name: the first direct text child of the name header, trimmed,
   * when the holder has a name header with text children; else the third
   * data text.
   */
  function RawName(texts: seq<string>, nameHeader: Option<seq<string>>): string
    requires |texts| >= 3
  {
    if nameHeader.Some? && |nameHeader.value| > 0 then Trim(nameHeader.value[0]) else texts[2]
  }

  // ---------------------------------------------------------------------------
  // Quantity and unit: `([\d.,]+)\s*([A-Za-z]*)`
  // ---------------------------------------------------------------------------

  /** Length of the run of ASCII letters starting at `i`. */
  function LetterRun(s: string, i: nat): (n: nat)
    requires i <= |s|
    ensures i + n <= |s|
    ensures forall k :: i <= k < i + n ==> IsAsciiLetter(s[k])
    ensures i + n == |s| || !IsAsciiLetter(s[i + n])
    decreases |s| - i
  {
    if i < |s| && IsAsciiLetter(s[i]) then 1 + LetterRun(s, i + 1) else 0
  }

  /**
   * The two groups of the leftmost match: the first maximal run of digits,
   * dots and commas, and the letters that follow it after any whitespace.
   * The later parts of the pattern can match nothing, so the match exists
   * exactly when the text holds a digit, dot or comma.
   */
  function QuantityMatch(text: string): (r: Option<(string, string)>)
    ensures r.None? <==> forall i :: 0 <= i < |text| ==> !IsAmountChar(text[i])
  {
    var k := AmountRunStart(text, 0);
    if k == |text| then None
    else
      var n := AmountCharRun(text, k);
      var w := WhiteSpaceRun(text, k + n);
      var l := LetterRun(text, k + n + w);
      Some((text[k..k + n], text[k + n + w..k + n + w + l]))
  }

  /** The first group is a non-empty run of digits, dots and commas; the second is letters. */
  lemma QuantityGroups(text: string)
    requires QuantityMatch(text).Some?
    ensures var (q, u) := QuantityMatch(text).value;
      |q| > 0 && AmountChars(q) && forall i :: 0 <= i < |u| ==> IsAsciiLetter(u[i])
  {
    hide AmountRunStart, AmountCharRun, WhiteSpaceRun, LetterRun, CellAmount;
    var k := AmountRunStart(text, 0);
    var n := AmountCharRun(text, k);
    var w := WhiteSpaceRun(text, k + n);
    var l := LetterRun(text, k + n + w);
    var q := text[k..k + n];
    var u := text[k + n + w..k + n + w + l];
    assert forall j :: 0 <= j < n ==> q[j] == text[k + j];
    assert forall j :: 0 <= j < l ==> u[j] == text[k + n + w + j];
  }

  /** The quantity and the unit read from the fourth data text. */
  function QuantityAndUnit(text: string): (r: (real, string))
    ensures r.0 >= 0.0
  {
    match QuantityMatch(text)
    case Some((quantity, unit)) => (CellAmount(quantity), unit)
    case None => (CellAmount(text), "")
  }

  /** Splitting off the unit never changes the quantity: it is what `ParseDecimal` reads from the whole text. */
  lemma QuantityIsCellAmount(text: string)
    ensures QuantityAndUnit(text).0 == CellAmount(text)
  {
    match QuantityMatch(text)
    case None =>
    case Some((q, u)) =>
      QuantityGroups(text);
      var k := AmountRunStart(text, 0);
      var n := AmountCharRun(text, k);
      assert q == text[k..k + n];
      assert !IsBlank(text) by { assert !IsWhiteSpace(text[k]); }
      assert FirstAmountRun(text) == Some(q);
      WholeRun(q);
      assert !IsBlank(q) by { assert !IsWhiteSpace(q[0]); }
  }

  /** The unit is made of ASCII letters, and is empty when the text holds no number. */
  lemma UnitIsLetters(text: string)
    ensures forall i :: 0 <= i < |QuantityAndUnit(text).1| ==> IsAsciiLetter(QuantityAndUnit(text).1[i])
    ensures (forall i :: 0 <= i < |text| ==> !IsAmountChar(text[i])) ==> QuantityAndUnit(text) == (0.0, "")
  {
    if QuantityMatch(text).Some? {
      QuantityGroups(text);
    }
  }

  /** "10,00 KGM" is ten kilograms. */
  lemma QuantityExample()
    ensures QuantityAndUnit("10,00 KGM") == (10.0, "KGM")
  {
    QuantityMatchExample();
    TenCommaZeroZero();
  }

  lemma QuantityMatchExample()
    ensures QuantityMatch("10,00 KGM") == Some(("10,00", "KGM"))
  {
    hide AmountRunStart, AmountCharRun, WhiteSpaceRun, LetterRun;
    var t := "10,00 KGM";
    ExampleNumberRun();
    ExampleUnitRun();
    assert t[0..5] == "10,00" && t[5 + 1..5 + 1 + 3] == "KGM";
  }

  lemma ExampleNumberRun()
    ensures AmountRunStart("10,00 KGM", 0) == 0 && AmountCharRun("10,00 KGM", 0) == 5
  {
    var t := "10,00 KGM";
    assert IsAmountChar(t[0]);
    assert forall j :: 0 <= j < 5 ==> IsAmountChar(t[j]);
    assert !IsAmountChar(t[5]);
  }

  lemma ExampleUnitRun()
    ensures WhiteSpaceRun("10,00 KGM", 5) == 1 && LetterRun("10,00 KGM", 6) == 3
  {
    var t := "10,00 KGM";
    assert IsWhiteSpace(t[5]) && !IsWhiteSpace(t[6]);
    assert forall j :: 6 <= j < 9 ==> IsAsciiLetter(t[j]);
  }

  lemma TenCommaZeroZero()
    ensures CellAmount("10,00") == 10.0
  {
    assert "10,00" == "10" + "," + "00";
    assert AmountChars("10") && AmountChars("00") && ',' !in "10" && ',' !in "00" by {
      assert forall i :: 0 <= i < 2 ==> IsAmountChar("10"[i]) && IsAmountChar("00"[i]) && "10"[i] != ',' && "00"[i] != ',';
    }
    CellAmountCommaIsPoint("10", "00");
    TenAndNoFraction();
  }

  lemma TenAndNoFraction()
    ensures DigitsOnly("10") == "10" && DigitsOnly("00") == "00"
    ensures AllDigits("10") && DigitsValue("10") == 10 && FractionValue("00") == 0.0
  {
    assert "10"[1..] == "0" && "00"[1..] == "0" && "0"[1..] == "";
    assert "10"[..1] == "1" && "1"[..0] == "";
    assert "00"[1..] == "0";
  }

  // ---------------------------------------------------------------------------
  // Items
  // ---------------------------------------------------------------------------

  /**
   * The item of one holder: None below five data texts. The id is the second
   * text, the quantity and unit come from the fourth, the unit price from the
   * fifth; the VAT code, total and total with VAT come from the sixth,
   * seventh and eighth texts when there are that many. The list price is the
   * unit price and the discount 0.
   */
  function HolderItem(h: Holder): Option<InvoiceItem>
  {
    var texts := Texts(h);
    if |texts| < 5 then None
    else
      var (quantity, unit) := QuantityAndUnit(texts[3]);
      var unitPrice := if |texts| > 4 then CellAmount(texts[4]) else 0.0;
      var vatCode := if |texts| > 5 then Trim(texts[5]) else "";
      var total := if |texts| > 6 then CellAmount(texts[6]) else 0.0;
      var totalWithVat := if |texts| > 7 then CellAmount(texts[7]) else 0.0;
      Some(InvoiceItem(texts[1], CleanName(RawName(texts, h.nameHeader)), quantity, unit, unitPrice, unitPrice,
        vatCode, 0.0, total, totalWithVat))
  }

  function OptionSeq(r: Option<InvoiceItem>): seq<InvoiceItem> {
    if r.Some? then [r.value] else []
  }

  /** The items of the holders, in document order. */
  function DivItems(holders: seq<Holder>): seq<InvoiceItem>
  {
    if |holders| == 0 then []
    else DivItems(holders[..|holders| - 1]) + OptionSeq(HolderItem(holders[|holders| - 1]))
  }

  lemma DivItemsStep(holders: seq<Holder>, i: nat)
    requires i < |holders|
    ensures DivItems(holders[..i + 1]) == DivItems(holders[..i]) + OptionSeq(HolderItem(holders[i]))
  {
    assert holders[..i + 1][..i] == holders[..i];
  }

  /** `ParseItems`: the loop over the holders. */
  method ParseItems(holders: seq<Holder>) returns (items: seq<InvoiceItem>)
    ensures items == DivItems(holders)
  {
    items := [];
    for i := 0 to |holders|
      invariant items == DivItems(holders[..i])
    {
      DivItemsStep(holders, i);
      var holder := holders[i];
      if |holder.cells| >= 5 {
        var texts := Texts(holder);
        var itemId := texts[1];
        var rawName := RawName(texts, holder.nameHeader);
        var name := CleanName(rawName);
        var quantity := 0.0;
        var unit := "";
        var quantityMatch := QuantityMatch(texts[3]);
        if quantityMatch.Some? {
          quantity := CellAmount(quantityMatch.value.0);
          unit := quantityMatch.value.1;
        } else {
          quantity := CellAmount(texts[3]);
        }
        var unitPrice := 0.0;
        if |texts| > 4 {
          unitPrice := CellAmount(texts[4]);
        }
        var vatCode := "";
        if |texts| > 5 {
          vatCode := Trim(texts[5]);
        }
        var total := 0.0;
        if |texts| > 6 {
          total := CellAmount(texts[6]);
        }
        var totalWithVat := 0.0;
        if |texts| > 7 {
          totalWithVat := CellAmount(texts[7]);
        }
        var listPrice := unitPrice;
        var discount := 0.0;
        var item := InvoiceItem(itemId, name, quantity, unit, unitPrice, listPrice, vatCode, discount, total, totalWithVat);
        assert HolderItem(holder) == Some(item);
        items := items + [item];
      }
    }
    assert holders[..|holders|] == holders;
  }

  // ---------------------------------------------------------------------------
  // Properties
  // ---------------------------------------------------------------------------

  /** The number of holders with at least five data divs. */
  function FullHolders(holders: seq<Holder>): nat
  {
    if |holders| == 0 then 0
    else FullHolders(holders[..|holders| - 1]) + (if |holders[|holders| - 1].cells| >= 5 then 1 else 0)
  }

  /** `it` is the item of holder `h`, which has five data divs or more, with the quantity of its fourth text. */
  predicate ItemOfHolder(h: Holder, it: InvoiceItem) {
    |h.cells| >= 5 && HolderItem(h) == Some(it) && it.quantity == CellAmount(Trim(h.cells[3]))
  }

  /** A holder gives an item exactly when it has five data divs, an item of its own. */
  lemma OneHolder(h: Holder)
    ensures HolderItem(h).Some? <==> |h.cells| >= 5
    ensures HolderItem(h).Some? ==> ItemOfHolder(h, HolderItem(h).value)
    ensures HolderItem(h).Some? ==> HolderItem(h).value.listPrice == HolderItem(h).value.unitPrice && HolderItem(h).value.discount == 0.0
  {
    if |h.cells| >= 5 {
      QuantityIsCellAmount(Texts(h)[3]);
    }
  }

  /**
   * One item per holder with at least five data divs, none for the others;
   * every item keeps its unit price as list price, with no discount, and
   * takes its quantity from the fourth data text.
   */
  lemma {:induction false} DivItemsPerHolder(holders: seq<Holder>)
    ensures |DivItems(holders)| == FullHolders(holders)
    ensures forall it :: it in DivItems(holders) ==> it.listPrice == it.unitPrice && it.discount == 0.0
    ensures forall it :: it in DivItems(holders) ==> exists i :: 0 <= i < |holders| && ItemOfHolder(holders[i], it)
  {
    hide HolderItem, ItemOfHolder;
    if |holders| > 0 {
      var prefix := holders[..|holders| - 1];
      var last := holders[|holders| - 1];
      DivItemsPerHolder(prefix);
      OneHolder(last);
      forall it | it in DivItems(holders)
        ensures exists i :: 0 <= i < |holders| && ItemOfHolder(holders[i], it)
      {
        if it in DivItems(prefix) {
          var i :| 0 <= i < |prefix| && ItemOfHolder(prefix[i], it);
          assert holders[i] == prefix[i];
        } else {
          assert ItemOfHolder(last, it);
        }
      }
    }
  }

  /**
   * Every column of the item of a holder with five data texts or more: the id
   * is the second text, the name the cleaned raw name, the quantity what
   * `ParseDecimal` reads from the fourth text and the unit the letters after
   * its number, the unit price (and list price) the fifth text's amount. The
   * VAT code, the total and the total with VAT are the sixth, seventh and
   * eighth texts when the holder has that many, else "" and 0. The discount is 0.
   */
  lemma HolderColumns(h: Holder)
    requires |h.cells| >= 5
    ensures HolderItem(h).Some?
    ensures var t, it := Texts(h), HolderItem(h).value;
      && it.itemId == t[1]
      && it.itemName == CleanName(RawName(t, h.nameHeader))
      && it.quantity == CellAmount(t[3]) && it.unit == QuantityAndUnit(t[3]).1
      && it.unitPrice == CellAmount(t[4]) && it.listPrice == it.unitPrice
      && it.vatCode == (if |t| > 5 then t[5] else "")
      && it.discount == 0.0
      && it.totalPrice == (if |t| > 6 then CellAmount(t[6]) else 0.0)
      && it.totalPriceWithVat == (if |t| > 7 then CellAmount(t[7]) else 0.0)
  {
    hide CellAmount, CleanName, RawName, QuantityMatch, Trim;
    var t := Texts(h);
    QuantityIsCellAmount(t[3]);
    if |t| > 5 {
      TrimKeepsTrimmed(t[5]);
    }
  }

  /** The reference invoice's first item holder (line 1, item 6311). */
  function ReferenceHolder(): Holder {
    Holder(["1.", "6311", "R\U{E6}kja 16/20", "10,00 KGM", "1.990,00", "S11", "19.900,00", "22.089,00"], None)
  }

  /**
   * The reference invoice's first holder: item 6311, ten kilograms at 1990
   * each, VAT code S11, total 19900 and 22089 with VAT.
   */
  lemma ReferenceHolderItem()
    ensures HolderItem(ReferenceHolder()).Some?
    ensures var it := HolderItem(ReferenceHolder()).value;
      && it.itemId == "6311" && it.quantity == 10.0 && it.unit == "KGM"
      && it.unitPrice == 1990.0 && it.listPrice == 1990.0 && it.vatCode == "S11" && it.discount == 0.0
      && it.totalPrice == 19900.0 && it.totalPriceWithVat == 22089.0
  {
    hide HolderItem, Texts, CellAmount, QuantityAndUnit, CleanName, RawName, Trim, ReferenceHolder;
    var h := ReferenceHolder();
    ReferenceTexts();
    HolderColumns(h);
    QuantityExample();
    QuantityIsCellAmount("10,00 KGM");
    ReferenceAmounts();
  }

  lemma ReferenceTexts()
    ensures var t := Texts(ReferenceHolder());
      && |t| == 8 && t[1] == "6311" && t[3] == "10,00 KGM" && t[4] == "1.990,00"
      && t[5] == "S11" && t[6] == "19.900,00" && t[7] == "22.089,00"
  {
    hide Trim, IsWhiteSpace;
    var c := ReferenceHolder().cells;
    ReferenceTextsTrimmed(c);
    assert Trim(c[1]) == c[1] && Trim(c[3]) == c[3] && Trim(c[4]) == c[4];
    assert Trim(c[5]) == c[5] && Trim(c[6]) == c[6] && Trim(c[7]) == c[7];
  }

  lemma ReferenceTextsTrimmed(cells: seq<string>)
    requires cells == ["1.", "6311", "R\U{E6}kja 16/20", "10,00 KGM", "1.990,00", "S11", "19.900,00", "22.089,00"]
    ensures forall i :: 0 <= i < |cells| ==> Trim(cells[i]) == cells[i]
  {
    forall i | 0 <= i < |cells| ensures Trim(cells[i]) == cells[i] {
      TrimKeepsTrimmed(cells[i]);
    }
  }

  lemma ReferenceAmounts()
    ensures CellAmount("1.990,00") == 1990.0
    ensures CellAmount("19.900,00") == 19900.0
    ensures CellAmount("22.089,00") == 22089.0
  {
    UnitPriceAmount();
    TotalAmount();
    TotalWithVatAmount();
  }

  lemma UnitPriceAmount()
    ensures CellAmount("1.990,00") == 1990.0
  {
    hide CellAmount, DigitsOnly, DigitsValue;
    WholeCommaCell("1.990");
    assert "1.990" + "," + "00" == "1.990,00";
    DigitsOfUnitPrice();
  }

  lemma DigitsOfUnitPrice()
    ensures DigitsOnly("1.990") == "1990" && AllDigits("1990") && DigitsValue("1990") == 1990
  {
    assert "1.990"[1..] == ".990" && ".990"[1..] == "990" && "990"[1..] == "90" && "90"[1..] == "0" && "0"[1..] == "";
    assert "1990"[..3] == "199" && "199"[..2] == "19" && "19"[..1] == "1" && "1"[..0] == "";
  }

  lemma TotalAmount()
    ensures CellAmount("19.900,00") == 19900.0
  {
    hide CellAmount, DigitsOnly, DigitsValue;
    WholeCommaCell("19.900");
    assert "19.900" + "," + "00" == "19.900,00";
    DigitsOfTotal();
  }

  lemma DigitsOfTotal()
    ensures DigitsOnly("19.900") == "19900" && AllDigits("19900") && DigitsValue("19900") == 19900
  {
    assert "19.900"[1..] == "9.900" && "9.900"[1..] == ".900" && ".900"[1..] == "900" && "900"[1..] == "00";
    assert "00"[1..] == "0" && "0"[1..] == "";
    ValueOf19900();
  }

  lemma ValueOf19900()
    ensures AllDigits("19900") && DigitsValue("19900") == 19900
  {
    assert "19900"[..4] == "1990" && "1990"[..3] == "199" && "199"[..2] == "19" && "19"[..1] == "1" && "1"[..0] == "";
  }

  lemma TotalWithVatAmount()
    ensures CellAmount("22.089,00") == 22089.0
  {
    hide CellAmount, DigitsOnly, DigitsValue;
    WholeCommaCell("22.089");
    assert "22.089" + "," + "00" == "22.089,00";
    DigitsOfTotalWithVat();
  }

  lemma DigitsOfTotalWithVat()
    ensures DigitsOnly("22.089") == "22089" && AllDigits("22089") && DigitsValue("22089") == 22089
  {
    assert "22.089"[1..] == "2.089" && "2.089"[1..] == ".089" && ".089"[1..] == "089" && "089"[1..] == "89";
    assert "89"[1..] == "9" && "9"[1..] == "";
    assert "22089"[..4] == "2208" && "2208"[..3] == "220" && "220"[..2] == "22" && "22"[..1] == "2" && "2"[..0] == "";
  }

  /** A cell of digits and dots followed by ",00" reads as the integer of its digits. */
  lemma WholeCommaCell(x: string)
    requires AmountChars(x) && ',' !in x
    ensures AllDigits(DigitsOnly(x))
    ensures CellAmount(x + "," + "00") == DigitsValue(DigitsOnly(x)) as real
  {
    assert AmountChars("00") && ',' !in "00" by {
      assert forall i :: 0 <= i < 2 ==> IsAmountChar("00"[i]) && "00"[i] != ',';
    }
    CellAmountCommaIsPoint(x, "00");
    assert DigitsOnly("00") == "00" by { assert "00"[1..] == "0" && "0"[1..] == ""; }
    assert FractionValue("00") == 0.0 by { assert "00"[1..] == "0" && "0"[1..] == ""; }
  }

  /** No holder, no items. */
  lemma CannotParseNoItems(holders: seq<Holder>)
    requires !CanParse(holders)
    ensures DivItems(holders) == []
  {
  }

  /** A name header with a text child overrides the name column. */
  lemma NameHeaderWins(h: Holder)
    requires |h.cells| >= 5 && h.nameHeader.Some? && |h.nameHeader.value| > 0
    ensures HolderItem(h).Some? && HolderItem(h).value.itemName == CleanName(Trim(h.nameHeader.value[0]))
  {
  }
}

=== FILE: document.dfy ===
/**
 * The records the extraction produces: an `Invoice` with its `InvoiceItem`s.
 * Database identities (`Id`, `InvoiceId`, `SupplierId`, `BuyerId`,
 * `ProductId`), the creation time and the navigation properties are not part
 * of this model.
 */
module InvoiceModel {

  /** A calendar date; `InvoiceDate` holds a `DateTime` at midnight. */
  datatype Date = Date(year: int, month: int, day: int)

  /** `default(DateTime)`: 1 January of year 1. */
  const DefaultDate: Date := Date(1, 1, 1)

  datatype InvoiceItem = InvoiceItem(
    itemId: string,
    itemName: string,
    quantity: real,
    unit: string,
    unitPrice: real,
    listPrice: real,
    vatCode: string,
    discount: real,
    totalPrice: real,
    totalPriceWithVat: real)

  datatype Invoice = Invoice(
    invoiceNumber: string,
    supplierName: string,
    buyerName: string,
    buyerTaxId: string,
    invoiceDate: Date,
    totalAmount: real,
    items: seq<InvoiceItem>)
}

/**
 * A loaded HTML invoice, reduced to what the parser's XPath queries return.
 * Each field holds the texts (`InnerText`) of the nodes one query selects, in
 * document order, with the structure the parser then walks (parents, `<b>`
 * children, cells, following siblings). A query that selects nothing is an
 * empty sequence or `None`; HtmlAgilityPack's `SelectNodes` returns null
 * rather than an empty collection, so the two cases coincide.
 */
module HtmlDocument {
  import opened Wrappers

  /**
   * The element with class `righthausreikningur` (or id `hausreikningur`):
   * its text, and, when an element inside it has text containing
   * "REIKNINGUR" or "Reikningur", the texts of the divs under that element's
   * parent.
   */
  datatype NumberContainer = NumberContainer(text: string, divsNearHeading: Option<seq<string>>)

  /** The `seller_info` element: its first `<b>`, and its first `<h2>` or else its first `name` div. */
  datatype SellerInfo = SellerInfo(bold: Option<string>, nameNode: Option<string>)

  /** The `buyer_info` element: its text and its first `<b>`. */
  datatype BuyerInfo = BuyerInfo(text: string, bold: Option<string>)

  /** A `ListItem` div: its text and its first `<b>`. */
  datatype ListItem = ListItem(text: string, bold: Option<string>)

  /**
   * The parent of an element whose text contains "Kaupandi": its text, its
   * first `<b>`, and the first of its `ListItem` divs.
   */
  datatype LabelParent = LabelParent(text: string, bold: Option<string>, firstListItem: Option<ListItem>)

  /** A following sibling of a node: whether it is an element, and its text. */
  datatype Sibling = Sibling(isElement: bool, text: string)

  /**
   * The parent of an element whose text contains a total label: its text, the
   * texts of its `td`, `b` and `p` descendants, and its following siblings.
   */
  datatype LabelHit = LabelHit(text: string, cells: seq<string>, following: seq<Sibling>)

  /** The parent of a "Samtals" element: the texts of its `td` descendants, and its own text. */
  datatype CellRow = CellRow(cells: seq<string>, text: string)

  /**
   * The `upphaedsamantekt` div: the parents of its "Samtals:" elements (those
   * without "VSK") and of its "Samtals VSK:" elements.
   */
  datatype Summary = Summary(netRows: seq<CellRow>, vatRows: seq<CellRow>)

  /** A `tr`: whether its parent is a `thead`, and the texts of its `td` descendants. */
  datatype Row = Row(inThead: bool, cells: seq<string>)

  /** A `table`: its text and its rows. */
  datatype Table = Table(text: string, rows: seq<Row>)

  /**
   * An `items_table_body_holder` div: the texts of its data divs (column
   * headers excluded), and, when it has a name-header div, the texts of that
   * div's direct text children.
   */
  datatype Holder = Holder(cells: seq<string>, nameHeader: Option<seq<string>>)

  datatype Document = Document(
    /** The document's whole text. */
    text: string,
    /** The first `h1` whose text contains "REIKNINGUR" or "Reikningur". */
    headingH1: Option<string>,
    numberContainer: Option<NumberContainer>,
    /** The parents of the elements whose text contains "Nr.", "Nr:" or "Nr ". */
    nrContainers: seq<string>,
    /** The first `h1` inside the first `document_details` element. */
    detailsH1: Option<string>,
    /** The first div with class `dalkfyrirsogn2`. */
    supplierDiv: Option<string>,
    sellerInfo: Option<SellerInfo>,
    buyerInfo: Option<BuyerInfo>,
    buyerLabels: seq<LabelParent>,
    /** The first element with class `UBLID`. */
    ublId: Option<string>,
    /** For each element whose text contains the issue-date label, its parent's text. */
    dateContainers: seq<string>,
    /** The first element with class `payable_amount`. */
    payableAmount: Option<string>,
    /** For each total label, the hits of the query for it. */
    labelHits: map<string, seq<LabelHit> >,
    summary: Option<Summary>,
    /** The parents of the elements whose text contains "Samtals". */
    samtalsRows: seq<CellRow>,
    tables: seq<Table>,
    holders: seq<Holder>)
}

=== FILE: invoice_date.dfy ===
/**
 * The invoice date: the first `dd.MM.yyyy` text near an issue-date label
 * that is a real calendar date, read first from the label nodes' parents and,
 * when that leaves the date at its default, from the document's lines.
 */
module InvoiceDate {
  import opened Wrappers
  import opened Text
  import opened Tiers
  import opened InvoiceModel

  /** The issue-date label, "Útgáfudagur reiknings". */
  const IssueDateLabel: string := "\U{DA}tg\U{E1}fudagur reiknings"

  // ---------------------------------------------------------------------------
  // The Gregorian calendar of `DateTime`
  // ---------------------------------------------------------------------------

  predicate IsLeapYear(y: int) {
    y % 4 == 0 && (y % 100 != 0 || y % 400 == 0)
  }

  function DaysInMonth(y: int, m: int): (n: int)
    requires 1 <= m <= 12
    ensures 28 <= n <= 31
    ensures m == 2 ==> (n == 29 <==> IsLeapYear(y))
  {
    if m == 2 then (if IsLeapYear(y) then 29 else 28)
    else if m == 4 || m == 6 || m == 9 || m == 11 then 30
    else 31
  }

  /** A date `DateTime` can hold: years 1 to 9999, a real month and day. */
  predicate IsValidDate(d: Date) {
    1 <= d.year <= 9999 && 1 <= d.month <= 12 && 1 <= d.day <= DaysInMonth(d.year, d.month)
  }

  // ---------------------------------------------------------------------------
  // `(\d{2}\.\d{2}\.\d{4})` and `TryParseExact(…, "dd.MM.yyyy", …)`
  // ---------------------------------------------------------------------------

  /** The ten characters of `s` at `p` have the shape `\d{2}\.\d{2}\.\d{4}`. */
  predicate IsDateShapeAt(s: string, p: nat) {
    p + 10 <= |s|
    && IsDigit(s[p]) && IsDigit(s[p + 1]) && s[p + 2] == '.'
    && IsDigit(s[p + 3]) && IsDigit(s[p + 4]) && s[p + 5] == '.'
    && IsDigit(s[p + 6]) && IsDigit(s[p + 7]) && IsDigit(s[p + 8]) && IsDigit(s[p + 9])
  }

  predicate IsDateShape(t: string) { |t| == 10 && IsDateShapeAt(t, 0) }

  /** `Regex.Match(s, date pattern).Value`: the leftmost date-shaped text. */
  function FirstDateText(s: string): (r: Option<string>)
    ensures r.Some? ==> IsDateShape(r.value)
    ensures r.None? <==> forall p :: 0 <= p <= |s| ==> !IsDateShapeAt(s, p)
  {
    var probe := (p: nat) => if IsDateShapeAt(s, p) then Some(s[p..p + 10]) else None;
    var r := Leftmost(probe, 0, |s|);
    assert forall p: nat :: probe(p).None? == !IsDateShapeAt(s, p);
    assert r.Some? ==> IsDateShape(r.value) by {
      if r.Some? {
        var p :| 0 <= p <= |s| && probe(p) == r;
        assert forall k :: p <= k < p + 10 ==> s[p..p + 10][k - p] == s[k];
      }
    }
    r
  }

  function Digit(c: char): int { c as int - '0' as int }

  /** The number written by the digits `t[i..j]`. */
  function DigitsAt(t: string, i: nat, j: nat): int
    requires i <= j <= |t|
    decreases j - i
  {
    if i == j then 0 else 10 * DigitsAt(t, i, j - 1) + Digit(t[j - 1])
  }

  /**
   * `DateTime.TryParseExact(t, "dd.MM.yyyy", InvariantCulture, …)`: two-digit
   * day and month, four-digit year, and the date must exist.
   */
  function ParseExactDate(t: string): (r: Option<Date>)
    ensures r.Some? ==> IsValidDate(r.value) && IsDateShape(t)
  {
    if !IsDateShape(t) then None
    else
      var d := Date(DigitsAt(t, 6, 10), DigitsAt(t, 3, 5), DigitsAt(t, 0, 2));
      if IsValidDate(d) then Some(d) else None
  }

  /** The date in a text: its first date-shaped text, when that parses. */
  function DateIn(text: string): (r: Option<Date>)
    ensures r.Some? ==> IsValidDate(r.value)
  {
    match FirstDateText(text)
    case None => None
    case Some(t) => ParseExactDate(t)
  }

  // ---------------------------------------------------------------------------
  // Writing a date back
  // ---------------------------------------------------------------------------

  function DigitChar(n: int): (c: char)
    requires 0 <= n < 10
    ensures IsDigit(c) && Digit(c) == n
  {
    ('0' as int + n) as char
  }

  /** The thousands, hundreds and tens of a year, by repeated division by ten. */
  lemma YearQuotients(y: int)
    requires 1 <= y <= 9999
    ensures 0 <= y / 10 / 10 / 10 < 10
    ensures 1000 * (y / 10 / 10 / 10) + 100 * (y / 10 / 10 % 10) + 10 * (y / 10 % 10) + y % 10 == y
  {
    var y1 := y / 10;
    var y2 := y1 / 10;
    assert y == 10 * y1 + y % 10;
    assert y1 == 10 * y2 + y1 % 10;
    assert y2 == 10 * (y2 / 10) + y2 % 10;
  }

  /** `d.ToString("dd.MM.yyyy")`, zero-padded. */
  function FormatDate(d: Date): (t: string)
    requires IsValidDate(d)
    ensures IsDateShape(t)
  {
    YearQuotients(d.year);
    var y1 := d.year / 10;
    var y2 := y1 / 10;
    [DigitChar(d.day / 10), DigitChar(d.day % 10), '.',
     DigitChar(d.month / 10), DigitChar(d.month % 10), '.',
     DigitChar(y2 / 10), DigitChar(y2 % 10), DigitChar(y1 % 10), DigitChar(d.year % 10)]
  }

  /** The day, month and year fields of a date-shaped text, digit by digit. */
  lemma DateFields(t: string)
    requires IsDateShape(t)
    ensures DigitsAt(t, 0, 2) == 10 * Digit(t[0]) + Digit(t[1])
    ensures DigitsAt(t, 3, 5) == 10 * Digit(t[3]) + Digit(t[4])
    ensures DigitsAt(t, 6, 10) == 1000 * Digit(t[6]) + 100 * Digit(t[7]) + 10 * Digit(t[8]) + Digit(t[9])
  {
    assert DigitsAt(t, 0, 1) == Digit(t[0]);
    assert DigitsAt(t, 3, 4) == Digit(t[3]);
    assert DigitsAt(t, 6, 7) == Digit(t[6]);
    assert DigitsAt(t, 6, 8) == 10 * Digit(t[6]) + Digit(t[7]);
    assert DigitsAt(t, 6, 9) == 100 * Digit(t[6]) + 10 * Digit(t[7]) + Digit(t[8]);
  }

  /** Parsing the written form of a valid date gives the date back. */
  lemma ParseFormattedDate(d: Date)
    requires IsValidDate(d)
    ensures ParseExactDate(FormatDate(d)) == Some(d)
  {
    var t := FormatDate(d);
    DateFields(t);
    YearQuotients(d.year);
    assert DigitsAt(t, 0, 2) == d.day;
    assert DigitsAt(t, 3, 5) == d.month;
    assert DigitsAt(t, 6, 10) == d.year;
  }

  lemma SplitDigit(q: int, r: int)
    requires q >= 0 && 0 <= r < 10
    ensures (10 * q + r) / 10 == q && (10 * q + r) % 10 == r
  {
  }

  lemma DigitCharOf(c: char)
    requires IsDigit(c)
    ensures DigitChar(Digit(c)) == c
  {
  }

  /** The fields of a parsed date, digit by digit. */
  lemma ParsedDateFields(t: string)
    requires ParseExactDate(t).Some?
    ensures IsDateShape(t)
    ensures var d := ParseExactDate(t).value;
      && d.day == 10 * Digit(t[0]) + Digit(t[1])
      && d.month == 10 * Digit(t[3]) + Digit(t[4])
      && d.year == 1000 * Digit(t[6]) + 100 * Digit(t[7]) + 10 * Digit(t[8]) + Digit(t[9])
  {
    DateFields(t);
  }

  /** A text that parses is exactly the written form of its date: the format admits no other spelling. */
  lemma FormatParsedDate(t: string)
    requires ParseExactDate(t).Some?
    ensures FormatDate(ParseExactDate(t).value) == t
  {
    hide ParseExactDate, DigitsAt;
    var d := ParseExactDate(t).value;
    ParsedDateFields(t);
    var a, b, c, e := Digit(t[6]), Digit(t[7]), Digit(t[8]), Digit(t[9]);
    SplitDigit(Digit(t[0]), Digit(t[1]));
    SplitDigit(Digit(t[3]), Digit(t[4]));
    SplitDigit(100 * a + 10 * b + c, e);
    SplitDigit(10 * a + b, c);
    SplitDigit(a, b);
    assert d.year == 10 * (100 * a + 10 * b + c) + e;
    assert 100 * a + 10 * b + c == 10 * (10 * a + b) + c;
    DigitCharOf(t[0]); DigitCharOf(t[1]); DigitCharOf(t[3]); DigitCharOf(t[4]);
    DigitCharOf(t[6]); DigitCharOf(t[7]); DigitCharOf(t[8]); DigitCharOf(t[9]);
    var f := FormatDate(d);
    assert forall k :: 0 <= k < 10 ==> f[k] == t[k];
  }

  // ---------------------------------------------------------------------------
  // The two tiers
  // ---------------------------------------------------------------------------

  /** The node tier: the date in the first label container whose first date-shaped text parses. */
  function NodeTierDate(containers: seq<string>): Option<Date>
  {
    FirstSome(containers, DateIn)
  }

  /** A line's date, for the line tier: only lines containing the label (ignoring case) count. */
  function LineDate(line: string): (r: Option<Date>)
    ensures r.Some? ==> IsValidDate(r.value)
  {
    if ContainsIgnoringCase(line, IssueDateLabel) then DateIn(line) else None
  }

  /** The line tier: every label line with a date overwrites the date, so the last one wins. */
  function LineTierDate(lines: seq<string>): Option<Date>
  {
    LastSome(lines, LineDate)
  }

  /** The invoice date: the node tier, then the line tier while the date is still `default(DateTime)`. */
  function InvoiceDateOf(containers: seq<string>, lines: seq<string>): Date
  {
    var d := NodeTierDate(containers).GetOr(DefaultDate);
    if d == DefaultDate then LineTierDate(lines).GetOr(d) else d
  }

  /** The `foreach` over the label nodes, stopping at the first container with a date. */
  method ScanDateNodes(containers: seq<string>) returns (date: Date)
    ensures date == NodeTierDate(containers).GetOr(DefaultDate)
  {
    date := DefaultDate;
    for i := 0 to |containers|
      invariant FirstSome(containers, DateIn) == FirstSome(containers[i..], DateIn)
    {
      assert containers[i..][1..] == containers[i + 1..];
      var containerText := containers[i];
      var m := FirstDateText(containerText);
      if m.Some? {
        var parsed := ParseExactDate(m.value);
        if parsed.Some? {
          date := parsed.value;
          return;
        }
      }
    }
  }

  /** The `foreach` over all lines; each label line with a date overwrites `date`. */
  method ScanDateLines(lines: seq<string>, date0: Date) returns (date: Date)
    ensures date == LineTierDate(lines).GetOr(date0)
  {
    date := date0;
    for i := 0 to |lines|
      invariant date == LastSome(lines[..i], LineDate).GetOr(date0)
    {
      LastSomeStep(lines, i, LineDate);
      var line := lines[i];
      var parsed: Option<Date> := None;
      if ContainsIgnoringCase(line, IssueDateLabel) {
        var m := FirstDateText(line);
        if m.Some? {
          parsed := ParseExactDate(m.value);
        }
      }
      assert parsed == LineDate(line);
      if parsed.Some? {
        date := parsed.value;
      }
    }
    assert lines[..|lines|] == lines;
  }

  /** The date part of `ParseInvoice`. */
  method ResolveInvoiceDate(containers: seq<string>, lines: seq<string>) returns (date: Date)
    ensures date == InvoiceDateOf(containers, lines)
  {
    date := ScanDateNodes(containers);
    if date == DefaultDate {
      date := ScanDateLines(lines, date);
    }
  }

  // ---------------------------------------------------------------------------
  // Properties
  // ---------------------------------------------------------------------------

  /** The invoice date is always a real calendar date; the default 1 January of year 1 is one too. */
  lemma InvoiceDateIsValid(containers: seq<string>, lines: seq<string>)
    ensures IsValidDate(InvoiceDateOf(containers, lines))
  {
    var n := NodeTierDate(containers);
    if n.Some? {
      var k :| 0 <= k < |containers| && DateIn(containers[k]) == n;
    }
    var l := LineTierDate(lines);
    if l.Some? {
      var k :| 0 <= k < |lines| && LineDate(lines[k]) == l;
    }
  }

  /**
   * A text matching the date pattern but naming no real day (30 February, a
   * 13th month, year 0) is skipped: the node tier moves on to the next label,
   * the line tier ignores that line.
   */
  lemma ImpossibleDateSkipped(text: string)
    requires FirstDateText(text).Some?
    requires var t := FirstDateText(text).value;
      !IsValidDate(Date(DigitsAt(t, 6, 10), DigitsAt(t, 3, 5), DigitsAt(t, 0, 2)))
    ensures DateIn(text).None?
  {
  }

  /** 29 February parses in a leap year and not in the year after. */
  lemma LeapDay()
    ensures ParseExactDate("29.02.2024") == Some(Date(2024, 2, 29))
    ensures ParseExactDate("29.02.2023").None?
  {
    var d := Date(2024, 2, 29);
    assert IsValidDate(d);
    ParseFormattedDate(d);
    assert FormatDate(d) == "29.02.2024";
    var t := "29.02.2023";
    assert IsDateShape(t);
    DateFields(t);
  }
}

=== FILE: invoice_number.dfy ===
/**
 * The invoice number. It starts as the file name without its extension; a
 * number found in the heading replaces it, and three further strategies run,
 * each only while the number is still empty or still that fallback.
 */
module InvoiceNumber {
  import opened Wrappers
  import opened Text
  import opened Tiers
  import opened HtmlDocument

  // ---------------------------------------------------------------------------
  // The fallback: Path.GetFileNameWithoutExtension
  // ---------------------------------------------------------------------------

  /** The index of the last `c` in `s`, None when there is none. */
  function LastIndexOf(s: string, c: char): (r: Option<nat>)
    ensures r.None? <==> c !in s
    ensures r.Some? ==> r.value < |s| && s[r.value] == c && c !in s[r.value + 1..]
    decreases |s|
  {
    if |s| == 0 then None
    else if s[|s| - 1] == c then Some(|s| - 1)
    else
      var r := LastIndexOf(s[..|s| - 1], c);
      assert s == s[..|s| - 1] + [s[|s| - 1]];
      assert r.Some? ==> s[r.value + 1..] == s[..|s| - 1][r.value + 1..] + [s[|s| - 1]];
      r
  }

  /** `Path.GetFileName`: the part of the path after its last '/'. */
  function FileName(path: string): (r: string)
    ensures '/' !in r
    ensures '/' !in path ==> r == path
  {
    match LastIndexOf(path, '/')
    case None => path
    case Some(k) => path[k + 1..]
  }

  /**
   * `Path.GetFileNameWithoutExtension`: the file name with everything from
   * its last '.' on removed.
   */
  function FileNameWithoutExtension(path: string): (r: string)
    ensures '/' !in r
  {
    var f := FileName(path);
    match LastIndexOf(f, '.')
    case None => f
    case Some(k) =>
      assert forall i :: 0 <= i < k ==> f[..k][i] == f[i];
      f[..k]
  }

  /** The last `c` of `a + [c] + b` is the one between them when `b` has none. */
  lemma LastIndexBeforeTail(a: string, c: char, b: string)
    requires c !in b
    ensures LastIndexOf(a + [c] + b, c) == Some(|a|)
  {
    var s := a + [c] + b;
    var r := LastIndexOf(s, c);
    assert s[|a|] == c;
    assert s[|a| + 1..] == b;
  }

  /**
   * The fallback number is the file name up to its last dot: no directory
   * part, and the extension after the last dot removed.
   */
  lemma FallbackIsStem(dir: string, stem: string, ext: string)
    requires '/' !in stem && '/' !in ext && '.' !in ext
    ensures FileNameWithoutExtension(dir + "/" + stem + "." + ext) == stem
    ensures FileNameWithoutExtension(stem + "." + ext) == stem
  {
    var name := stem + "." + ext;
    assert '/' !in name by {
      assert name == stem + ['.'] + ext;
      assert forall x :: x in name ==> x in stem || x == '.' || x in ext;
    }
    var path := dir + "/" + stem + "." + ext;
    assert path == dir + ['/'] + name;
    FileNameAfterSlash(dir, name);
    StemBeforeDot(stem, ext);
  }

  lemma FileNameAfterSlash(dir: string, name: string)
    requires '/' !in name
    ensures FileName(dir + ['/'] + name) == name
  {
    LastIndexBeforeTail(dir, '/', name);
    assert (dir + ['/'] + name)[|dir| + 1..] == name;
  }

  lemma StemBeforeDot(stem: string, ext: string)
    requires '.' !in ext
    ensures LastIndexOf(stem + "." + ext, '.') == Some(|stem|)
    ensures (stem + "." + ext)[..|stem|] == stem
  {
    assert stem + "." + ext == stem + ['.'] + ext;
    LastIndexBeforeTail(stem, '.', ext);
  }

  // ---------------------------------------------------------------------------
  // Number tokens and the four patterns
  // ---------------------------------------------------------------------------

  /** `[A-Za-z0-9\-]` */
  predicate IsTokenChar(c: char) { IsAsciiLetter(c) || IsDigit(c) || c == '-' }

  /** A non-empty run of `[A-Za-z0-9\-]`: what every strategy captures. */
  predicate IsToken(t: string) {
    |t| > 0 && forall i :: 0 <= i < |t| ==> IsTokenChar(t[i])
  }

  /** Length of the run of token characters starting at `i`. */
  function TokenRun(s: string, i: nat): (n: nat)
    requires i <= |s|
    ensures i + n <= |s|
    ensures forall k :: i <= k < i + n ==> IsTokenChar(s[k])
    decreases |s| - i
  {
    if i < |s| && IsTokenChar(s[i]) then 1 + TokenRun(s, i + 1) else 0
  }

  /** The greedy `([A-Za-z0-9\-]+)` capture starting at `i`. */
  function TokenAt(s: string, i: nat): (t: string)
    requires i < |s| && IsTokenChar(s[i])
    ensures IsToken(t)
  {
    var n := TokenRun(s, i);
    assert forall k :: i <= k < i + n ==> s[i..i + n][k - i] == s[k];
    s[i..i + n]
  }

  /** A token has no whitespace at either end, so the `.Trim()` applied to every capture keeps it. */
  lemma TokenIsTrimmed(t: string)
    requires IsToken(t)
    ensures Trim(t) == t
  {
    assert !IsWhiteSpace(t[0]) && !IsWhiteSpace(t[|t| - 1]);
    assert TrimStart(t) == t;
    assert TrimEnd(t) == t;
  }

  /** `[\s\-:]` */
  predicate IsHeadingSeparator(c: char) { IsWhiteSpace(c) || c == '-' || c == ':' }

  function SeparatorRun(s: string, i: nat): (n: nat)
    requires i <= |s|
    ensures i + n <= |s|
    ensures forall k :: i <= k < i + n ==> IsHeadingSeparator(s[k])
    ensures i + n == |s| || !IsHeadingSeparator(s[i + n])
    decreases |s| - i
  {
    if i < |s| && IsHeadingSeparator(s[i]) then 1 + SeparatorRun(s, i + 1) else 0
  }

  /**
   * `(?:REIKNINGUR|Reikningur)[\s\-:]+([A-Za-z0-9\-]+)` with IgnoreCase, at
   * `p`. The separators are taken greedily; when no token character follows
   * them the engine gives separators back one at a time, and the only one
   * that can then start the number is a dash, which alone is captured.
   */
  function HeadingNumberAt(s: string, p: nat): (r: Option<string>)
    requires p <= |s|
    ensures r.Some? ==> IsToken(r.value)
  {
    if !StartsAtIgnoringCase(s, p, "REIKNINGUR") then None
    else
      var q := p + 10;
      var n := SeparatorRun(s, q);
      if n > 0 && q + n < |s| && IsTokenChar(s[q + n]) then Some(TokenAt(s, q + n))
      else if exists k :: q + 1 <= k < q + n && s[k] == '-' then Some("-")
      else None
  }

  /** `(?:REIKNINGUR|Reikningur)[\s]*([A-Za-z0-9\-]+)` with IgnoreCase, at `p`. */
  function HeadingWordAt(s: string, p: nat): (r: Option<string>)
    requires p <= |s|
    ensures r.Some? ==> IsToken(r.value)
  {
    if !StartsAtIgnoringCase(s, p, "REIKNINGUR") then None
    else
      var q := p + 10 + WhiteSpaceRun(s, p + 10);
      if q < |s| && IsTokenChar(s[q]) then Some(TokenAt(s, q)) else None
  }

  /**
   * `Nr\.?\s*:?\s*([A-Za-z0-9\-]+)` with IgnoreCase, at `p`. Giving back an
   * optional part or whitespace never puts a token character next, so the
   * greedy path is the only one that can match.
   */
  function NrNumberAt(s: string, p: nat): (r: Option<string>)
    requires p <= |s|
    ensures r.Some? ==> IsToken(r.value)
  {
    if !StartsAtIgnoringCase(s, p, "NR") then None
    else
      var a := p + 2 + (if p + 2 < |s| && s[p + 2] == '.' then 1 else 0);
      var b := a + WhiteSpaceRun(s, a);
      var c := b + (if b < |s| && s[b] == ':' then 1 else 0);
      var d := c + WhiteSpaceRun(s, c);
      if d < |s| && IsTokenChar(s[d]) then Some(TokenAt(s, d)) else None
  }

  /** `([A-Za-z0-9\-]+)` at `p`. */
  function TokenMatchAt(s: string, p: nat): (r: Option<string>)
    requires p <= |s|
    ensures r.Some? ==> IsToken(r.value)
  {
    if p < |s| && IsTokenChar(s[p]) then Some(TokenAt(s, p)) else None
  }

  /** The leftmost match of a pattern yields a token when every match does. */
  lemma LeftmostToken(probe: nat -> Option<string>, n: nat)
    requires forall p :: probe(p).Some? ==> IsToken(probe(p).value)
    ensures Leftmost(probe, 0, n).Some? ==> IsToken(Leftmost(probe, 0, n).value)
  {
  }

  /** `Regex.Match(s, heading pattern)`: the number of the leftmost match. */
  function FirstHeadingNumber(s: string): (r: Option<string>)
    ensures r.Some? ==> IsToken(r.value)
  {
    var probe := (p: nat) => if p <= |s| then HeadingNumberAt(s, p) else None;
    LeftmostToken(probe, |s|);
    Leftmost(probe, 0, |s|)
  }

  function FirstHeadingWord(s: string): (r: Option<string>)
    ensures r.Some? ==> IsToken(r.value)
  {
    var probe := (p: nat) => if p <= |s| then HeadingWordAt(s, p) else None;
    LeftmostToken(probe, |s|);
    Leftmost(probe, 0, |s|)
  }

  function FirstNr(s: string): (r: Option<string>)
    ensures r.Some? ==> IsToken(r.value)
  {
    var probe := (p: nat) => if p <= |s| then NrNumberAt(s, p) else None;
    LeftmostToken(probe, |s|);
    Leftmost(probe, 0, |s|)
  }

  function FirstToken(s: string): (r: Option<string>)
    ensures r.Some? ==> IsToken(r.value)
  {
    var probe := (p: nat) => if p <= |s| then TokenMatchAt(s, p) else None;
    LeftmostToken(probe, |s|);
    Leftmost(probe, 0, |s|)
  }

  // ---------------------------------------------------------------------------
  // The four strategies
  // ---------------------------------------------------------------------------

  /** Strategy 1: the heading pattern in the `REIKNINGUR` h1, else the looser heading pattern. */
  function HeadingTier(heading: Option<string>): (r: Option<string>)
    ensures r.Some? ==> IsToken(r.value)
  {
    match heading
    case None => None
    case Some(h) =>
      var m := FirstHeadingNumber(h);
      if m.Some? then m else FirstHeadingWord(h)
  }

  /**
   * In the sibling loop of strategy 2, the number one div's trimmed text
   * offers: what follows its first "Nr", else the whole text when it is a
   * token of four or more characters (or starts with four digits).
   */
  function DivNumber(t: string): (r: Option<string>)
    ensures r.Some? ==> IsToken(r.value)
  {
    var nr := FirstNr(t);
    if nr.Some? then nr
    else if IsToken(t) && (|t| >= 4 || DigitRun(t, 0) >= 4) then Some(t)
    else None
  }

  /**
   * The sibling loop: the number of the first div, after a div whose text
   * contains "REIKNINGUR" (ignoring case), that offers one. `found` is the
   * loop's flag.
   */
  function SiblingNumber(divs: seq<string>, found: bool): (r: Option<string>)
    ensures r.Some? ==> IsToken(r.value)
    decreases |divs|
  {
    if |divs| == 0 then None
    else
      var here := if found then DivNumber(Trim(divs[0])) else None;
      if here.Some? then here
      else SiblingNumber(divs[1..], found || ContainsIgnoringCase(divs[0], "REIKNINGUR"))
  }

  /** Strategy 2: the first "Nr" of the invoice-number container, else the sibling loop. */
  function ContainerTier(container: Option<NumberContainer>): (r: Option<string>)
    ensures r.Some? ==> IsToken(r.value)
  {
    match container
    case None => None
    case Some(c) =>
      var nr := FirstNr(c.text);
      if nr.Some? then nr
      else
        match c.divsNearHeading
        case None => None
        case Some(divs) => SiblingNumber(divs, false)
  }

  /** In strategy 3, one container's number: what follows its first "Nr", when long enough. */
  function NrProbe(text: string): (r: Option<string>)
    ensures r.Some? ==> IsToken(r.value) && |r.value| >= 4
  {
    var nr := FirstNr(text);
    if nr.Some? && (|nr.value| >= 4 || DigitRun(nr.value, 0) >= 4) then nr else None
  }

  /** Strategy 3: the first container of a "Nr" text whose number is long enough. */
  function NrTier(containers: seq<string>): (r: Option<string>)
    ensures r.Some? ==> IsToken(r.value) && |r.value| >= 4
  {
    FirstSome(containers, NrProbe)
  }

  /** Strategy 4: the first token of the document-details h1, unless that heading says "REIKNINGUR". */
  function DetailsTier(heading: Option<string>): (r: Option<string>)
    ensures r.Some? ==> IsToken(r.value)
  {
    match heading
    case None => None
    case Some(h) =>
      var m := FirstToken(h);
      if m.Some? && !ContainsIgnoringCase(h, "REIKNINGUR") then m else None
  }

  /** The guard of strategies 2 to 4: the number is empty or still the fallback. */
  predicate Unresolved(number: string, fallback: string) {
    |number| == 0 || number == fallback
  }

  /** One of strategies 2 to 4: what it found replaces the number only while that is unresolved. */
  function Override(number: string, fallback: string, found: Option<string>): (r: string)
    ensures !Unresolved(number, fallback) ==> r == number
    ensures found.None? ==> r == number
    ensures Unresolved(number, fallback) && found.Some? ==> r == found.value
  {
    if Unresolved(number, fallback) then found.GetOr(number) else number
  }

  /** The invoice number `ParseInvoice` settles on. */
  function InvoiceNumberOf(doc: Document, fileName: string): (r: string)
  {
    var fallback := FileNameWithoutExtension(fileName);
    var n1 := HeadingTier(doc.headingH1).GetOr(fallback);
    var n2 := Override(n1, fallback, ContainerTier(doc.numberContainer));
    var n3 := Override(n2, fallback, NrTier(doc.nrContainers));
    Override(n3, fallback, DetailsTier(doc.detailsH1))
  }

  // ---------------------------------------------------------------------------
  // The imperative resolution
  // ---------------------------------------------------------------------------

  /** The `foreach` over the divs near the heading, with its `foundReikningur` flag. */
  method ScanSiblings(divs: seq<string>) returns (r: Option<string>)
    ensures r == SiblingNumber(divs, false)
  {
    var foundReikningur := false;
    for i := 0 to |divs|
      invariant SiblingNumber(divs, false) == SiblingNumber(divs[i..], foundReikningur)
    {
      assert divs[i..][1..] == divs[i + 1..];
      if foundReikningur {
        var divText := Trim(divs[i]);
        var nrInDiv := FirstNr(divText);
        if nrInDiv.Some? {
          return nrInDiv;
        }
        if IsToken(divText) && (|divText| >= 4 || DigitRun(divText, 0) >= 4) {
          return Some(divText);
        }
      }
      if ContainsIgnoringCase(divs[i], "REIKNINGUR") {
        foundReikningur := true;
      }
    }
    return None;
  }

  /** Strategy 2: the first "Nr" in the container's text, else the sibling loop. */
  method ScanNumberContainer(container: Option<NumberContainer>) returns (r: Option<string>)
    ensures r == ContainerTier(container)
  {
    r := None;
    if container.Some? {
      var nrMatch := FirstNr(container.value.text);
      if nrMatch.Some? {
        r := nrMatch;
      } else if container.value.divsNearHeading.Some? {
        r := ScanSiblings(container.value.divsNearHeading.value);
      }
    }
  }

  /** The `foreach` of strategy 3 over the "Nr" containers, stopping at the first long-enough number. */
  method ScanNrContainers(texts: seq<string>) returns (r: Option<string>)
    ensures r == NrTier(texts)
  {
    for i := 0 to |texts|
      invariant FirstSome(texts, NrProbe) == FirstSome(texts[i..], NrProbe)
    {
      assert texts[i..][1..] == texts[i + 1..];
      var nrMatch := FirstNr(texts[i]);
      if nrMatch.Some? {
        var extractedNumber := nrMatch.value;
        if |extractedNumber| >= 4 || DigitRun(extractedNumber, 0) >= 4 {
          return Some(extractedNumber);
        }
      }
    }
    return None;
  }

  /** Strategy 1 on the `REIKNINGUR` h1. */
  method ScanHeading(heading: Option<string>) returns (r: Option<string>)
    ensures r == HeadingTier(heading)
  {
    r := None;
    if heading.Some? {
      var h1Text := heading.value;
      var invoiceNumberMatch := FirstHeadingNumber(h1Text);
      if invoiceNumberMatch.Some? {
        r := invoiceNumberMatch;
      } else {
        r := FirstHeadingWord(h1Text);
      }
    }
  }

  /** Strategy 4 on the document-details h1. */
  method ScanDetailsHeading(heading: Option<string>) returns (r: Option<string>)
    ensures r == DetailsTier(heading)
  {
    r := None;
    if heading.Some? {
      var h1Text := heading.value;
      var numberMatch := FirstToken(h1Text);
      if numberMatch.Some? && !ContainsIgnoringCase(h1Text, "REIKNINGUR") {
        r := numberMatch;
      }
    }
  }

  /** The invoice-number part of `ParseInvoice`: the fallback, then the four strategies in order. */
  method ResolveInvoiceNumber(doc: Document, fileName: string) returns (number: string)
    ensures number == InvoiceNumberOf(doc, fileName)
  {
    var fallback := FileNameWithoutExtension(fileName);
    number := fallback;
    var fromHeading := ScanHeading(doc.headingH1);
    if fromHeading.Some? {
      number := fromHeading.value;
    }
    if |number| == 0 || number == fallback {
      var fromContainer := ScanNumberContainer(doc.numberContainer);
      if fromContainer.Some? {
        number := fromContainer.value;
      }
    }
    if |number| == 0 || number == fallback {
      var fromNr := ScanNrContainers(doc.nrContainers);
      if fromNr.Some? {
        number := fromNr.value;
      }
    }
    if |number| == 0 || number == fallback {
      var fromDetails := ScanDetailsHeading(doc.detailsH1);
      if fromDetails.Some? {
        number := fromDetails.value;
      }
    }
  }

  // ---------------------------------------------------------------------------
  // Properties
  // ---------------------------------------------------------------------------

  /** The invoice number is the fallback or a token one of the strategies captured. */
  lemma NumberIsFallbackOrToken(doc: Document, fileName: string)
    ensures var r := InvoiceNumberOf(doc, fileName);
      r == FileNameWithoutExtension(fileName) || IsToken(r)
  {
    var fallback := FileNameWithoutExtension(fileName);
    var t3 := NrTier(doc.nrContainers);
    if t3.Some? {
      var k :| 0 <= k < |doc.nrContainers| && NrProbe(doc.nrContainers[k]) == t3
        && forall j :: 0 <= j < k ==> NrProbe(doc.nrContainers[j]).None?;
    }
  }

  /** When no strategy finds anything the number is the file name without its extension. */
  lemma NothingFoundKeepsFallback(doc: Document, fileName: string)
    requires HeadingTier(doc.headingH1).None? && ContainerTier(doc.numberContainer).None? && NrTier(doc.nrContainers).None? && DetailsTier(doc.detailsH1).None?
    ensures InvoiceNumberOf(doc, fileName) == FileNameWithoutExtension(fileName)
  {
  }

  /**
   * Strategies 2 to 4 run only while the number is unresolved: a heading
   * number that is neither empty nor the fallback is final.
   */
  lemma HeadingNumberIsFinal(doc: Document, fileName: string)
    requires HeadingTier(doc.headingH1).Some? && !Unresolved(HeadingTier(doc.headingH1).value, FileNameWithoutExtension(fileName))
    ensures InvoiceNumberOf(doc, fileName) == HeadingTier(doc.headingH1).value
  {
  }

  /** What the four strategies find, in the order they are tried. */
  function TierNumbers(doc: Document): (ts: seq<Option<string>>)
    ensures |ts| == 4
    ensures forall k :: 0 <= k < |ts| && ts[k].Some? ==> IsToken(ts[k].value)
  {
    [HeadingTier(doc.headingH1), ContainerTier(doc.numberContainer), NrTier(doc.nrContainers), DetailsTier(doc.detailsH1)]
  }

  /** A strategy's number settles the invoice number when it is neither empty nor the fallback. */
  predicate Settles(found: Option<string>, fallback: string) {
    found.Some? && !Unresolved(found.value, fallback)
  }

  /**
   * Strategies 2 to 4 run only while the number is unresolved: the invoice
   * number is what the first strategy that settles it found, and the file
   * name without extension when no strategy does.
   */
  lemma NumberIsFirstSettlingTier(doc: Document, fileName: string)
    ensures var fallback := FileNameWithoutExtension(fileName);
      var ts := TierNumbers(doc);
      && ((forall k :: 0 <= k < |ts| ==> !Settles(ts[k], fallback)) ==> InvoiceNumberOf(doc, fileName) == fallback)
      && (forall k :: 0 <= k < |ts| && Settles(ts[k], fallback) && (forall j :: 0 <= j < k ==> !Settles(ts[j], fallback))
            ==> InvoiceNumberOf(doc, fileName) == ts[k].value)
  {
    hide HeadingTier, ContainerTier, NrTier, DetailsTier, FileNameWithoutExtension;
    var fallback := FileNameWithoutExtension(fileName);
    var ts := TierNumbers(doc);
    var n1 := ts[0].GetOr(fallback);
    var n2 := Override(n1, fallback, ts[1]);
    var n3 := Override(n2, fallback, ts[2]);
    assert InvoiceNumberOf(doc, fileName) == Override(n3, fallback, ts[3]);
    // A token that does not settle the number is the fallback itself.
    assert forall k :: 0 <= k < 4 && ts[k].Some? && !Settles(ts[k], fallback) ==> ts[k].value == fallback;
  }

  /**
   * Strategy 3 accepts only numbers of four or more characters: it takes the
   * number after "Nr" in the first container where that number is long
   * enough, skipping containers with shorter ones.
   */
  lemma NrTierTakesLongNumber(doc: Document)
    requires NrTier(doc.nrContainers).Some?
    ensures |NrTier(doc.nrContainers).value| >= 4
    ensures exists k :: (0 <= k < |doc.nrContainers| && FirstNr(doc.nrContainers[k]) == NrTier(doc.nrContainers) &&
      forall j :: 0 <= j < k ==> FirstNr(doc.nrContainers[j]).None? || |FirstNr(doc.nrContainers[j]).value| < 4)
  {
    hide NrProbe, FirstNr;
    var cs := doc.nrContainers;
    var r := NrTier(cs);
    var k :| 0 <= k < |cs| && NrProbe(cs[k]) == r && forall j :: 0 <= j < k ==> NrProbe(cs[j]).None?;
    NrProbeFacts(cs[k]);
    forall j | 0 <= j < k
      ensures FirstNr(cs[j]).None? || |FirstNr(cs[j]).value| < 4
    {
      NrProbeFacts(cs[j]);
    }
  }

  /** What the probe keeps: the "Nr" token when it is long enough, nothing when it is missing or short. */
  lemma NrProbeFacts(text: string)
    ensures NrProbe(text).Some? ==> NrProbe(text) == FirstNr(text)
    ensures NrProbe(text).None? ==> FirstNr(text).None? || |FirstNr(text).value| < 4
  {
  }

  /**
   * Strategy 4 never takes its number from a heading that says "REIKNINGUR":
   * when only it finds a number, the document-details heading does not
   * contain that word in any case, and the number is that heading's first token.
   */
  lemma DetailsNumberAvoidsInvoiceHeading(doc: Document, fileName: string)
    requires HeadingTier(doc.headingH1).None? && ContainerTier(doc.numberContainer).None? && NrTier(doc.nrContainers).None?
    requires InvoiceNumberOf(doc, fileName) != FileNameWithoutExtension(fileName)
    ensures doc.detailsH1.Some? && !ContainsIgnoringCase(doc.detailsH1.value, "REIKNINGUR")
    ensures Some(InvoiceNumberOf(doc, fileName)) == FirstToken(doc.detailsH1.value)
  {
  }
}

=== FILE: invoice_parser.dfy ===
/**
 * `HtmlInvoiceParser.ParseInvoice`: the header fields, each from its own
 * chain of strategies, then the items from the first sub-parser that accepts
 * the document and finds some, then the total computed from the items when
 * no strategy found one.
 */
module InvoiceParser {
  import opened Wrappers
  import opened Text
  import opened Tiers
  import opened InvoiceModel
  import opened HtmlDocument
  import opened InvoiceNumber
  import opened Parties
  import opened InvoiceDate
  import opened Totals
  import TableParser
  import DivParser

  // ---------------------------------------------------------------------------
  // Choosing the sub-parser
  // ---------------------------------------------------------------------------

  /** The sub-parsers, in the order the parser registers them. */
  datatype SubParser = TableLayout | DivLayout

  const SubParsers: seq<SubParser> := [TableLayout, DivLayout]

  /** `CanParse` of each sub-parser. */
  predicate Accepts(p: SubParser, doc: Document) {
    match p
    case TableLayout => TableParser.ItemsTable(doc.tables).Some?
    case DivLayout => DivParser.CanParse(doc.holders)
  }

  /** `ParseItems` of each sub-parser. */
  function ItemsFrom(p: SubParser, doc: Document): seq<InvoiceItem> {
    match p
    case TableLayout => TableParser.TableItemsOf(doc.tables)
    case DivLayout => DivParser.DivItems(doc.holders)
  }

  /** A sub-parser's items when it accepts the document and finds at least one item. */
  function Attempt(doc: Document): SubParser -> Option<seq<InvoiceItem>> {
    p => if Accepts(p, doc) && |ItemsFrom(p, doc)| > 0 then Some(ItemsFrom(p, doc)) else None
  }

  /** The items of the first sub-parser that accepts the document and finds some; None when none does. */
  function ItemsOf(doc: Document): (r: Option<seq<InvoiceItem>>)
    ensures r.Some? ==> |r.value| > 0
  {
    FirstSome(SubParsers, Attempt(doc))
  }

  method CanParseWith(p: SubParser, doc: Document) returns (b: bool)
    ensures b == Accepts(p, doc)
  {
    match p
    case TableLayout => b := TableParser.CanParse(doc.tables);
    case DivLayout => b := DivParser.CanParse(doc.holders);
  }

  method ParseItemsWith(p: SubParser, doc: Document) returns (items: seq<InvoiceItem>)
    ensures items == ItemsFrom(p, doc)
  {
    match p
    case TableLayout => items := TableParser.ParseItems(doc.tables);
    case DivLayout => items := DivParser.ParseItems(doc.holders);
  }

  /** The loop over the sub-parsers: the first non-empty result is taken and the loop stops. */
  method DispatchItems(doc: Document) returns (items: Option<seq<InvoiceItem>>)
    ensures items == ItemsOf(doc)
  {
    hide TableParser.TableItemsOf, TableParser.ItemsTable, DivParser.DivItems;
    for i := 0 to |SubParsers|
      invariant forall j :: 0 <= j < i ==> Attempt(doc)(SubParsers[j]).None?
    {
      var parser := SubParsers[i];
      var accepts := CanParseWith(parser, doc);
      if accepts {
        var parsed := ParseItemsWith(parser, doc);
        if |parsed| > 0 {
          FirstSomeAt(SubParsers, i, Attempt(doc));
          return Some(parsed);
        }
      }
    }
    return None;
  }

  /** The items are the table parser's when it accepts and finds some, else the div parser's; never a mix. */
  lemma ItemsFromOneSubParser(doc: Document)
    ensures Accepts(TableLayout, doc) && |TableParser.TableItemsOf(doc.tables)| > 0 ==>
      ItemsOf(doc) == Some(TableParser.TableItemsOf(doc.tables))
    ensures !(Accepts(TableLayout, doc) && |TableParser.TableItemsOf(doc.tables)| > 0) ==>
      ItemsOf(doc) == (if DivParser.CanParse(doc.holders) && |DivParser.DivItems(doc.holders)| > 0
        then Some(DivParser.DivItems(doc.holders)) else None)
  {
    hide TableParser.TableItemsOf, TableParser.ItemsTable, DivParser.DivItems;
    if Accepts(TableLayout, doc) && |TableParser.TableItemsOf(doc.tables)| > 0 {
      FirstSomeAt(SubParsers, 0, Attempt(doc));
    } else if Attempt(doc)(DivLayout).Some? {
      FirstSomeAt(SubParsers, 1, Attempt(doc));
    }
  }

  // ---------------------------------------------------------------------------
  // The total computed from the items
  // ---------------------------------------------------------------------------

  /** An item's share of the computed total: its total with VAT when positive, else its net total. */
  function ItemAmount(it: InvoiceItem): real {
    if it.totalPriceWithVat > 0.0 then it.totalPriceWithVat else it.totalPrice
  }

  /** `Items.Sum(ItemAmount)`. */
  function ItemSum(items: seq<InvoiceItem>): real
  {
    if |items| == 0 then 0.0 else ItemSum(items[..|items| - 1]) + ItemAmount(items[|items| - 1])
  }

  /** The sum of items whose amounts are not negative is not negative. */
  lemma {:induction false} ItemSumNonNegative(items: seq<InvoiceItem>)
    requires forall k :: 0 <= k < |items| ==> items[k].totalPrice >= 0.0 && items[k].totalPriceWithVat >= 0.0
    ensures ItemSum(items) >= 0.0
  {
    if |items| > 0 {
      ItemSumNonNegative(items[..|items| - 1]);
    }
  }

  /** The sum over `a + b` is the sum over `a` plus the sum over `b`. */
  lemma {:induction false} ItemSumAppend(a: seq<InvoiceItem>, b: seq<InvoiceItem>)
    ensures ItemSum(a + b) == ItemSum(a) + ItemSum(b)
    decreases |b|
  {
    if |b| > 0 {
      assert (a + b)[..|a + b| - 1] == a + b[..|b| - 1];
      ItemSumAppend(a, b[..|b| - 1]);
    } else {
      assert a + b == a;
    }
  }

  /** `Items.Sum(...)`: the loop over the items. */
  method SumItems(items: seq<InvoiceItem>) returns (sum: real)
    ensures sum == ItemSum(items)
  {
    sum := 0.0;
    for i := 0 to |items|
      invariant sum == ItemSum(items[..i])
    {
      assert items[..i + 1][..i] == items[..i];
      sum := sum + ItemAmount(items[i]);
    }
    assert items[..|items|] == items;
  }

  /** The total found by the strategies, or, when it is 0 and there are items, their sum. */
  function FinalTotal(total: real, items: seq<InvoiceItem>): real {
    if total == 0.0 && |items| > 0 then ItemSum(items) else total
  }

  // ---------------------------------------------------------------------------
  // The whole invoice
  // ---------------------------------------------------------------------------

  /** The invoice extracted from a document and its file name. */
  function InvoiceOf(doc: Document, fileName: string): Invoice
  {
    var lines := Lines(doc.text);
    var buyer := BuyerOf(doc, lines);
    var items := ItemsOf(doc).GetOr([]);
    Invoice(
      InvoiceNumberOf(doc, fileName),
      SupplierNameOf(doc, lines),
      buyer.name,
      TaxIdOf(buyer.sectionText, doc.ublId),
      InvoiceDateOf(doc.dateContainers, lines),
      FinalTotal(TotalOf(doc), items),
      items)
  }

  /** `ParseInvoice`: the header sections in order, the total, the items, then the fallback total. */
  method ParseInvoice(doc: Document, fileName: string) returns (invoice: Invoice)
    ensures invoice == InvoiceOf(doc, fileName)
  {
    hide InvoiceNumberOf, SupplierNameOf, BuyerOf, TaxIdOf, InvoiceDateOf, TotalOf, ItemsOf, ItemSum, Lines;
    var invoiceNumber := ResolveInvoiceNumber(doc, fileName);
    var lines := Lines(doc.text);
    var supplierName := ResolveSupplier(doc, lines);
    var buyer := ResolveBuyer(doc, lines);
    var buyerTaxId := TaxIdOf(buyer.sectionText, doc.ublId);
    var invoiceDate := ResolveInvoiceDate(doc.dateContainers, lines);
    var totalAmount := ExtractTotalAmount(doc);
    var found := DispatchItems(doc);
    var items := found.GetOr([]);
    if totalAmount == 0.0 && |items| > 0 {
      totalAmount := SumItems(items);
    }
    invoice := Invoice(invoiceNumber, supplierName, buyer.name, buyerTaxId, invoiceDate, totalAmount, items);
  }

  // ---------------------------------------------------------------------------
  // Properties
  // ---------------------------------------------------------------------------

  /**
   * A total found by a strategy is kept; the items' sum replaces it only when
   * it is 0 and there are items; the result is never negative.
   */
  lemma TotalFallback(doc: Document, fileName: string)
    ensures var inv := InvoiceOf(doc, fileName);
      && (TotalOf(doc) > 0.0 ==> inv.totalAmount == TotalOf(doc))
      && (TotalOf(doc) == 0.0 && |inv.items| > 0 ==> inv.totalAmount == ItemSum(inv.items))
      && (TotalOf(doc) == 0.0 && |inv.items| == 0 ==> inv.totalAmount == 0.0)
      && inv.totalAmount >= 0.0
  {
    hide TotalOf, ItemsOf, InvoiceNumberOf, SupplierNameOf, BuyerOf, TaxIdOf, InvoiceDateOf, Lines;
    var items := ItemsOf(doc).GetOr([]);
    ItemsNonNegative(doc);
    ItemSumNonNegative(items);
  }

  /** Every item either sub-parser produces has amounts that are not negative. */
  lemma ItemsNonNegative(doc: Document)
    ensures var items := ItemsOf(doc).GetOr([]);
      forall k :: 0 <= k < |items| ==> items[k].totalPrice >= 0.0 && items[k].totalPriceWithVat >= 0.0
  {
    hide TableParser.TableItemsOf, TableParser.ItemsTable, DivParser.DivItems;
    ItemsFromOneSubParser(doc);
    TableItemsNonNegative(doc.tables);
    DivItemsNonNegative(doc.holders);
  }

  lemma TableItemsNonNegative(tables: seq<Table>)
    ensures forall it :: it in TableParser.TableItemsOf(tables) ==> it.totalPrice >= 0.0 && it.totalPriceWithVat >= 0.0
  {
    match TableParser.ItemsTable(tables)
    case None =>
    case Some(t) =>
      var prices := TableParser.PricesOf(tables);
      TableParser.TableItemsFromRows(t.rows, prices);
      forall it | it in TableParser.TableItemsOf(tables) ensures it.totalPrice >= 0.0 && it.totalPriceWithVat >= 0.0 {
        var i :| 0 <= i < |t.rows| && TableParser.RowItem(t.rows[i], prices) == Some(it);
      }
  }

  lemma DivItemsNonNegative(holders: seq<Holder>)
    ensures forall it :: it in DivParser.DivItems(holders) ==> it.totalPrice >= 0.0 && it.totalPriceWithVat >= 0.0
  {
    DivParser.DivItemsPerHolder(holders);
    forall it | it in DivParser.DivItems(holders) ensures it.totalPrice >= 0.0 && it.totalPriceWithVat >= 0.0 {
      var i :| 0 <= i < |holders| && DivParser.ItemOfHolder(holders[i], it);
    }
  }

  /**
   * The header fields keep their shapes whatever the document: a supplier
   * name is never empty, a buyer tax id is empty or ten digits, and the date
   * is a real calendar date (the default 1 January of year 1 included).
   */
  lemma HeaderShapes(doc: Document, fileName: string)
    ensures var inv := InvoiceOf(doc, fileName);
      && |inv.supplierName| > 0
      && (inv.buyerTaxId == "" || IsTaxId(inv.buyerTaxId))
      && IsValidDate(inv.invoiceDate)
  {
    hide TotalOf, ItemsOf, InvoiceNumberOf, InvoiceDateOf, Lines;
    InvoiceDateIsValid(doc.dateContainers, Lines(doc.text));
  }
}

=== FILE: name_cleaner.dfy ===
/**
 * Clean-up of party and item names (`CleanSupplierName`, `CleanBuyerName`,
 * `CleanItemName` in the invoice parser and the sub-parsers' `CleanName`).
 */
module NameCleaner {
  import opened Wrappers
  import opened Text
  import opened Patterns

  // ---------------------------------------------------------------------------
  // Address patterns, each followed by ".*$"
  // ---------------------------------------------------------------------------

  /**
   * The letters of the address classes `[A-ZÞÆÖÁÍÉÝÚÓa-zþæöáíéýúó]`
   * (the letter ð is not among them).
   */
  predicate IsAddressLetter(c: char) {
    IsAsciiLetter(c)
    || c in {'Þ', 'Æ', 'Ö', 'Á', 'Í', 'É', 'Ý', 'Ú', 'Ó', 'þ', 'æ', 'ö', 'á', 'í', 'é', 'ý', 'ú', 'ó'}
  }

  datatype AddressPattern =
    | /** `,\s*[A-ZÞÆÖÁÍÉÝÚÓa-zþæöáíéýúó\s]+\s+\d+`: ", Street 123". */
      Street
    | /** `,\s*\d{3}\s+[A-ZÞÆÖÁÍÉÝÚÓa-zþæöáíéýúó]`: ", 101 Reykjavik". */
      PostCode
    | /** `,\s*IS\s*$`: a trailing ", IS". */
      Country

  /** Length of the run of address letters and whitespace starting at `i`. */
  function AddressWordsRun(s: string, i: nat): (n: nat)
    requires i <= |s|
    ensures i + n <= |s|
    ensures forall k :: i <= k < i + n ==> IsAddressLetter(s[k]) || IsWhiteSpace(s[k])
    ensures i + n == |s| || !(IsAddressLetter(s[i + n]) || IsWhiteSpace(s[i + n]))
    decreases |s| - i
  {
    if i < |s| && (IsAddressLetter(s[i]) || IsWhiteSpace(s[i])) then 1 + AddressWordsRun(s, i + 1) else 0
  }

  /** `.*$` can match from `i`: no line feed follows except as the very last character. */
  predicate OnLastLine(s: string, i: nat)
    requires i <= |s|
  {
    forall j :: i <= j < |s| - 1 ==> s[j] != '\n'
  }

  /** Where a greedy `.*` starting at `i` stops: the first line feed, or the end. */
  function LineEnd(s: string, i: nat): (e: nat)
    requires i <= |s|
    ensures i <= e <= |s|
    ensures forall j :: i <= j < e ==> s[j] != '\n'
    ensures e < |s| ==> s[e] == '\n'
    decreases |s| - i
  {
    if i == |s| || s[i] == '\n' then i else LineEnd(s, i + 1)
  }

  /**
   * Where the match of `pat + ".*$"` starting at `p` ends, None when there is
   * none. In `Street` the letters-and-spaces run must be followed directly by
   * the digits, so the only candidate for the first digit is the end of that run.
   */
  function AddressMatchEnd(pat: AddressPattern, s: string, p: nat): (r: Option<nat>)
    requires p <= |s|
    ensures r.Some? ==> p < |s| && s[p] == ',' && p < r.value <= |s|
    ensures r.Some? ==> IsBlank(s[r.value..])
  {
    if p == |s| || s[p] != ',' then None
    else match pat
      case Street =>
        var c := p + 1 + AddressWordsRun(s, p + 1);
        if c >= p + 3 && IsWhiteSpace(s[c - 1]) && c < |s| && IsDigit(s[c]) && OnLastLine(s, c)
        then LastLineEnd(s, c); Some(LineEnd(s, c))
        else None
      case PostCode =>
        var d := p + 1 + WhiteSpaceRun(s, p + 1);
        if d + 3 <= |s| && DigitsBetween(s, d, d + 3) then
          var e := d + 3 + WhiteSpaceRun(s, d + 3);
          if e > d + 3 && e < |s| && IsAddressLetter(s[e]) && OnLastLine(s, e)
          then LastLineEnd(s, e); Some(LineEnd(s, e))
          else None
        else None
      case Country =>
        var q := p + 1 + WhiteSpaceRun(s, p + 1);
        if StartsAtIgnoringCase(s, q, "IS") && IsBlank(s[q + 2..]) then Some(|s|) else None
  }

  /** On the last line a greedy `.*` stops at the end or at a final line feed. */
  lemma LastLineEnd(s: string, i: nat)
    requires i < |s| && OnLastLine(s, i)
    ensures IsBlank(s[LineEnd(s, i)..])
    ensures LineEnd(s, i) > i || s[i] == '\n'
  {
  }

  /** The matcher of `pat + ".*$"` as a total function of the text and the position. */
  function AddressMatcher(pat: AddressPattern): (string, nat) -> Option<nat> {
    (t: string, p: nat) => if p <= |t| then AddressMatchEnd(pat, t, p) else None
  }

  /**
   * A matcher whose matches start at a comma and leave only whitespace after
   * them (the address patterns followed by ".*$").
   */
  ghost predicate IsCutter(matchEnd: (string, nat) -> Option<nat>) {
    forall t: string, p: nat :: p <= |t| && matchEnd(t, p).Some? ==>
      p < |t| && t[p] == ',' && p < matchEnd(t, p).value <= |t| && IsBlank(t[matchEnd(t, p).value..])
  }

  lemma AddressMatcherIsCutter(pat: AddressPattern)
    ensures IsCutter(AddressMatcher(pat))
  {
  }

  /** The leftmost position at or after `i` where `matchEnd` finds a match, None when there is none. */
  function Leftmost(matchEnd: (string, nat) -> Option<nat>, s: string, i: nat): (r: Option<nat>)
    requires i <= |s|
    ensures r.None? <==> forall j :: i <= j <= |s| ==> matchEnd(s, j).None?
    ensures r.Some? ==> i <= r.value <= |s| && matchEnd(s, r.value).Some?
    ensures r.Some? ==> forall j :: i <= j < r.value ==> matchEnd(s, j).None?
    decreases |s| - i
  {
    if matchEnd(s, i).Some? then Some(i)
    else if i == |s| then None
    else Leftmost(matchEnd, s, i + 1)
  }

  /** The position of the cut: the leftmost match, or |s| when there is none. */
  function CutPoint(matchEnd: (string, nat) -> Option<nat>, s: string): (k: nat)
    ensures k <= |s|
  {
    match Leftmost(matchEnd, s, 0)
    case None => |s|
    case Some(p) => p
  }

  /**
   * `Regex.Replace(s, pattern + ".*$", "")` for a pattern matched by
   * `matchEnd`: the leftmost match is deleted. It runs to the end of the text
   * or to a final line feed, so no further match can follow it.
   */
  function Cut(matchEnd: (string, nat) -> Option<nat>, s: string): (r: string)
  {
    match Leftmost(matchEnd, s, 0)
    case None => s
    case Some(p) =>
      var e := matchEnd(s, p).value;
      if p <= e <= |s| then s[..p] + s[e..] else s
  }

  /**
   * A cut keeps the text before the leftmost comma where the pattern matches
   * and leaves at most whitespace after it; it only deletes, and a text
   * without a comma, or in which the pattern matches nowhere, is unchanged.
   */
  lemma CutShape(matchEnd: (string, nat) -> Option<nat>, s: string)
    requires IsCutter(matchEnd)
    ensures var r, k := Cut(matchEnd, s), CutPoint(matchEnd, s);
      && k <= |r| && r[..k] == s[..k] && IsBlank(r[k..])
      && (k < |s| ==> s[k] == ',')
      && CharsIn(r, s)
      && ((forall j :: 0 <= j <= |s| ==> matchEnd(s, j).None?) ==> r == s)
      && (',' !in s ==> r == s)
  {
    var r := Cut(matchEnd, s);
    match Leftmost(matchEnd, s, 0)
    case None =>
      CharsInInfix(s, 0, |s|);
      assert s[0..|s|] == s;
    case Some(p) =>
      var e := matchEnd(s, p).value;
      assert r == s[..p] + s[e..];
      assert r[..p] == s[..p] && r[p..] == s[e..];
      CharsInInfix(s, 0, p);
      CharsInInfix(s, e, |s|);
      assert s[0..p] == s[..p] && s[e..|s|] == s[e..];
      CharsInAppend(s[..p], s[e..], s);
  }

  /** The address cut of `pat`. */
  function CutAddress(pat: AddressPattern, s: string): (r: string)
  {
    Cut(AddressMatcher(pat), s)
  }

  /** A cut text trims to the trimmed piece before the cut. */
  lemma TrimCut(pat: AddressPattern, s: string)
    ensures Trim(CutAddress(pat, s)) == Trim(s[..CutPoint(AddressMatcher(pat), s)])
    ensures CharsIn(CutAddress(pat, s), s)
    ensures ',' !in s ==> CutAddress(pat, s) == s
  {
    AddressMatcherIsCutter(pat);
    CutShape(AddressMatcher(pat), s);
    var r := CutAddress(pat, s);
    var k := CutPoint(AddressMatcher(pat), s);
    assert r == r[..k] + r[k..];
    TrimBlankSuffix(r[..k], r[k..]);
  }

  // ---------------------------------------------------------------------------
  // Supplier and buyer names
  // ---------------------------------------------------------------------------

  /** The two patterns of the supplier cleaner, applied in order. */
  function CutSupplierAddress(raw: string): (r: string)
  {
    CutAddress(PostCode, CutAddress(Street, raw))
  }

  /**
   * `CleanSupplierName(raw)`: the name with the address cut off, trimmed,
   * and with trailing commas and full stops removed; blank text is returned
   * as it is.
   */
  function CleanSupplierName(raw: string): (r: string)
    ensures IsBlank(raw) ==> r == raw
    ensures !IsBlank(raw) ==> |r| == 0 || (!IsWhiteSpace(r[0]) && r[|r| - 1] != ',' && r[|r| - 1] != '.')
  {
    if IsBlank(raw) then raw
    else TrimEndChars(Trim(CutSupplierAddress(raw)), {',', '.'})
  }

  /**
   * The supplier cleaner only cuts: its result is a contiguous piece of the
   * raw name, and a name without a comma is only trimmed.
   */
  lemma SupplierNameIsPieceOfRaw(raw: string)
    ensures IsInfix(CleanSupplierName(raw), raw)
    ensures ',' !in raw && !IsBlank(raw) ==> CleanSupplierName(raw) == TrimEndChars(Trim(raw), {',', '.'})
  {
    if IsBlank(raw) {
      assert raw == raw[0..|raw|];
    } else {
      var c1 := CutAddress(Street, raw);
      var k1 := CutPoint(AddressMatcher(Street), raw);
      var k2 := CutPoint(AddressMatcher(PostCode), c1);
      TrimCut(Street, raw);
      TrimCut(PostCode, c1);
      AddressMatcherIsCutter(Street);
      CutShape(AddressMatcher(Street), raw);
      var piece := PieceBeforeCuts(raw, c1, k1, k2);
      TrimmedPrefixIsPiece(raw, |piece|, {',', '.'});
    }
  }

  /** Trimming a prefix, then dropping trailing characters, leaves a piece of the text. */
  lemma TrimmedPrefixIsPiece(raw: string, m: nat, cs: set<char>)
    requires m <= |raw|
    ensures IsInfix(TrimEndChars(Trim(raw[..m]), cs), raw)
  {
    var a, b := TrimBounds(raw[..m]);
    var r := TrimEndChars(Trim(raw[..m]), cs);
    PrefixOfPiece(raw, m, a, b, |r|);
    assert r == raw[a..a + |r|];
  }

  /** Two successive cuts trim to a trimmed prefix of the original text. */
  lemma PieceBeforeCuts(raw: string, c1: string, k1: nat, k2: nat) returns (piece: string)
    requires k1 <= |raw| && k1 <= |c1| && c1[..k1] == raw[..k1] && IsBlank(c1[k1..])
    requires k2 <= |c1|
    ensures |piece| <= |raw| && piece == raw[..|piece|]
    ensures Trim(c1[..k2]) == Trim(piece)
  {
    if k2 <= k1 {
      piece := raw[..k2];
      calc {
        c1[..k2];
        c1[..k1][..k2];
        raw[..k1][..k2];
        piece;
      }
    } else {
      piece := raw[..k1];
      assert c1[..k2] == raw[..k1] + c1[k1..k2];
      assert IsBlank(c1[k1..k2]) by {
        forall j | 0 <= j < k2 - k1 ensures IsWhiteSpace(c1[k1..k2][j]) {
          assert c1[k1..k2][j] == c1[k1..][j];
        }
      }
      TrimBlankSuffix(raw[..k1], c1[k1..k2]);
    }
  }

  /** The three patterns of the buyer cleaner, applied in order. */
  function CutBuyerAddress(raw: string): (r: string)
  {
    CutAddress(Country, CutAddress(PostCode, CutAddress(Street, raw)))
  }

  /**
   * `CleanBuyerName(raw)`: the name with the address cut off and every
   * kennitala removed, trimmed, and with trailing commas and full stops
   * removed; blank text is returned as it is.
   */
  function CleanBuyerName(raw: string): (r: string)
    ensures IsBlank(raw) ==> r == raw
    ensures !IsBlank(raw) ==> |r| == 0 || (!IsWhiteSpace(r[0]) && r[|r| - 1] != ',' && r[|r| - 1] != '.')
  {
    if IsBlank(raw) then raw
    else TrimEndChars(Trim(RemoveAll(TaxId, CutBuyerAddress(raw), 0)), {',', '.'})
  }

  /**
   * The buyer cleaner only deletes: every character of its result is a
   * character of the raw name, and a name with no comma and no kennitala is
   * only trimmed.
   */
  lemma BuyerNameDrawnFromRaw(raw: string)
    ensures CharsIn(CleanBuyerName(raw), raw)
    ensures ',' !in raw && !IsBlank(raw) && (forall j :: 0 <= j < |raw| ==> TaxIdLen(raw, j) == 0) ==>
      CleanBuyerName(raw) == TrimEndChars(Trim(raw), {',', '.'})
  {
    if IsBlank(raw) {
      CharsInInfix(raw, 0, |raw|);
      assert raw[0..|raw|] == raw;
    } else {
      var c := CutBuyerAddress(raw);
      CutDrawnFromRaw(raw);
      var d := RemoveAll(TaxId, c, 0);
      RemoveAllOnlyDeletes(TaxId, c);
      CharsInTrans(d, c, raw);
      var a, b := TrimBounds(d);
      var r := TrimEndChars(Trim(d), {',', '.'});
      PrefixOfPiece(d, |d|, a, b, |r|);
      assert d[..|d|] == d;
      CharsInInfix(d, a, a + |r|);
      CharsInTrans(r, d, raw);
      if ',' !in raw && forall j :: 0 <= j < |raw| ==> TaxIdLen(raw, j) == 0 {
        forall j | 0 <= j < |raw| ensures MatchLen(TaxId, raw, j) == 0 { }
        RemoveAllNoMatch(TaxId, raw);
      }
    }
  }

  lemma CutDrawnFromRaw(raw: string)
    ensures CharsIn(CutBuyerAddress(raw), raw)
    ensures ',' !in raw ==> CutBuyerAddress(raw) == raw
  {
    var c1 := CutAddress(Street, raw);
    var c2 := CutAddress(PostCode, c1);
    var c3 := CutAddress(Country, c2);
    TrimCut(Street, raw);
    TrimCut(PostCode, c1);
    TrimCut(Country, c2);
    CharsInTrans(c2, c1, raw);
    CharsInTrans(c3, c2, raw);
  }

  // ---------------------------------------------------------------------------
  // Item names
  // ---------------------------------------------------------------------------

  /**
   * `Regex.Replace(s, @"\s{2,}", " ")`: every run of two or more whitespace
   * characters becomes one space; a single whitespace character is kept.
   */
  function CollapseLongWhiteSpace(s: string): (r: string)
    ensures forall i :: 0 <= i < |r| - 1 ==> !(IsWhiteSpace(r[i]) && IsWhiteSpace(r[i + 1]))
    ensures |s| > 0 ==> |r| > 0 && IsWhiteSpace(r[0]) == IsWhiteSpace(s[0])
    ensures |s| > 0 ==> IsWhiteSpace(r[|r| - 1]) == IsWhiteSpace(s[|s| - 1])
    ensures |s| > 0 && !IsWhiteSpace(s[|s| - 1]) ==> r[|r| - 1] == s[|s| - 1]
    decreases |s|
  {
    if |s| == 0 then ""
    else if IsWhiteSpace(s[0]) then
      var n := WhiteSpaceRun(s, 0);
      var rest := CollapseLongWhiteSpace(s[n..]);
      assert |rest| > 0 ==> !IsWhiteSpace(rest[0]);
      (if n >= 2 then " " else [s[0]]) + rest
    else
      [s[0]] + CollapseLongWhiteSpace(s[1..])
  }

  /** Shortening whitespace runs adds nothing but spaces. */
  lemma {:induction false} CollapseLongDrawnFrom(s: string)
    ensures DrawnFrom(CollapseLongWhiteSpace(s), s)
    decreases |s|
  {
    if |s| > 0 {
      var r := CollapseLongWhiteSpace(s);
      var n := if IsWhiteSpace(s[0]) then WhiteSpaceRun(s, 0) else 1;
      var rest := CollapseLongWhiteSpace(s[n..]);
      CollapseLongDrawnFrom(s[n..]);
      CharsInSuffix(s, 0, n);
      assert s[0..] == s;
      assert r == r[..|r| - |rest|] + rest;
      forall k | 0 <= k < |r| ensures r[k] in s || r[k] == ' ' {
        if k >= |r| - |rest| {
          assert r[k] == rest[k - (|r| - |rest|)];
        }
      }
    }
  }

  /** The four removals of `CleanItemName`, in order. */
  function StripItemCodes(raw: string): (r: string)
  {
    var a := RemoveAll(StockNumber, raw, 0);
    var b := RemoveAll(Bracketed, a, 0);
    var c := RemoveAll(ProductNumber, b, 0);
    RemoveAll(EanCode, c, 0)
  }

  lemma StripItemCodesOnlyDeletes(raw: string)
    ensures CharsIn(StripItemCodes(raw), raw)
  {
    var a := RemoveAll(StockNumber, raw, 0);
    var b := RemoveAll(Bracketed, a, 0);
    var c := RemoveAll(ProductNumber, b, 0);
    var d := RemoveAll(EanCode, c, 0);
    RemoveAllOnlyDeletes(StockNumber, raw);
    RemoveAllOnlyDeletes(Bracketed, a);
    RemoveAllOnlyDeletes(ProductNumber, b);
    RemoveAllOnlyDeletes(EanCode, c);
    CharsInTrans(b, a, raw);
    CharsInTrans(c, b, raw);
    CharsInTrans(d, c, raw);
  }

  /**
   * `CleanItemName(raw)`: stock numbers, bracketed remarks, product numbers
   * and EAN codes removed; trimmed; trailing commas, full stops and dashes
   * removed; runs of whitespace shortened to one space. Blank text is
   * returned as it is.
   */
  function CleanItemName(raw: string): (r: string)
    ensures IsBlank(raw) ==> r == raw
    ensures !IsBlank(raw) ==> forall i :: 0 <= i < |r| - 1 ==> !(IsWhiteSpace(r[i]) && IsWhiteSpace(r[i + 1]))
    ensures !IsBlank(raw) ==> |r| == 0 || (!IsWhiteSpace(r[0]) && r[|r| - 1] !in {',', '.', '-'})
  {
    if IsBlank(raw) then raw
    else
      var t := Trim(StripItemCodes(raw));
      var e := TrimEndChars(t, {',', '.', '-'});
      assert |e| > 0 ==> e[0] == t[0];
      CollapseLongWhiteSpace(e)
  }

  /** Item-name cleaning adds nothing but spaces. */
  lemma CleanItemNameDrawnFrom(raw: string)
    ensures DrawnFrom(CleanItemName(raw), raw)
  {
    if IsBlank(raw) {
      forall k | 0 <= k < |raw| ensures raw[k] in raw { }
    } else {
      hide StripItemCodes, CollapseLongWhiteSpace, TrimEndChars, Trim;
      var d := StripItemCodes(raw);
      StripItemCodesOnlyDeletes(raw);
      var t := Trim(d);
      var e := TrimEndChars(t, {',', '.', '-'});
      var r := CollapseLongWhiteSpace(e);
      var a, b := TrimBounds(d);
      PrefixOfPiece(d, |d|, a, b, |e|);
      assert d[..|d|] == d;
      CharsInInfix(d, a, a + |e|);
      CharsInTrans(e, d, raw);
      CollapseLongDrawnFrom(e);
      DrawnFromCharsIn(r, e, raw);
    }
  }

  /**
   * The sub-parsers' `CleanName`: blank text becomes the empty name;
   * otherwise bars and line breaks become spaces, whitespace runs become one
   * space, and the trimmed result goes through `CleanItemName`.
   */
  function CleanName(input: string): (r: string)
    ensures IsBlank(input) ==> r == ""
  {
    if IsBlank(input) then ""
    else
      var a := ReplaceChar(ReplaceChar(ReplaceChar(input, '|', " "), '\n', " "), '\r', " ");
      CleanItemName(Trim(CollapseWhiteSpace(a)))
  }

  /**
   * A cleaned cell name is one line: it holds no bar, no line break and no two
   * whitespace characters in a row, and it does not start with whitespace.
   */
  lemma CleanNameIsOneLine(input: string)
    ensures var r := CleanName(input);
      && '|' !in r && '\n' !in r && '\r' !in r
      && (forall i :: 0 <= i < |r| - 1 ==> !(IsWhiteSpace(r[i]) && IsWhiteSpace(r[i + 1])))
      && (|r| == 0 || !IsWhiteSpace(r[0]))
  {
    if !IsBlank(input) {
      var a1 := ReplaceChar(input, '|', " ");
      var a2 := ReplaceChar(a1, '\n', " ");
      var a := ReplaceChar(a2, '\r', " ");
      ReplaceCharChars(a1, '\n', " ");
      ReplaceCharChars(a2, '\r', " ");
      assert '|' !in a1;
      assert '|' !in a2 && '\n' !in a2;
      assert '|' !in a && '\n' !in a && '\r' !in a;
      var b := CollapseWhiteSpace(a);
      CollapseDrawnFrom(a);
      var t := Trim(b);
      var x, y := TrimBounds(b);
      CharsInInfix(b, x, y);
      var r := CleanItemName(t);
      CleanItemNameDrawnFrom(t);
      DrawnFromCharsIn(r, t, b);
      DrawnFromTrans(r, b, a);
      forall k | 0 <= k < |r| ensures r[k] != '|' && r[k] != '\n' && r[k] != '\r' {
      }
    }
  }

  /** Collapsing whitespace adds nothing but spaces. */
  lemma {:induction false} CollapseDrawnFrom(s: string)
    ensures DrawnFrom(CollapseWhiteSpace(s), s)
    decreases |s|
  {
    if |s| > 0 {
      var r := CollapseWhiteSpace(s);
      if IsWhiteSpace(s[0]) {
        var n := WhiteSpaceRun(s, 0);
        CollapseDrawnFrom(s[n..]);
        forall k | 0 <= k < |r| ensures r[k] in s || r[k] == ' ' {
          if k >= 1 {
            var c := CollapseWhiteSpace(s[n..])[k - 1];
            assert c in s[n..] ==> c in s;
          }
        }
      } else {
        CollapseDrawnFrom(s[1..]);
        forall k | 0 <= k < |r| ensures r[k] in s || r[k] == ' ' {
          if k >= 1 {
            var c := CollapseWhiteSpace(s[1..])[k - 1];
            assert c in s[1..] ==> c in s;
          }
        }
      }
    }
  }
}

=== FILE: numbers.dfy ===
/**
 * Values of digit strings, and the two .NET parsers the extraction calls on
 * text it has already reduced to digits (and at most one decimal point):
 * `decimal.TryParse(..., InvariantCulture)` and `int.TryParse`.
 * Amounts (.NET `decimal`, exact base 10) are modelled as `real`.
 */
module Numbers {
  import opened Wrappers
  import opened Text

  predicate AllDigits(s: string) {
    forall i :: 0 <= i < |s| ==> IsDigit(s[i])
  }

  function DigitValue(c: char): (d: nat)
    requires IsDigit(c)
    ensures d <= 9
  {
    c as int - '0' as int
  }

  /** The integer written in decimal by `ds` (most significant digit first; 0 for ""). */
  function DigitsValue(ds: string): (v: nat)
    requires AllDigits(ds)
  {
    if |ds| == 0 then 0 else DigitsValue(ds[..|ds| - 1]) * 10 + DigitValue(ds[|ds| - 1])
  }

  /** The fraction 0.d1d2d3... written by the digits `ds` after a decimal point. */
  function FractionValue(ds: string): (v: real)
    requires AllDigits(ds)
    ensures 0.0 <= v <= 1.0
  {
    if |ds| == 0 then 0.0 else (DigitValue(ds[0]) as real + FractionValue(ds[1..])) / 10.0
  }

  /** Strings made only of digits and '.' (what the parsers hand to `decimal.TryParse`). */
  predicate DigitsAndPoints(s: string) {
    forall i :: 0 <= i < |s| ==> IsDigit(s[i]) || s[i] == '.'
  }

  function IndexOfChar(s: string, c: char): (k: nat)
    ensures k <= |s|
    ensures forall j :: 0 <= j < k ==> s[j] != c
    ensures k < |s| ==> s[k] == c
  {
    if |s| == 0 || s[0] == c then 0 else 1 + IndexOfChar(s[1..], c)
  }

  /** No two positions of `t` both hold a point. */
  predicate AtMostOnePoint(t: string) {
    forall i, j :: 0 <= i < j < |t| && t[i] == '.' ==> t[j] != '.'
  }

  predicate HasDigit(t: string) {
    exists i :: 0 <= i < |t| && IsDigit(t[i])
  }

  /**
   * `decimal.TryParse(t, NumberStyles.Any, CultureInfo.InvariantCulture)` for a
   * string of digits and points: it succeeds exactly when there is at least one
   * digit and at most one point, and the value is the integer part plus the
   * fraction. (The 28-digit range of `decimal` is not modelled.)
   */
  function ParsePointNumber(t: string): (r: Option<real>)
    requires DigitsAndPoints(t)
    ensures r.Some? <==> AtMostOnePoint(t) && HasDigit(t)
    ensures r.Some? ==> r.value >= 0.0
  {
    var k := IndexOfChar(t, '.');
    var intPart := t[..k];
    var fracPart := if k < |t| then t[k + 1..] else "";
    assert AllDigits(intPart);
    if '.' in fracPart then
      assert !AtMostOnePoint(t) by {
        var j :| 0 <= j < |fracPart| && fracPart[j] == '.';
        assert t[k] == '.' && t[k + 1 + j] == '.';
      }
      None
    else
      assert AllDigits(fracPart);
      assert AtMostOnePoint(t);
      if |intPart| + |fracPart| == 0 then
        assert !HasDigit(t) by {
          assert forall i :: 0 <= i < |t| ==> t[i] == '.';
        }
        None
      else
        assert HasDigit(t) by {
          if |intPart| > 0 { assert IsDigit(t[0]); } else { assert IsDigit(t[k + 1]); }
        }
        Some(DigitsValue(intPart) as real + FractionValue(fracPart))
  }

  /** A run of digits holds no point. */
  lemma NoPoint(d: string)
    requires AllDigits(d)
    ensures IndexOfChar(d, '.') == |d|
  {
    assert forall i :: 0 <= i < |d| ==> d[i] != '.' by {
      forall i | 0 <= i < |d| ensures d[i] != '.' { assert IsDigit(d[i]); }
    }
  }

  /** Digits, a point and digits: the point is the first one, with digits on both sides. */
  lemma PointBetweenDigits(a: string, b: string)
    requires AllDigits(a) && AllDigits(b)
    ensures var t := a + "." + b;
      && DigitsAndPoints(t) && IndexOfChar(t, '.') == |a|
      && t[..|a|] == a && t[|a| + 1..] == b
  {
    var t := a + "." + b;
    assert t[|a|] == '.';
    forall i | 0 <= i < |t| ensures IsDigit(t[i]) || t[i] == '.' {
      if i < |a| { assert t[i] == a[i]; } else if i > |a| { assert t[i] == b[i - |a| - 1]; }
    }
    assert forall i :: 0 <= i < |a| ==> t[i] != '.' by {
      forall i | 0 <= i < |a| ensures t[i] != '.' { assert t[i] == a[i]; assert IsDigit(a[i]); }
    }
    assert t[..|a|] == a;
    assert t[|a| + 1..] == b;
  }

  /** A digit string with no point reads as its integer value. */
  lemma ParseDigits(d: string)
    requires AllDigits(d) && |d| > 0
    ensures DigitsAndPoints(d) && ParsePointNumber(d) == Some(DigitsValue(d) as real)
  {
    NoPoint(d);
    assert d[..|d|] == d;
  }

  /** A text with one point reads as the digits before it plus the fraction after it. */
  lemma ParseAtPoint(t: string, k: nat, a: string, b: string)
    requires DigitsAndPoints(t) && k < |t| && IndexOfChar(t, '.') == k
    requires t[..k] == a && t[k + 1..] == b && AllDigits(a) && AllDigits(b) && |a| + |b| > 0
    ensures ParsePointNumber(t) == Some(DigitsValue(a) as real + FractionValue(b))
  {
    assert '.' !in b by {
      forall j | 0 <= j < |b| ensures b[j] != '.' { assert IsDigit(b[j]); }
    }
  }

  /** Digits, a point and digits read as integer part plus fraction. */
  lemma ParseDigitsPointDigits(a: string, b: string)
    requires AllDigits(a) && AllDigits(b) && |a| + |b| > 0
    ensures DigitsAndPoints(a + "." + b)
    ensures ParsePointNumber(a + "." + b) == Some(DigitsValue(a) as real + FractionValue(b))
  {
    PointBetweenDigits(a, b);
    ParseAtPoint(a + "." + b, |a|, a, b);
  }

  /** `int.MaxValue`. */
  const Int32Max: int := 2147483647

  /**
   * `int.TryParse(ds, out n)` on a string of digits: fails on the empty string
   * and when the value does not fit in 32 bits.
   */
  function ParseInt32(ds: string): (r: Option<int>)
    requires AllDigits(ds)
    ensures r.Some? <==> |ds| > 0 && DigitsValue(ds) <= Int32Max
    ensures r.Some? ==> 0 <= r.value <= Int32Max
  {
    if |ds| > 0 && DigitsValue(ds) <= Int32Max then Some(DigitsValue(ds)) else None
  }
}

=== FILE: parties.dfy ===
/**
 * The two parties of an invoice: the supplier's name, and the buyer's name
 * with the buyer's kennitala (tax id). Each is read from a structured node
 * when the document has one, and otherwise from the document's lines near a
 * "Seljandi" (seller) or "Kaupandi" (buyer) line.
 */
module Parties {
  import opened Wrappers
  import opened Text
  import opened Tiers
  import opened Patterns
  import opened NameCleaner
  import opened HtmlDocument

  /** What the supplier is called when no strategy yields a name. */
  const UnknownSupplier: string := "Unknown Supplier"

  function Min(a: nat, b: nat): nat { if a <= b then a else b }

  /** The first index in `i..hi` whose line `accept` holds for. */
  function FirstInWindow(lines: seq<string>, i: nat, hi: nat, accept: string -> bool): (r: Option<nat>)
    requires hi <= |lines|
    ensures r.Some? ==> i <= r.value < hi && accept(lines[r.value]) && forall j :: i <= j < r.value ==> !accept(lines[j])
    ensures r.None? ==> forall j :: i <= j < hi ==> !accept(lines[j])
    decreases hi - i
  {
    if i >= hi then None
    else if accept(lines[i]) then Some(i)
    else FirstInWindow(lines, i + 1, hi, accept)
  }

  /** `lines.FindIndex(l => l.Contains(w))`, None for -1. */
  function FindLine(lines: seq<string>, w: string): (r: Option<nat>)
    ensures r.Some? ==> r.value < |lines| && Contains(lines[r.value], w)
    ensures r.Some? ==> forall j :: 0 <= j < r.value ==> !Contains(lines[j], w)
    ensures r.None? <==> forall j :: 0 <= j < |lines| ==> !Contains(lines[j], w)
  {
    FirstInWindow(lines, 0, |lines|, l => Contains(l, w))
  }

  /** The scans look at most nine lines past the label line. */
  function WindowEnd(lines: seq<string>, k: nat): (hi: nat)
    requires k < |lines|
    ensures k + 1 <= hi <= |lines| && hi <= k + 10
    ensures hi == k + 10 || hi == |lines|
  {
    Min(k + 10, |lines|)
  }

  // ---------------------------------------------------------------------------
  // Supplier
  // ---------------------------------------------------------------------------

  /** A line naming a company: it contains "ehf", "hf" or "slf", ignoring case. */
  predicate IsCompanyLine(line: string) {
    ContainsIgnoringCase(line, "ehf") || ContainsIgnoringCase(line, "hf") || ContainsIgnoringCase(line, "slf")
  }

  /** "ehf" adds nothing to the company test: every line containing it contains "hf". */
  lemma CompanyLineNeedsOnlyHf(line: string)
    ensures IsCompanyLine(line) <==> ContainsIgnoringCase(line, "hf") || ContainsIgnoringCase(line, "slf")
  {
    if ContainsIgnoringCase(line, "ehf") {
      ContainsIgnoringCaseInfix(line, "ehf", 1, 3);
      assert "ehf"[1..3] == "hf";
    }
  }

  /**
   * Line `k` is the first line containing "Seljandi", and line `j` is the
   * first company line among the nine lines after it.
   */
  predicate SupplierLinePick(lines: seq<string>, k: int, j: int) {
    && 0 <= k < j < |lines| && j < k + 10
    && Contains(lines[k], "Seljandi") && (forall m :: 0 <= m < k ==> !Contains(lines[m], "Seljandi"))
    && IsCompanyLine(lines[j]) && (forall m :: k < m < j ==> !IsCompanyLine(lines[m]))
  }

  /**
   * The supplier text scan: the cleaned first company line among the nine
   * lines after the first line containing "Seljandi"; None when there is no
   * such label line or no company line in that window.
   */
  function SupplierScan(lines: seq<string>): (r: Option<string>)
    ensures r.Some? <==> exists k, j :: SupplierLinePick(lines, k, j)
    ensures forall k, j :: SupplierLinePick(lines, k, j) ==> r == Some(CleanSupplierName(lines[j]))
  {
    match FindLine(lines, "Seljandi")
    case None => None
    case Some(k) =>
      var hi := WindowEnd(lines, k);
      match FirstInWindow(lines, k + 1, hi, IsCompanyLine)
      case None =>
        assert forall k', j :: SupplierLinePick(lines, k', j) ==> k' == k && j < hi;
        None
      case Some(j) =>
        assert SupplierLinePick(lines, k, j);
        assert forall k', j' :: SupplierLinePick(lines, k', j') ==> k' == k && j' == j;
        Some(CleanSupplierName(lines[j]))
  }

  /**
   * The supplier's name: the `dalkfyrirsogn2` div when there is one (final,
   * even when it cleans to nothing); otherwise the seller block's `<b>`, or
   * its heading or name div, and the text scan when those give nothing; and
   * "Unknown Supplier" when the name is still empty.
   */
  function SupplierNameOf(doc: Document, lines: seq<string>): (r: string)
    ensures |r| > 0
  {
    var name :=
      match doc.supplierDiv
      case Some(d) => CleanSupplierName(Trim(d))
      case None =>
        var structured := SellerName(doc.sellerInfo);
        if |structured| == 0 then SupplierScan(lines).GetOr(structured) else structured;
    if |name| == 0 then UnknownSupplier else name
  }

  /** The name the `seller_info` block gives: its `<b>`, else its `<h2>` or name div, else nothing. */
  function SellerName(seller: Option<SellerInfo>): string
  {
    match seller
    case None => ""
    case Some(s) =>
      match s.bold
      case Some(b) => CleanSupplierName(Trim(b))
      case None =>
        match s.nameNode
        case Some(n) => CleanSupplierName(Trim(n))
        case None => ""
  }

  /** The loop over the lines after "Seljandi", stopping at the first company line. */
  method ScanSupplierLines(lines: seq<string>) returns (name: Option<string>)
    ensures name == SupplierScan(lines)
  {
    name := None;
    var seljandiIdx := FindLine(lines, "Seljandi");
    if seljandiIdx.Some? {
      var k := seljandiIdx.value;
      var hi := WindowEnd(lines, k);
      var i := k + 1;
      while i < hi
        invariant k + 1 <= i <= hi
        invariant FirstInWindow(lines, k + 1, hi, IsCompanyLine) == FirstInWindow(lines, i, hi, IsCompanyLine)
        decreases hi - i
      {
        var line := lines[i];
        if IsCompanyLine(line) {
          name := Some(CleanSupplierName(line));
          return;
        }
        i := i + 1;
      }
    }
  }

  /** The supplier part of `ParseInvoice`. */
  method ResolveSupplier(doc: Document, lines: seq<string>) returns (name: string)
    ensures name == SupplierNameOf(doc, lines)
  {
    name := "";
    if doc.supplierDiv.Some? {
      name := CleanSupplierName(Trim(doc.supplierDiv.value));
    } else {
      if doc.sellerInfo.Some? {
        var sellerNode := doc.sellerInfo.value;
        if sellerNode.bold.Some? {
          name := CleanSupplierName(Trim(sellerNode.bold.value));
        } else if sellerNode.nameNode.Some? {
          name := CleanSupplierName(Trim(sellerNode.nameNode.value));
        }
      }
      if |name| == 0 {
        var scanned := ScanSupplierLines(lines);
        if scanned.Some? {
          name := scanned.value;
        }
      }
    }
    if |name| == 0 {
      name := UnknownSupplier;
    }
  }

  /** A piece of a trimmed text is a piece of the text. */
  lemma InfixOfTrim(r: string, s: string)
    requires IsInfix(r, Trim(s))
    ensures IsInfix(r, s)
  {
    var a, b := TrimBounds(s);
    InfixOfPiece(r, s, a, b);
  }

  lemma InfixOfPiece(r: string, s: string, a: nat, b: nat)
    requires a <= b <= |s| && IsInfix(r, s[a..b])
    ensures IsInfix(r, s)
  {
    var c, d :| 0 <= c <= d <= b - a && r == s[a..b][c..d];
    assert |r| == d - c == |s[a + c..a + d]|;
    assert forall k :: 0 <= k < d - c ==> r[k] == s[a..b][c + k] == s[a + c..a + d][k];
    assert r == s[a + c..a + d];
  }

  /**
   * The supplier's name is "Unknown Supplier" or a contiguous piece of the
   * text it was read from: the supplier div, or (without that div) the seller
   * block's `<b>` or name node, or a company line of the document.
   */
  lemma SupplierNameIsPieceOfSource(doc: Document, lines: seq<string>)
    ensures var r := SupplierNameOf(doc, lines);
      r == UnknownSupplier
      || (doc.supplierDiv.Some? && IsInfix(r, doc.supplierDiv.value))
      || (doc.supplierDiv.None? && doc.sellerInfo.Some? && doc.sellerInfo.value.bold.Some?
          && IsInfix(r, doc.sellerInfo.value.bold.value))
      || (doc.supplierDiv.None? && doc.sellerInfo.Some? && doc.sellerInfo.value.nameNode.Some?
          && IsInfix(r, doc.sellerInfo.value.nameNode.value))
      || (doc.supplierDiv.None? && exists j :: 0 <= j < |lines| && IsCompanyLine(lines[j]) && IsInfix(r, lines[j]))
  {
    var r := SupplierNameOf(doc, lines);
    if r != UnknownSupplier {
      match doc.supplierDiv
      case Some(d) =>
        SupplierNameIsPieceOfRaw(Trim(d));
        InfixOfTrim(r, d);
      case None =>
        var structured := SellerName(doc.sellerInfo);
        if |structured| == 0 {
          var j :| 0 <= j < |lines| && IsCompanyLine(lines[j]) && r == CleanSupplierName(lines[j]);
          SupplierNameIsPieceOfRaw(lines[j]);
        } else {
          var s := doc.sellerInfo.value;
          var raw := if s.bold.Some? then s.bold.value else s.nameNode.value;
          SupplierNameIsPieceOfRaw(Trim(raw));
          InfixOfTrim(r, raw);
        }
    }
  }

  // ---------------------------------------------------------------------------
  // Buyer
  // ---------------------------------------------------------------------------

  /** The buyer's name and the text searched for the buyer's kennitala ("" for none). */
  datatype Buyer = Buyer(name: string, sectionText: string)

  /** The name in a `buyer_info` block: its `<b>`, else its first non-blank line. */
  function BuyerInfoName(info: BuyerInfo): string
  {
    match info.bold
    case Some(b) => CleanBuyerName(Trim(b))
    case None =>
      var ls := Lines(info.text);
      if |ls| > 0 then CleanBuyerName(ls[0]) else ""
  }

  /**
   * What one "Kaupandi" label's parent yields, None to go on to the next:
   * its `<b>`, else the `<b>` of its first `ListItem` div, else that div's
   * text when it is not blank.
   */
  function LabelName(parent: LabelParent): Option<string>
  {
    match parent.bold
    case Some(b) => Some(CleanBuyerName(Trim(b)))
    case None =>
      match parent.firstListItem
      case None => None
      case Some(item) =>
        match item.bold
        case Some(b) => Some(CleanBuyerName(Trim(b)))
        case None => if !IsBlank(item.text) then Some(CleanBuyerName(Trim(item.text))) else None
  }


  /**
   * The label loop: the name of the first parent that yields one, and the
   * text of the last parent visited (every visited parent overwrites it).
   */
  function LabelScan(labels: seq<LabelParent>): Buyer
  {
    var k := FirstSomeIndex(labels, 0, LabelName);
    if k < |labels| then Buyer(LabelName(labels[k]).value, labels[k].text)
    else if |labels| > 0 then Buyer("", labels[|labels| - 1].text)
    else Buyer("", "")
  }

  /** The buyer text scan accepts a company line or any non-blank line. */
  predicate IsBuyerLine(line: string) {
    IsCompanyLine(line) || !IsBlank(line)
  }

  /** The buyer text scan: the first accepted line among the nine after the first "Kaupandi" line. */
  function BuyerLine(lines: seq<string>): Option<string>
  {
    match FindLine(lines, "Kaupandi")
    case None => None
    case Some(k) =>
      match FirstInWindow(lines, k + 1, WindowEnd(lines, k), IsBuyerLine)
      case None => None
      case Some(j) => Some(lines[j])
  }

  /**
   * The buyer: from the `buyer_info` block when there is one; otherwise from
   * the label loop, then, while the name is still empty, from the text scan,
   * whose line also becomes the section text.
   */
  function BuyerOf(doc: Document, lines: seq<string>): Buyer
  {
    match doc.buyerInfo
    case Some(info) => Buyer(BuyerInfoName(info), info.text)
    case None =>
      var fromLabels := LabelScan(doc.buyerLabels);
      if |fromLabels.name| == 0 then
        match BuyerLine(lines)
        case None => fromLabels
        case Some(line) => Buyer(CleanBuyerName(line), line)
      else fromLabels
  }

  /** The loop over the "Kaupandi" label parents; a name found ends it (`break`). */
  method ScanBuyerLabels(labels: seq<LabelParent>) returns (buyer: Buyer)
    ensures buyer == LabelScan(labels)
  {
    var section := "";
    for i := 0 to |labels|
      invariant FirstSomeIndex(labels, 0, LabelName) == FirstSomeIndex(labels, i, LabelName)
      invariant section == if i == 0 then "" else labels[i - 1].text
    {
      var parent := labels[i];
      section := parent.text;
      var found: Option<string> := None;
      if parent.bold.Some? {
        found := Some(CleanBuyerName(Trim(parent.bold.value)));
      } else if parent.firstListItem.Some? {
        var item := parent.firstListItem.value;
        if item.bold.Some? {
          found := Some(CleanBuyerName(Trim(item.bold.value)));
        } else if !IsBlank(item.text) {
          found := Some(CleanBuyerName(Trim(item.text)));
        }
      }
      assert found == LabelName(parent);
      if found.Some? {
        return Buyer(found.value, section);
      }
    }
    return Buyer("", section);
  }

  /** The loop over the lines after "Kaupandi". */
  method ScanBuyerLines(lines: seq<string>) returns (line: Option<string>)
    ensures line == BuyerLine(lines)
  {
    line := None;
    var kaupandiIdx := FindLine(lines, "Kaupandi");
    if kaupandiIdx.Some? {
      var k := kaupandiIdx.value;
      var hi := WindowEnd(lines, k);
      var i := k + 1;
      while i < hi
        invariant k + 1 <= i <= hi
        invariant FirstInWindow(lines, k + 1, hi, IsBuyerLine) == FirstInWindow(lines, i, hi, IsBuyerLine)
        decreases hi - i
      {
        if IsCompanyLine(lines[i]) || !IsBlank(lines[i]) {
          line := Some(lines[i]);
          return;
        }
        i := i + 1;
      }
    }
  }

  /** The buyer part of `ParseInvoice`. */
  method ResolveBuyer(doc: Document, lines: seq<string>) returns (buyer: Buyer)
    ensures buyer == BuyerOf(doc, lines)
  {
    if doc.buyerInfo.Some? {
      var info := doc.buyerInfo.value;
      var name := "";
      if info.bold.Some? {
        name := CleanBuyerName(Trim(info.bold.value));
      } else {
        var firstLines := Lines(info.text);
        if |firstLines| > 0 {
          name := CleanBuyerName(firstLines[0]);
        }
      }
      return Buyer(name, info.text);
    }
    buyer := ScanBuyerLabels(doc.buyerLabels);
    if |buyer.name| == 0 {
      var line := ScanBuyerLines(lines);
      if line.Some? {
        buyer := Buyer(CleanBuyerName(line.value), line.value);
      }
    }
  }

  /**
   * The company test of the buyer scan never decides anything: the document's
   * lines are never blank, so the scan takes the line right after the first
   * "Kaupandi" line whenever there is one.
   */
  lemma BuyerScanTakesNextLine(lines: seq<string>)
    requires forall j :: 0 <= j < |lines| ==> IsTrimmedLine(lines[j])
    ensures BuyerLine(lines) ==
      match FindLine(lines, "Kaupandi")
      case None => None
      case Some(k) => if k + 1 < |lines| then Some(lines[k + 1]) else None
  {
    match FindLine(lines, "Kaupandi")
    case None =>
    case Some(k) =>
      if k + 1 < |lines| {
        NonBlankLine(lines[k + 1]);
        assert IsBuyerLine(lines[k + 1]);
      }
  }

  /**
   * When no label parent yields a name, the kennitala is looked for in the
   * text of the LAST label parent, not the first: the loop overwrites the
   * section text on every visit.
   */
  lemma LabelSectionIsLastVisited(labels: seq<LabelParent>)
    requires |labels| > 0
    requires forall j :: 0 <= j < |labels| ==> LabelName(labels[j]).None?
    ensures LabelScan(labels) == Buyer("", labels[|labels| - 1].text)
  {
  }

  // ---------------------------------------------------------------------------
  // Buyer tax id
  // ---------------------------------------------------------------------------

  /** Ten digits: the form every kennitala takes once its dash is removed. */
  predicate IsTaxId(t: string) {
    |t| == 10 && forall j :: 0 <= j < 10 ==> IsDigit(t[j])
  }

  /**
   * The buyer's kennitala: the first one in the section text, else the first
   * one in the `UBLID` element, else empty.
   */
  function TaxIdOf(sectionText: string, ublId: Option<string>): (r: string)
    ensures r == "" || IsTaxId(r)
  {
    var fromSection := if |sectionText| > 0 then FirstTaxId(sectionText, 0).GetOr("") else "";
    if |fromSection| == 0 then
      match ublId
      case None => ""
      case Some(u) => FirstTaxId(u, 0).GetOr("")
    else fromSection
  }

  /**
   * The section text is searched first and the `UBLID` element only when the
   * section has no kennitala; the tax id is empty exactly when neither has one.
   */
  lemma TaxIdSources(sectionText: string, ublId: Option<string>)
    ensures var r := TaxIdOf(sectionText, ublId);
      (FirstTaxId(sectionText, 0).Some? ==> r == FirstTaxId(sectionText, 0).value) &&
      (FirstTaxId(sectionText, 0).None? && ublId.Some? ==> r == FirstTaxId(ublId.value, 0).GetOr("")) &&
      (r == "" <==> FirstTaxId(sectionText, 0).None? && (ublId.None? || FirstTaxId(ublId.value, 0).None?))
  {
    if |sectionText| == 0 {
      assert FirstTaxId(sectionText, 0).None?;
    }
  }
}

=== FILE: patterns.dfy ===
/**
 * The regular expressions the parser deletes from text with
 * `Regex.Replace(s, pattern, "")`, each written as a matcher that returns
 * the length of the match starting at a position (0 when there is none).
 * Every pattern here is deterministic once .NET's backtracking is worked
 * out: each optional or repeated part is followed by something it cannot
 * itself match, so the greedy choice is the only one that can succeed.
 */
module Patterns {
  import opened Wrappers
  import opened Text

  datatype Removal =
    | /** `\b(ISK|kr|EUR|USD)\b`, ignoring case. */
      CurrencyToken
    | /** `\b\d{6}[-]?\d{4}\b`: an Icelandic kennitala. */
      TaxId
    | /** `\s*\(?Lager(Nr)?:?\s*\d+\)?`, ignoring case: a stock number. */
      StockNumber
    | /** `\s*[\[\(][^\]\)]+[\]\)]`: a bracketed or parenthesised remark. */
      Bracketed
    | /** `\s*Vörunr:?\s*\d+`, ignoring case: a product number. */
      ProductNumber
    | /** `\s*EAN:?\s*[\d\-]+`, ignoring case: a barcode. */
      EanCode

  /** `s[a..b]` consists of digits. */
  predicate DigitsBetween(s: string, a: nat, b: nat)
    requires a <= b <= |s|
  {
    forall k :: a <= k < b ==> IsDigit(s[k])
  }

  /** `\b` just before position `i` when `s[i]` is a word character. */
  predicate WordStartsAt(s: string, i: nat)
    requires i <= |s|
  {
    i == 0 || !IsWordChar(s[i - 1])
  }

  /** `\b` at position `i` when `s[i - 1]` is a word character. */
  predicate WordEndsAt(s: string, i: nat)
    requires i <= |s|
  {
    i == |s| || !IsWordChar(s[i])
  }

  /** `w` occurs at `i` ignoring case, with a word boundary on both sides. */
  predicate WordAt(s: string, i: nat, w: string)
    requires i <= |s|
  {
    StartsAtIgnoringCase(s, i, w) && WordStartsAt(s, i) && WordEndsAt(s, i + |w|)
  }

  function CurrencyTokenLen(s: string, p: nat): (n: nat)
    requires p <= |s|
    ensures p + n <= |s|
  {
    if WordAt(s, p, "ISK") then 3
    else if WordAt(s, p, "kr") then 2
    else if WordAt(s, p, "EUR") then 3
    else if WordAt(s, p, "USD") then 3
    else 0
  }

  /** Every currency token starts with a letter. */
  lemma CurrencyTokenStartsWithLetter(s: string, p: nat)
    requires p < |s| && !IsAsciiLetter(s[p]) && !IsLatin1Letter(s[p])
    ensures CurrencyTokenLen(s, p) == 0
  {
    assert ToUpper(s[p]) == s[p];
    assert !SameIgnoringCase(s[p + 0], "ISK"[0]);
    assert !SameIgnoringCase(s[p + 0], "kr"[0]);
    assert !SameIgnoringCase(s[p + 0], "EUR"[0]);
    assert !SameIgnoringCase(s[p + 0], "USD"[0]);
  }

  /**
   * Six digits, an optional dash, four digits, between word boundaries. When
   * a dash follows the six digits only the dashed form can match.
   */
  function TaxIdLen(s: string, p: nat): (n: nat)
    requires p <= |s|
    ensures p + n <= |s|
    ensures n == 0 || n == 10 || n == 11
  {
    if p + 10 <= |s| && WordStartsAt(s, p) && DigitsBetween(s, p, p + 6) then
      if s[p + 6] == '-' then
        if p + 11 <= |s| && DigitsBetween(s, p + 7, p + 11) && WordEndsAt(s, p + 11) then 11 else 0
      else if DigitsBetween(s, p + 6, p + 10) && WordEndsAt(s, p + 10) then 10
      else 0
    else 0
  }

  /** Position after an optional `c` at `i`. */
  function SkipChar(s: string, i: nat, c: char): (j: nat)
    requires i <= |s|
    ensures i <= j <= |s| && j <= i + 1
  {
    if i < |s| && s[i] == c then i + 1 else i
  }

  function StockNumberLen(s: string, p: nat): (n: nat)
    requires p <= |s|
    ensures p + n <= |s|
  {
    var r := SkipChar(s, p + WhiteSpaceRun(s, p), '(');
    if !StartsAtIgnoringCase(s, r, "Lager") then 0
    else
      var t := if StartsAtIgnoringCase(s, r + 5, "Nr") then r + 7 else r + 5;
      var u := SkipChar(s, t, ':');
      var v := u + WhiteSpaceRun(s, u);
      var d := DigitRun(s, v);
      if d == 0 then 0 else SkipChar(s, v + d, ')') - p
  }

  /** Length of the run of characters other than ']' and ')' starting at `i`. */
  function NonCloserRun(s: string, i: nat): (n: nat)
    requires i <= |s|
    ensures i + n <= |s|
    ensures forall k :: i <= k < i + n ==> s[k] != ']' && s[k] != ')'
    ensures i + n == |s| || s[i + n] == ']' || s[i + n] == ')'
    decreases |s| - i
  {
    if i < |s| && s[i] != ']' && s[i] != ')' then 1 + NonCloserRun(s, i + 1) else 0
  }

  function BracketedLen(s: string, p: nat): (n: nat)
    requires p <= |s|
    ensures p + n <= |s|
  {
    var q := p + WhiteSpaceRun(s, p);
    if q < |s| && (s[q] == '[' || s[q] == '(') then
      var m := NonCloserRun(s, q + 1);
      if m >= 1 && q + 1 + m < |s| then q + 2 + m - p else 0
    else 0
  }

  function ProductNumberLen(s: string, p: nat): (n: nat)
    requires p <= |s|
    ensures p + n <= |s|
  {
    var q := p + WhiteSpaceRun(s, p);
    if !StartsAtIgnoringCase(s, q, "Vörunr") then 0
    else
      var u := SkipChar(s, q + 6, ':');
      var v := u + WhiteSpaceRun(s, u);
      var d := DigitRun(s, v);
      if d == 0 then 0 else v + d - p
  }

  /** Length of the run of digits and dashes starting at `i`. */
  function DigitOrDashRun(s: string, i: nat): (n: nat)
    requires i <= |s|
    ensures i + n <= |s|
    ensures forall k :: i <= k < i + n ==> IsDigit(s[k]) || s[k] == '-'
    decreases |s| - i
  {
    if i < |s| && (IsDigit(s[i]) || s[i] == '-') then 1 + DigitOrDashRun(s, i + 1) else 0
  }

  function EanCodeLen(s: string, p: nat): (n: nat)
    requires p <= |s|
    ensures p + n <= |s|
  {
    var q := p + WhiteSpaceRun(s, p);
    if !StartsAtIgnoringCase(s, q, "EAN") then 0
    else
      var u := SkipChar(s, q + 3, ':');
      var v := u + WhiteSpaceRun(s, u);
      var d := DigitOrDashRun(s, v);
      if d == 0 then 0 else v + d - p
  }

  /** Length of the match of `pat` starting at `p`, 0 when there is none. */
  function MatchLen(pat: Removal, s: string, p: nat): (n: nat)
    requires p <= |s|
    ensures p + n <= |s|
  {
    match pat
    case CurrencyToken => CurrencyTokenLen(s, p)
    case TaxId => TaxIdLen(s, p)
    case StockNumber => StockNumberLen(s, p)
    case Bracketed => BracketedLen(s, p)
    case ProductNumber => ProductNumberLen(s, p)
    case EanCode => EanCodeLen(s, p)
  }

  /** The matcher of `pat` as a total function of the text and the position. */
  function Matcher(pat: Removal): (string, nat) -> nat {
    (t: string, p: nat) => if p <= |t| then MatchLen(pat, t, p) else 0
  }

  /**
   * Deletion of every match found by `matchLen`, from position `i`: matches
   * are searched left to right in the original text, each deleted, the search
   * resuming after it.
   */
  function RemoveMatches(matchLen: (string, nat) -> nat, s: string, i: nat): (r: string)
    requires i <= |s|
    ensures |r| <= |s| - i
    decreases |s| - i
  {
    if i == |s| then ""
    else
      var n := matchLen(s, i);
      if 0 < n <= |s| - i then RemoveMatches(matchLen, s, i + n)
      else [s[i]] + RemoveMatches(matchLen, s, i + 1)
  }

  /** `Regex.Replace(s, pat, "")` from position `i`. */
  function RemoveAll(pat: Removal, s: string, i: nat): (r: string)
    requires i <= |s|
    ensures |r| <= |s| - i
  {
    RemoveMatches(Matcher(pat), s, i)
  }

  /** The removal only deletes: each character of the result comes from the text. */
  lemma {:induction false} RemoveMatchesOnlyDeletes(matchLen: (string, nat) -> nat, s: string, i: nat)
    requires i <= |s|
    ensures CharsIn(RemoveMatches(matchLen, s, i), s[i..])
    decreases |s| - i
  {
    if i < |s| {
      var n := matchLen(s, i);
      var j := if 0 < n <= |s| - i then i + n else i + 1;
      RemoveMatchesOnlyDeletes(matchLen, s, j);
      CharsInSuffix(s, i, j);
      CharsInTrans(RemoveMatches(matchLen, s, j), s[j..], s[i..]);
      if j == i + 1 {
        assert s[i] == s[i..][0];
      }
    }
  }

  /** A text in which nothing matches comes back unchanged. */
  lemma {:induction false} RemoveMatchesNoMatch(matchLen: (string, nat) -> nat, s: string, i: nat)
    requires i <= |s|
    requires forall k :: i <= k < |s| ==> matchLen(s, k) == 0
    ensures RemoveMatches(matchLen, s, i) == s[i..]
    decreases |s| - i
  {
    if i < |s| {
      RemoveMatchesNoMatch(matchLen, s, i + 1);
      assert s[i..] == [s[i]] + s[i + 1..];
    }
  }

  /** `Regex.Replace` with `pat` only deletes. */
  lemma RemoveAllOnlyDeletes(pat: Removal, s: string)
    ensures CharsIn(RemoveAll(pat, s, 0), s)
  {
    RemoveMatchesOnlyDeletes(Matcher(pat), s, 0);
    assert s[0..] == s;
  }

  /** `Regex.Replace` with `pat` leaves a text in which it matches nowhere unchanged. */
  lemma RemoveAllNoMatch(pat: Removal, s: string)
    requires forall k :: 0 <= k < |s| ==> MatchLen(pat, s, k) == 0
    ensures RemoveAll(pat, s, 0) == s
  {
    RemoveMatchesNoMatch(Matcher(pat), s, 0);
    assert s[0..] == s;
  }

  /**
   * `Regex.Match(s, @"\b(\d{6}[-]?\d{4})\b")` from `i`, with the dash removed
   * from the captured group: the leftmost kennitala as ten digits.
   */
  function FirstTaxId(s: string, i: nat): (r: Option<string>)
    requires i <= |s|
    ensures r.None? <==> forall k :: i <= k < |s| ==> TaxIdLen(s, k) == 0
    ensures r.Some? ==> |r.value| == 10 && forall j :: 0 <= j < 10 ==> IsDigit(r.value[j])
    ensures r.Some? ==> exists k ::
      && i <= k < |s| && TaxIdLen(s, k) > 0 && (forall j :: i <= j < k ==> TaxIdLen(s, j) == 0)
      && r.value == ReplaceChar(s[k..k + TaxIdLen(s, k)], '-', "")
    decreases |s| - i
  {
    if i == |s| then None
    else
      var n := TaxIdLen(s, i);
      if n > 0 then
        TaxIdDigits(s, i);
        Some(ReplaceChar(s[i..i + n], '-', ""))
      else FirstTaxId(s, i + 1)
  }

  /** A kennitala match with its dash removed is ten digits. */
  lemma TaxIdDigits(s: string, p: nat)
    requires p <= |s| && TaxIdLen(s, p) > 0
    ensures var t := ReplaceChar(s[p..p + TaxIdLen(s, p)], '-', "");
      |t| == 10 && forall j :: 0 <= j < 10 ==> IsDigit(t[j])
  {
    var n := TaxIdLen(s, p);
    var m := s[p..p + n];
    if n == 11 {
      assert m == m[..6] + [m[6]] + m[7..];
      ReplaceCharAppend(m[..6] + [m[6]], m[7..], '-', "");
      ReplaceCharAppend(m[..6], [m[6]], '-', "");
      ReplaceCharAbsent(m[..6], '-', "");
      ReplaceCharAbsent(m[7..], '-', "");
      assert ReplaceChar([m[6]], '-', "") == "";
      assert ReplaceChar(m, '-', "") == m[..6] + m[7..];
    } else {
      ReplaceCharAbsent(m, '-', "");
    }
  }
}

=== FILE: table_parser.dfy ===
/**
 * The sub-parser for the table layout (`TableInvoiceSubParser`): the items
 * table gives one item per data row; a second table, when present, gives the
 * list price and the discount of each line number.
 */
module TableParser {
  import opened Wrappers
  import opened Text
  import opened Numbers
  import opened Tiers
  import opened CellNumbers
  import opened NameCleaner
  import opened InvoiceModel
  import opened HtmlDocument

  // ---------------------------------------------------------------------------
  // Finding the two tables
  // ---------------------------------------------------------------------------

  /** The items table's text holds the headers "Vörunr", "Lýsing" and "Magn". */
  predicate IsItemsTable(t: Table) {
    Contains(t.text, "V\U{F6}runr") && Contains(t.text, "L\U{FD}sing") && Contains(t.text, "Magn")
  }

  /** The discounts table's text holds the headers "Línunr." and "Listaverð". */
  predicate IsDiscountsTable(t: Table) {
    Contains(t.text, "L\U{ED}nunr.") && Contains(t.text, "Listaver\U{F0}")
  }

  function ItemsTableProbe(t: Table): Option<Table> {
    if IsItemsTable(t) then Some(t) else None
  }

  function DiscountsTableProbe(t: Table): Option<Table> {
    if IsDiscountsTable(t) then Some(t) else None
  }

  /** The first table with the item headers. */
  function ItemsTable(tables: seq<Table>): (r: Option<Table>)
    ensures r.None? <==> forall k :: 0 <= k < |tables| ==> !IsItemsTable(tables[k])
    ensures r.Some? ==>
      exists k :: 0 <= k < |tables| && tables[k] == r.value && IsItemsTable(tables[k]) && forall j :: 0 <= j < k ==> !IsItemsTable(tables[j])
  {
    FirstSome(tables, ItemsTableProbe)
  }

  /** The last table with the discount headers (each match overwrites the previous one). */
  function DiscountsTable(tables: seq<Table>): (r: Option<Table>)
    ensures r.None? <==> forall k :: 0 <= k < |tables| ==> !IsDiscountsTable(tables[k])
    ensures r.Some? ==>
      exists k :: 0 <= k < |tables| && tables[k] == r.value && IsDiscountsTable(tables[k]) && forall j :: k < j < |tables| ==> !IsDiscountsTable(tables[j])
  {
    LastSome(tables, DiscountsTableProbe)
  }

  /** `CanParse`: some table has the item headers (the supplier name is not consulted). */
  method CanParse(tables: seq<Table>) returns (b: bool)
    ensures b <==> exists k :: 0 <= k < |tables| && IsItemsTable(tables[k])
    ensures b <==> ItemsTable(tables).Some?
  {
    for k := 0 to |tables|
      invariant forall j :: 0 <= j < k ==> !IsItemsTable(tables[j])
    {
      if IsItemsTable(tables[k]) {
        return true;
      }
    }
    return false;
  }

  /** The loop that assigns the two table roles. */
  method IdentifyTables(tables: seq<Table>) returns (itemsTable: Option<Table>, discountsTable: Option<Table>)
    ensures itemsTable == ItemsTable(tables)
    ensures discountsTable == DiscountsTable(tables)
  {
    itemsTable := None;
    discountsTable := None;
    for k := 0 to |tables|
      invariant itemsTable.None? ==> forall j :: 0 <= j < k ==> !IsItemsTable(tables[j])
      invariant itemsTable.Some? ==> itemsTable == ItemsTable(tables)
      invariant discountsTable == LastSome(tables[..k], DiscountsTableProbe)
    {
      var table := tables[k];
      if IsItemsTable(table) && itemsTable.None? {
        FirstSomeAt(tables, k, ItemsTableProbe);
        itemsTable := Some(table);
      }
      LastSomeStep(tables, k, DiscountsTableProbe);
      if IsDiscountsTable(table) {
        discountsTable := Some(table);
      }
    }
    assert tables[..|tables|] == tables;
  }

  // ---------------------------------------------------------------------------
  // The discounts table
  // ---------------------------------------------------------------------------

  /** The list price and the discount recorded for one line number. */
  datatype PriceInfo = PriceInfo(listPrice: real, discount: real)

  /** The line number of a first cell such as "2.": its digits read by `int.TryParse`. */
  function LineNumber(text: string): (r: Option<int>)
    ensures r.Some? ==> 0 <= r.value <= Int32Max
    ensures r.None? <==> |DigitsOnly(text)| == 0 || DigitsValue(DigitsOnly(text)) > Int32Max
  {
    ParseInt32(DigitsOnly(text))
  }

  /**
   * What one row of the discounts table contributes: its line number with the
   * list price (fourth cell) and the discount (fifth cell). None for a row with
   * fewer than six cells, a header row, and a row whose first cell does not
   * hold a line number.
   */
  function DiscountEntry(row: Row): Option<(int, PriceInfo)>
  {
    if |row.cells| < 6 || row.inThead then None
    else
      match LineNumber(row.cells[0])
      case None => None
      case Some(n) => Some((n, PriceInfo(CellAmount(row.cells[3]), CellAmount(row.cells[4]))))
  }

  /** The row records an entry for line `n`. */
  predicate RecordsLine(row: Row, n: int) {
    DiscountEntry(row).Some? && DiscountEntry(row).value.0 == n
  }

  /** The dictionary the loop over `rows` builds: an entry is added only for a line number not seen before. */
  function DiscountMap(rows: seq<Row>): map<int, PriceInfo>
  {
    if |rows| == 0 then map[]
    else
      var m := DiscountMap(rows[..|rows| - 1]);
      match DiscountEntry(rows[|rows| - 1])
      case None => m
      case Some(e) => if e.0 in m then m else m[e.0 := e.1]
  }

  /** One more row of a prefix. */
  lemma DiscountMapStep(rows: seq<Row>, i: nat)
    requires i < |rows|
    ensures DiscountMap(rows[..i + 1]) ==
      match DiscountEntry(rows[i])
      case None => DiscountMap(rows[..i])
      case Some(e) => if e.0 in DiscountMap(rows[..i]) then DiscountMap(rows[..i]) else DiscountMap(rows[..i])[e.0 := e.1]
  {
    assert rows[..i + 1][..i] == rows[..i];
  }

  /** The dictionary holds exactly the line numbers some row records. */
  lemma {:induction false} DiscountMapKeys(rows: seq<Row>, n: int)
    ensures n in DiscountMap(rows) <==> exists i :: 0 <= i < |rows| && RecordsLine(rows[i], n)
  {
    hide CellAmount, LineNumber;
    if |rows| > 0 {
      var prefix := rows[..|rows| - 1];
      DiscountMapKeys(prefix, n);
      if exists i :: 0 <= i < |prefix| && RecordsLine(prefix[i], n) {
        var i :| 0 <= i < |prefix| && RecordsLine(prefix[i], n);
        assert RecordsLine(rows[i], n);
      }
      if exists i :: 0 <= i < |rows| && RecordsLine(rows[i], n) {
        var i :| 0 <= i < |rows| && RecordsLine(rows[i], n);
        if i < |prefix| {
          assert RecordsLine(prefix[i], n);
        }
      }
    }
  }

  /**
   * The first row that records a line number decides its list price and
   * discount; later rows for the same line are ignored.
   */
  lemma {:induction false} DiscountFirstWins(rows: seq<Row>, i: nat, n: int, p: PriceInfo)
    requires i < |rows| && DiscountEntry(rows[i]) == Some((n, p))
    requires forall j :: 0 <= j < i ==> !RecordsLine(rows[j], n)
    ensures n in DiscountMap(rows) && DiscountMap(rows)[n] == p
  {
    hide CellAmount, LineNumber;
    var prefix := rows[..|rows| - 1];
    if i == |rows| - 1 {
      forall j | 0 <= j < |prefix| ensures !RecordsLine(prefix[j], n) {
        assert prefix[j] == rows[j];
      }
      DiscountMapKeys(prefix, n);
    } else {
      assert DiscountEntry(prefix[i]) == Some((n, p));
      forall j | 0 <= j < i ensures !RecordsLine(prefix[j], n) {
        assert prefix[j] == rows[j];
      }
      DiscountFirstWins(prefix, i, n, p);
    }
  }

  /** The loop over the discounts table's rows. */
  method ReadDiscounts(rows: seq<Row>) returns (prices: map<int, PriceInfo>)
    ensures prices == DiscountMap(rows)
  {
    prices := map[];
    for i := 0 to |rows|
      invariant prices == DiscountMap(rows[..i])
    {
      DiscountMapStep(rows, i);
      var row := rows[i];
      var cells := row.cells;
      if |cells| >= 6 && !row.inThead {
        var lineNumber := LineNumber(cells[0]);
        if lineNumber.Some? {
          var listPrice := CellAmount(cells[3]);
          var discount := CellAmount(cells[4]);
          if lineNumber.value !in prices {
            prices := prices[lineNumber.value := PriceInfo(listPrice, discount)];
          }
        }
      }
    }
    assert rows[..|rows|] == rows;
  }

  // ---------------------------------------------------------------------------
  // The items table
  // ---------------------------------------------------------------------------

  /**
   * The item of a row of nine cells or more that is not skipped: the id from
   * the second cell, the cleaned name from the third, then quantity, unit,
   * unit price, VAT code and total; the tenth cell, when there is one, is the
   * total with VAT. The list price and discount come from the discounts
   * table's entry for the row's line number (0 when the first cell holds
   * none), else they are the unit price and 0. A row whose item id is blank
   * or starts with "Samtals" (ignoring case), or whose quantity and total are
   * both 0, gives no item.
   */
  function ItemFields(cells: seq<string>, prices: map<int, PriceInfo>): Option<InvoiceItem>
    requires |cells| >= 9
  {
    var itemId := Trim(cells[1]);
    if IsBlank(itemId) || StartsAtIgnoringCase(itemId, 0, "Samtals") then None
    else
      var lineNumber := LineNumber(cells[0]).GetOr(0);
      var unitPrice := CellAmount(cells[5]);
      var price := if lineNumber in prices then prices[lineNumber] else PriceInfo(unitPrice, 0.0);
      var quantity := CellAmount(cells[3]);
      var total := CellAmount(cells[8]);
      if quantity != 0.0 || total != 0.0 then
        Some(InvoiceItem(itemId, CleanName(cells[2]), quantity, Trim(cells[4]), unitPrice, price.listPrice,
          Trim(cells[6]), price.discount, total, if |cells| > 9 then CellAmount(cells[9]) else 0.0))
      else None
  }

  /** One row of the items table, with the guard that skips rows too short to hold a total. */
  function RowItem(row: Row, prices: map<int, PriceInfo>): Option<InvoiceItem>
  {
    if |row.cells| < 9 || row.inThead || IsBlank(row.cells[1]) then None
    else ItemFields(row.cells, prices)
  }

  /** How reading one row ends in the code as written: an item or a skip, or an out-of-range cell index. */
  datatype RowRead = Read(item: Option<InvoiceItem>) | IndexOutOfRange

  /**
   * One row as the loop is written: rows are skipped only below eight cells,
   * so an eight-cell row that passes the other skips reads the ninth cell,
   * which does not exist.
   */
  function RowItemAsWritten(row: Row, prices: map<int, PriceInfo>): (r: RowRead)
    ensures |row.cells| != 8 ==> r == Read(RowItem(row, prices))
  {
    if |row.cells| < 8 || row.inThead || IsBlank(row.cells[1]) then Read(None)
    else if |row.cells| == 8 then
      var itemId := Trim(row.cells[1]);
      if IsBlank(itemId) || StartsAtIgnoringCase(itemId, 0, "Samtals") then Read(None) else IndexOutOfRange
    else Read(ItemFields(row.cells, prices))
  }

  /** Every eight-cell data row that is not a "Samtals" row makes the loop as written fail. */
  lemma EightCellRowFails(row: Row, prices: map<int, PriceInfo>)
    requires |row.cells| == 8 && !row.inThead && !IsBlank(row.cells[1])
    requires !StartsAtIgnoringCase(Trim(row.cells[1]), 0, "Samtals")
    ensures RowItemAsWritten(row, prices) == IndexOutOfRange
    ensures RowItem(row, prices) == None
  {
  }

  /** An eight-cell row such as a line without its total column. */
  lemma EightCellExample()
    ensures RowItemAsWritten(Row(false, ["1.", "6311", "R\U{E6}kja", "10,00", "KGM", "1.990,00", "S11", "0"]), map[])
      == IndexOutOfRange
  {
    var row := Row(false, ["1.", "6311", "R\U{E6}kja", "10,00", "KGM", "1.990,00", "S11", "0"]);
    assert !IsWhiteSpace(row.cells[1][0]);
    assert Trim(row.cells[1]) == "6311";
    assert !SameIgnoringCase("6311"[0], "Samtals"[0]);
  }

  /** Appends the item of a row when it has one. */
  function OptionSeq(r: Option<InvoiceItem>): seq<InvoiceItem> {
    if r.Some? then [r.value] else []
  }

  /** The items of the rows, in row order. */
  function TableItems(rows: seq<Row>, prices: map<int, PriceInfo>): seq<InvoiceItem>
  {
    if |rows| == 0 then []
    else TableItems(rows[..|rows| - 1], prices) + OptionSeq(RowItem(rows[|rows| - 1], prices))
  }

  lemma TableItemsStep(rows: seq<Row>, i: nat, prices: map<int, PriceInfo>)
    requires i < |rows|
    ensures TableItems(rows[..i + 1], prices) == TableItems(rows[..i], prices) + OptionSeq(RowItem(rows[i], prices))
  {
    assert rows[..i + 1][..i] == rows[..i];
  }

  /** The items of `a + b` are the items of `a` followed by the items of `b`. */
  lemma {:induction false} TableItemsAppend(a: seq<Row>, b: seq<Row>, prices: map<int, PriceInfo>)
    ensures TableItems(a + b, prices) == TableItems(a, prices) + TableItems(b, prices)
    decreases |b|
  {
    hide RowItem;
    if |b| > 0 {
      assert (a + b)[..|a + b| - 1] == a + b[..|b| - 1];
      TableItemsAppend(a, b[..|b| - 1], prices);
    } else {
      assert a + b == a;
    }
  }

  /** Every item comes from a row, and every item has a non-zero quantity or total. */
  lemma {:induction false} TableItemsFromRows(rows: seq<Row>, prices: map<int, PriceInfo>)
    ensures |TableItems(rows, prices)| <= |rows|
    ensures forall it :: it in TableItems(rows, prices) ==> exists i :: 0 <= i < |rows| && RowItem(rows[i], prices) == Some(it)
    ensures forall it :: it in TableItems(rows, prices) ==> it.quantity != 0.0 || it.totalPrice != 0.0
  {
    if |rows| > 0 {
      var prefix := rows[..|rows| - 1];
      TableItemsFromRows(prefix, prices);
      forall it | it in TableItems(rows, prices)
        ensures exists i :: 0 <= i < |rows| && RowItem(rows[i], prices) == Some(it)
      {
        if it in TableItems(prefix, prices) {
          var i :| 0 <= i < |prefix| && RowItem(prefix[i], prices) == Some(it);
          assert rows[i] == prefix[i];
        } else {
          assert RowItem(rows[|rows| - 1], prices) == Some(it);
        }
      }
      forall it | it in TableItems(rows, prices)
        ensures it.quantity != 0.0 || it.totalPrice != 0.0
      {
        if it !in TableItems(prefix, prices) {
          assert RowItem(rows[|rows| - 1], prices) == Some(it);
        }
      }
    }
  }

  /** The loop over the items table's rows. */
  method ReadItems(rows: seq<Row>, prices: map<int, PriceInfo>) returns (items: seq<InvoiceItem>)
    ensures items == TableItems(rows, prices)
  {
    items := [];
    for i := 0 to |rows|
      invariant items == TableItems(rows[..i], prices)
    {
      TableItemsStep(rows, i, prices);
      var row := rows[i];
      var cells := row.cells;
      var kept: Option<InvoiceItem> := None;
      if |cells| >= 9 && !row.inThead && !IsBlank(cells[1]) {
        var currentLineNumber := LineNumber(cells[0]).GetOr(0);
        var itemId := Trim(cells[1]);
        if !IsBlank(itemId) && !StartsAtIgnoringCase(itemId, 0, "Samtals") {
          var name := CleanName(cells[2]);
          var quantity := CellAmount(cells[3]);
          var unit := Trim(cells[4]);
          var unitPrice := CellAmount(cells[5]);
          var vatCode := Trim(cells[6]);
          var total := CellAmount(cells[8]);
          var totalWithVat := 0.0;
          if |cells| > 9 {
            totalWithVat := CellAmount(cells[9]);
          }
          var listPrice := unitPrice;
          var discount := 0.0;
          if currentLineNumber in prices {
            listPrice := prices[currentLineNumber].listPrice;
            discount := prices[currentLineNumber].discount;
          }
          var item := InvoiceItem(itemId, name, quantity, unit, unitPrice, listPrice, vatCode, discount, total, totalWithVat);
          if item.quantity != 0.0 || item.totalPrice != 0.0 {
            kept := Some(item);
          }
        }
      }
      assert kept == RowItem(row, prices);
      if kept.Some? {
        items := items + [kept.value];
      }
    }
    assert rows[..|rows|] == rows;
  }

  /** The prices the discounts table offers: none when there is no such table. */
  function PricesOf(tables: seq<Table>): map<int, PriceInfo>
  {
    match DiscountsTable(tables)
    case None => map[]
    case Some(d) => DiscountMap(d.rows)
  }

  /** `ParseItems`: the items of the items table, priced from the discounts table. */
  function TableItemsOf(tables: seq<Table>): seq<InvoiceItem>
  {
    match ItemsTable(tables)
    case None => []
    case Some(t) => TableItems(t.rows, PricesOf(tables))
  }

  method ParseItems(tables: seq<Table>) returns (items: seq<InvoiceItem>)
    ensures items == TableItemsOf(tables)
  {
    var itemsTable, discountsTable := IdentifyTables(tables);
    var prices: map<int, PriceInfo> := map[];
    if discountsTable.Some? {
      prices := ReadDiscounts(discountsTable.value.rows);
    }
    items := [];
    if itemsTable.Some? {
      items := ReadItems(itemsTable.value.rows, prices);
    }
  }

  // ---------------------------------------------------------------------------
  // Properties
  // ---------------------------------------------------------------------------

  /** No items table, no items. */
  lemma NoItemsTableNoItems(tables: seq<Table>)
    requires forall k :: 0 <= k < |tables| ==> !IsItemsTable(tables[k])
    ensures TableItemsOf(tables) == []
  {
  }

  /**
   * Header rows, rows with fewer than nine cells, rows with a blank item id,
   * "Samtals" rows and rows whose quantity and total are both 0 give no item;
   * every other row gives one.
   */
  lemma RowSkips(row: Row, prices: map<int, PriceInfo>)
    ensures RowItem(row, prices).None? <==>
      || |row.cells| < 9 || row.inThead || IsBlank(row.cells[1])
      || StartsAtIgnoringCase(Trim(row.cells[1]), 0, "Samtals")
      || (CellAmount(row.cells[3]) == 0.0 && CellAmount(row.cells[8]) == 0.0)
  {
  }

  /**
   * The columns of a kept item: id (second cell), name (third), quantity,
   * unit, unit price, VAT code (fourth to seventh), total (ninth), and the
   * total with VAT from a tenth cell when the row has one, else 0. Its list
   * price and discount are those the discounts table records for its line
   * number; without an entry, the list price is the unit price and the
   * discount 0.
   */
  lemma KeptItemPrices(row: Row, prices: map<int, PriceInfo>)
    requires RowItem(row, prices).Some?
    ensures |row.cells| >= 9
    ensures var it := RowItem(row, prices).value;
      var n := LineNumber(row.cells[0]).GetOr(0);
      && it.itemId == Trim(row.cells[1]) && it.itemId != ""
      && it.itemName == CleanName(row.cells[2])
      && it.quantity == CellAmount(row.cells[3])
      && it.unit == Trim(row.cells[4])
      && it.unitPrice == CellAmount(row.cells[5])
      && it.vatCode == Trim(row.cells[6])
      && it.totalPrice == CellAmount(row.cells[8])
      && (|row.cells| > 9 ==> it.totalPriceWithVat == CellAmount(row.cells[9]))
      && (|row.cells| == 9 ==> it.totalPriceWithVat == 0.0)
      && (n in prices ==> it.listPrice == prices[n].listPrice && it.discount == prices[n].discount)
      && (n !in prices ==> it.listPrice == it.unitPrice && it.discount == 0.0)
  {
  }

  /**
   * The eighth cell (the row's discount column) and every cell after the tenth
   * are never read: rows that differ only there give the same item.
   */
  lemma EighthCellIgnored(row1: Row, row2: Row, prices: map<int, PriceInfo>)
    requires row1.inThead == row2.inThead && |row1.cells| == |row2.cells|
    requires forall k :: 0 <= k < |row1.cells| && k != 7 && k < 10 ==> row1.cells[k] == row2.cells[k]
    ensures RowItem(row1, prices) == RowItem(row2, prices)
    ensures RowItemAsWritten(row1, prices) == RowItemAsWritten(row2, prices)
  {
    hide CellAmount, CleanName, Trim, LineNumber, IsBlank, StartsAtIgnoringCase;
    var c1, c2 := row1.cells, row2.cells;
    if |c1| >= 8 {
      assert c1[0] == c2[0] && c1[1] == c2[1] && c1[2] == c2[2] && c1[3] == c2[3];
      assert c1[4] == c2[4] && c1[5] == c2[5] && c1[6] == c2[6];
    }
    if |c1| >= 9 {
      assert c1[8] == c2[8];
      assert ItemFields(c1, prices) == ItemFields(c2, prices) by {
        if |c1| > 9 {
          assert c1[9] == c2[9];
        }
      }
    }
  }

  /**
   * End to end: when the first discount row for line `n` records price `p`, a
   * kept item whose first cell reads `n` carries `p`'s list price and discount.
   */
  lemma DiscountReachesItem(discountRows: seq<Row>, i: nat, n: int, p: PriceInfo, row: Row)
    requires i < |discountRows| && DiscountEntry(discountRows[i]) == Some((n, p))
    requires forall j :: 0 <= j < i ==> !RecordsLine(discountRows[j], n)
    requires |row.cells| > 0 && LineNumber(row.cells[0]) == Some(n)
    requires RowItem(row, DiscountMap(discountRows)).Some?
    ensures RowItem(row, DiscountMap(discountRows)).value.listPrice == p.listPrice
    ensures RowItem(row, DiscountMap(discountRows)).value.discount == p.discount
  {
    DiscountFirstWins(discountRows, i, n, p);
  }
}

=== FILE: text.dfy ===
/**
 * Character classes and the .NET string operations the parser relies on
 * (`Trim`, `TrimEnd`, `Contains`, `StartsWith`, `IsNullOrWhiteSpace`,
 * `Replace`, `Split`), written over `string` = `seq<char>`.
 */
module Text {

  /** `char.IsWhiteSpace`, which is also the set matched by the regex class `\s`. */
  predicate IsWhiteSpace(c: char) {
    c == ' ' || ('\t' <= c <= '\r') || c == '\U{85}' || c == '\U{A0}' || c == '\U{1680}'
    || ('\U{2000}' <= c <= '\U{200A}') || c == '\U{2028}' || c == '\U{2029}'
    || c == '\U{202F}' || c == '\U{205F}' || c == '\U{3000}'
  }

  /** The regex class `\d`, restricted to ASCII digits. */
  predicate IsDigit(c: char) { '0' <= c <= '9' }

  /** The regex class `[A-Za-z]`. */
  predicate IsAsciiLetter(c: char) { 'A' <= c <= 'Z' || 'a' <= c <= 'z' }

  /** The Latin-1 letters À..ÿ except the multiplication and division signs. */
  predicate IsLatin1Letter(c: char) { '\U{C0}' <= c <= '\U{FF}' && c != '\U{D7}' && c != '\U{F7}' }

  /** The regex class `\w` (used by `\b`), restricted to ASCII and Latin-1. */
  predicate IsWordChar(c: char) {
    IsAsciiLetter(c) || IsDigit(c) || c == '_' || IsLatin1Letter(c)
    || c == '\U{AA}' || c == '\U{B5}' || c == '\U{BA}'
  }

  /** Upper-case mapping used for ordinal case-insensitive comparison (ASCII and Latin-1). */
  function ToUpper(c: char): (u: char)
    ensures IsAsciiLetter(c) ==> 'A' <= u <= 'Z'
    ensures !IsAsciiLetter(c) && !IsLatin1Letter(c) ==> u == c
  {
    if 'a' <= c <= 'z' then (c as int - 32) as char
    else if '\U{E0}' <= c <= '\U{FE}' && c != '\U{F7}' then (c as int - 32) as char
    else c
  }

  predicate SameIgnoringCase(a: char, b: char) { ToUpper(a) == ToUpper(b) }

  /** `string.IsNullOrWhiteSpace` (a null string is not modelled). */
  predicate IsBlank(s: string) {
    forall i :: 0 <= i < |s| ==> IsWhiteSpace(s[i])
  }

  /** `w` occurs in `s` at index `i` (ordinal comparison). */
  predicate StartsAt(s: string, i: nat, w: string) {
    i + |w| <= |s| && s[i..i + |w|] == w
  }

  /** `w` occurs in `s` at index `i`, ignoring case. */
  predicate StartsAtIgnoringCase(s: string, i: nat, w: string) {
    i + |w| <= |s| && forall k :: 0 <= k < |w| ==> SameIgnoringCase(s[i + k], w[k])
  }

  /** `s.Contains(w)`. */
  predicate Contains(s: string, w: string) {
    exists i :: 0 <= i <= |s| - |w| && StartsAt(s, i, w)
  }

  /** `s.Contains(w, StringComparison.OrdinalIgnoreCase)`, also `s.IndexOf(w, OrdinalIgnoreCase) >= 0`. */
  predicate ContainsIgnoringCase(s: string, w: string) {
    exists i :: 0 <= i <= |s| - |w| && StartsAtIgnoringCase(s, i, w)
  }

  /** A text containing `w` ignoring case contains every part of `w` ignoring case. */
  lemma ContainsIgnoringCaseInfix(s: string, w: string, a: nat, b: nat)
    requires a <= b <= |w|
    requires ContainsIgnoringCase(s, w)
    ensures ContainsIgnoringCase(s, w[a..b])
  {
    var i :| 0 <= i <= |s| - |w| && StartsAtIgnoringCase(s, i, w);
    assert StartsAtIgnoringCase(s, i + a, w[a..b]) by {
      forall k | 0 <= k < b - a ensures SameIgnoringCase(s[i + a + k], w[a..b][k]) {
        assert SameIgnoringCase(s[i + (a + k)], w[a + k]);
      }
    }
  }

  /** Removes the leading characters for which `char.IsWhiteSpace` holds. */
  function TrimStart(s: string): (r: string)
    ensures |r| <= |s| && r == s[|s| - |r|..]
    ensures |r| == 0 || !IsWhiteSpace(r[0])
    ensures forall i :: 0 <= i < |s| - |r| ==> IsWhiteSpace(s[i])
  {
    if |s| > 0 && IsWhiteSpace(s[0]) then TrimStart(s[1..]) else s
  }

  /** Removes the trailing characters for which `char.IsWhiteSpace` holds. */
  function TrimEnd(s: string): (r: string)
    ensures |r| <= |s| && r == s[..|r|]
    ensures |r| == 0 || !IsWhiteSpace(r[|r| - 1])
    ensures forall i :: |r| <= i < |s| ==> IsWhiteSpace(s[i])
  {
    if |s| > 0 && IsWhiteSpace(s[|s| - 1]) then TrimEnd(s[..|s| - 1]) else s
  }

  /** `string.Trim()`. */
  function Trim(s: string): (r: string)
    ensures |r| == 0 || (!IsWhiteSpace(r[0]) && !IsWhiteSpace(r[|r| - 1]))
    ensures |r| == 0 <==> IsBlank(s)
  {
    var t := TrimStart(s);
    var r := TrimEnd(t);
    assert |r| > 0 ==> r[0] == t[0];
    assert IsBlank(s) ==> IsBlank(t);
    assert |t| > 0 ==> !IsBlank(s);
    r
  }

  /** `r` is a contiguous piece of `s`. */
  predicate IsInfix(r: string, s: string) {
    exists a, b :: 0 <= a <= b <= |s| && r == s[a..b]
  }

  /** Every character of `r` is a character of `s`. */
  predicate CharsIn(r: string, s: string) {
    forall k :: 0 <= k < |r| ==> r[k] in s
  }

  lemma CharsInTrans(a: string, b: string, c: string)
    requires CharsIn(a, b) && CharsIn(b, c)
    ensures CharsIn(a, c)
  {
    forall k | 0 <= k < |a| ensures a[k] in c {
      var j :| 0 <= j < |b| && b[j] == a[k];
    }
  }

  lemma CharsInAppend(a: string, b: string, c: string)
    requires CharsIn(a, c) && CharsIn(b, c)
    ensures CharsIn(a + b, c)
  {
    forall k | 0 <= k < |a + b| ensures (a + b)[k] in c {
      if k < |a| { assert (a + b)[k] == a[k]; } else { assert (a + b)[k] == b[k - |a|]; }
    }
  }

  lemma CharsInSuffix(s: string, i: nat, j: nat)
    requires i <= j <= |s|
    ensures CharsIn(s[j..], s[i..])
  {
    forall k | 0 <= k < |s[j..]| ensures s[j..][k] in s[i..] {
      assert s[j..][k] == s[i..][j - i + k];
    }
  }

  lemma CharsInInfix(s: string, a: nat, b: nat)
    requires a <= b <= |s|
    ensures CharsIn(s[a..b], s)
  {
    forall k | 0 <= k < b - a ensures s[a..b][k] in s {
      assert s[a..b][k] == s[a + k];
    }
  }

  /** Every character of `r` is a character of `s` or a space. */
  predicate DrawnFrom(r: string, s: string) {
    forall k :: 0 <= k < |r| ==> r[k] in s || r[k] == ' '
  }

  /** Drawing from a text whose characters all come from another draws from that other. */
  lemma DrawnFromCharsIn(r: string, t: string, s: string)
    requires DrawnFrom(r, t) && CharsIn(t, s)
    ensures DrawnFrom(r, s)
  {
    forall k | 0 <= k < |r| ensures r[k] in s || r[k] == ' ' {
      if r[k] != ' ' {
        var j :| 0 <= j < |t| && t[j] == r[k];
      }
    }
  }

  lemma DrawnFromTrans(r: string, t: string, s: string)
    requires DrawnFrom(r, t) && DrawnFrom(t, s)
    ensures DrawnFrom(r, s)
  {
    forall k | 0 <= k < |r| ensures r[k] in s || r[k] == ' ' {
      if r[k] != ' ' {
        var j :| 0 <= j < |t| && t[j] == r[k];
      }
    }
  }

  /** Trimming keeps a contiguous piece of the text: the one between the returned bounds. */
  lemma TrimBounds(s: string) returns (a: nat, b: nat)
    ensures a <= b <= |s| && Trim(s) == s[a..b]
  {
    var t := TrimStart(s);
    var r := TrimEnd(t);
    a, b := |s| - |t|, |s| - |t| + |r|;
  }

  /**
   * Trimming removes only whitespace: the trimmed text starts at `a`, and every
   * other character of the text lies inside it.
   */
  lemma TrimKeepsNonSpace(s: string) returns (a: nat)
    ensures a + |Trim(s)| <= |s| && Trim(s) == s[a..a + |Trim(s)|]
    ensures forall i :: 0 <= i < |s| && !IsWhiteSpace(s[i]) ==> a <= i < a + |Trim(s)|
  {
    TrimIsBothEnds(s);
    hide Trim, TrimStart, TrimEnd, IsWhiteSpace;
    var t := TrimStart(s);
    var r := TrimEnd(t);
    a := |s| - |t|;
    forall i | 0 <= i < |s| && !IsWhiteSpace(s[i]) ensures a <= i < a + |r| {
      if i >= a {
        assert s[i] == t[i - a];
      }
    }
  }

  lemma TrimIsBothEnds(s: string)
    ensures Trim(s) == TrimEnd(TrimStart(s))
  {
  }

  /** A text without whitespace at either end is its own trim, so trimming twice is trimming once. */
  lemma TrimKeepsTrimmed(m: string)
    requires |m| == 0 || (!IsWhiteSpace(m[0]) && !IsWhiteSpace(m[|m| - 1]))
    ensures Trim(m) == m
  {
    if |m| > 0 {
      assert "" + m + "" == m;
      TrimPadded("", m, "");
    }
  }

  /** Leading whitespace is all `TrimStart` removes. */
  lemma {:induction false} TrimStartBlankPrefix(w: string, x: string)
    requires IsBlank(w) && (|x| == 0 || !IsWhiteSpace(x[0]))
    ensures TrimStart(w + x) == x
    decreases |w|
  {
    if |w| > 0 {
      assert (w + x)[1..] == w[1..] + x;
      TrimStartBlankPrefix(w[1..], x);
    } else {
      assert w + x == x;
    }
  }

  /** Trimming a text padded with whitespace gives back the text. */
  lemma TrimPadded(w1: string, m: string, w2: string)
    requires IsBlank(w1) && IsBlank(w2)
    requires |m| > 0 && !IsWhiteSpace(m[0]) && !IsWhiteSpace(m[|m| - 1])
    ensures Trim(w1 + m + w2) == m
  {
    TrimBlankSuffix(w1 + m, w2);
    TrimStartBlankPrefix(w1, m);
  }

  /** A prefix of a piece of a prefix is a piece. */
  lemma PrefixOfPiece(s: string, m: nat, a: nat, b: nat, n: nat)
    requires m <= |s| && a <= b <= m && n <= b - a
    ensures s[..m][a..b][..n] == s[a..a + n]
  {
    assert forall k :: 0 <= k < n ==> s[..m][a..b][..n][k] == s[a + k];
  }

  /** Trailing whitespace does not change the trimmed text. */
  lemma {:induction false} TrimEndBlankSuffix(x: string, w: string)
    requires IsBlank(w)
    ensures TrimEnd(x + w) == TrimEnd(x)
    decreases |w|
  {
    if |w| > 0 {
      assert (x + w)[..|x + w| - 1] == x + w[..|w| - 1];
      TrimEndBlankSuffix(x, w[..|w| - 1]);
    } else {
      assert x + w == x;
    }
  }

  /** Trailing whitespace does not change the trimmed text. */
  lemma {:induction false} TrimBlankSuffix(x: string, w: string)
    requires IsBlank(w)
    ensures Trim(x + w) == Trim(x)
    decreases |x|
  {
    if |x| > 0 && IsWhiteSpace(x[0]) {
      assert (x + w)[1..] == x[1..] + w;
      TrimBlankSuffix(x[1..], w);
    } else if |x| == 0 {
      assert x + w == w;
      assert TrimEnd(TrimStart(w)) == "" by {
        assert IsBlank(TrimStart(w));
      }
    } else {
      TrimEndBlankSuffix(x, w);
    }
  }

  /** `s.TrimEnd(chars)`: removes trailing characters that belong to `chars`. */
  function TrimEndChars(s: string, chars: set<char>): (r: string)
    ensures |r| <= |s| && r == s[..|r|]
    ensures |r| == 0 || r[|r| - 1] !in chars
    ensures forall i :: |r| <= i < |s| ==> s[i] in chars
  {
    if |s| > 0 && s[|s| - 1] in chars then TrimEndChars(s[..|s| - 1], chars) else s
  }

  /** `s.Replace(from, to)` where `from` is a single character. */
  function ReplaceChar(s: string, from: char, to: string): (r: string)
    ensures from !in to ==> from !in r
  {
    if |s| == 0 then ""
    else (if s[0] == from then to else [s[0]]) + ReplaceChar(s[1..], from, to)
  }

  /** Each character of a replaced text comes from the text or from the replacement. */
  lemma {:induction false} ReplaceCharChars(s: string, from: char, to: string)
    ensures forall k :: 0 <= k < |ReplaceChar(s, from, to)| ==>
      ReplaceChar(s, from, to)[k] in s || ReplaceChar(s, from, to)[k] in to
  {
    if |s| > 0 {
      ReplaceCharChars(s[1..], from, to);
      var head := if s[0] == from then to else [s[0]];
      assert ReplaceChar(s, from, to) == head + ReplaceChar(s[1..], from, to);
      forall k | 0 <= k < |ReplaceChar(s, from, to)|
        ensures ReplaceChar(s, from, to)[k] in s || ReplaceChar(s, from, to)[k] in to
      {
        if k >= |head| {
          var c := ReplaceChar(s[1..], from, to)[k - |head|];
          assert c in s[1..] ==> c in s;
        }
      }
    }
  }

  /** Replacing distributes over concatenation. */
  lemma {:induction false} ReplaceCharAppend(a: string, b: string, from: char, to: string)
    ensures ReplaceChar(a + b, from, to) == ReplaceChar(a, from, to) + ReplaceChar(b, from, to)
  {
    if |a| > 0 {
      assert (a + b)[1..] == a[1..] + b;
      ReplaceCharAppend(a[1..], b, from, to);
    } else {
      assert a + b == b;
    }
  }

  /** A text without the replaced character is left as it is. */
  lemma {:induction false} ReplaceCharAbsent(s: string, from: char, to: string)
    requires from !in s
    ensures ReplaceChar(s, from, to) == s
  {
    if |s| > 0 {
      assert from !in s[1..];
      ReplaceCharAbsent(s[1..], from, to);
    }
  }

  /** Replacing the only occurrence of a character. */
  lemma ReplaceCharOnce(a: string, b: string, from: char, to: string)
    requires from !in a && from !in b
    ensures ReplaceChar(a + [from] + b, from, to) == a + to + b
  {
    ReplaceCharAppend(a + [from], b, from, to);
    ReplaceCharAppend(a, [from], from, to);
    ReplaceCharAbsent(a, from, to);
    ReplaceCharAbsent(b, from, to);
  }

  /**
   * Where the character at `i` lands after replacing: at the length of the
   * replaced text before it, as itself or as the replacement.
   */
  lemma ReplacedAt(s: string, from: char, to: string, i: nat)
    requires i < |s|
    ensures var k := |ReplaceChar(s[..i], from, to)|;
      var r := ReplaceChar(s, from, to);
      && (s[i] != from ==> k < |r| && r[k] == s[i])
      && (s[i] == from ==> k + |to| <= |r| && r[k..k + |to|] == to)
  {
    assert s == s[..i] + [s[i]] + s[i + 1..];
    ReplaceCharAppend(s[..i] + [s[i]], s[i + 1..], from, to);
    ReplaceCharAppend(s[..i], [s[i]], from, to);
    assert [s[i]][1..] == "";
  }

  /** Replacing keeps the order: what the character at `i` becomes ends before what follows it begins. */
  lemma ReplacedPrefixGrows(s: string, from: char, to: string, i: nat, j: nat)
    requires i < j <= |s|
    ensures |ReplaceChar(s[..i], from, to)| + (if s[i] == from then |to| else 1) <= |ReplaceChar(s[..j], from, to)|
  {
    assert s[..j] == s[..i] + [s[i]] + s[i + 1..j];
    ReplaceCharAppend(s[..i] + [s[i]], s[i + 1..j], from, to);
    ReplaceCharAppend(s[..i], [s[i]], from, to);
    assert [s[i]][1..] == "";
  }

  /** Two equal characters of a text stay two equal characters, in order, after replacing. */
  lemma ReplacedTwice(s: string, from: char, to: string, p1: nat, p2: nat) returns (q1: nat, q2: nat)
    requires p1 < p2 < |s| && s[p1] == s[p2]
    requires s[p1] != from || |to| == 1
    ensures q1 < q2 < |ReplaceChar(s, from, to)|
    ensures var c := if s[p1] == from then to[0] else s[p1];
      ReplaceChar(s, from, to)[q1] == c && ReplaceChar(s, from, to)[q2] == c
  {
    ReplacedAt(s, from, to, p1);
    ReplacedAt(s, from, to, p2);
    ReplacedPrefixGrows(s, from, to, p1, p2);
    q1, q2 := |ReplaceChar(s[..p1], from, to)|, |ReplaceChar(s[..p2], from, to)|;
    var r := ReplaceChar(s, from, to);
    if s[p1] == from {
      assert r[q1] == r[q1..q1 + |to|][0] && r[q2] == r[q2..q2 + |to|][0];
    }
  }

  /** `Regex.Replace(s, @"[^\d]", "")`: the digits of `s`, in order. */
  function DigitsOnly(s: string): (r: string)
    ensures forall i :: 0 <= i < |r| ==> IsDigit(r[i])
    ensures |r| <= |s|
  {
    if |s| == 0 then ""
    else (if IsDigit(s[0]) then [s[0]] else "") + DigitsOnly(s[1..])
  }

  /** Length of the run of whitespace starting at `i`. */
  function WhiteSpaceRun(s: string, i: nat): (n: nat)
    requires i <= |s|
    ensures i + n <= |s|
    ensures forall k :: i <= k < i + n ==> IsWhiteSpace(s[k])
    ensures i + n == |s| || !IsWhiteSpace(s[i + n])
    decreases |s| - i
  {
    if i < |s| && IsWhiteSpace(s[i]) then 1 + WhiteSpaceRun(s, i + 1) else 0
  }

  /** Length of the run of ASCII digits starting at `i`. */
  function DigitRun(s: string, i: nat): (n: nat)
    requires i <= |s|
    ensures i + n <= |s|
    ensures forall k :: i <= k < i + n ==> IsDigit(s[k])
    ensures i + n == |s| || !IsDigit(s[i + n])
    decreases |s| - i
  {
    if i < |s| && IsDigit(s[i]) then 1 + DigitRun(s, i + 1) else 0
  }

  /** `Regex.Replace(s, @"\s+", " ")`: every maximal run of whitespace becomes one space. */
  function CollapseWhiteSpace(s: string): (r: string)
    ensures forall i :: 0 <= i < |r| - 1 ==> !(IsWhiteSpace(r[i]) && IsWhiteSpace(r[i + 1]))
    ensures forall i :: 0 <= i < |r| ==> IsWhiteSpace(r[i]) ==> r[i] == ' '
    ensures |r| > 0 && IsWhiteSpace(r[0]) ==> |s| > 0 && IsWhiteSpace(s[0])
    decreases |s|
  {
    if |s| == 0 then ""
    else if IsWhiteSpace(s[0]) then
      var n := WhiteSpaceRun(s, 0);
      var rest := CollapseWhiteSpace(s[n..]);
      assert |rest| > 0 ==> !IsWhiteSpace(rest[0]);
      " " + rest
    else
      [s[0]] + CollapseWhiteSpace(s[1..])
  }

  predicate IsLineBreak(c: char) { c == '\r' || c == '\n' }

  /** Index of the first '\r' or '\n' at or after `i`, or |s|. */
  function LineBreakIndex(s: string, i: nat): (k: nat)
    requires i <= |s|
    ensures i <= k <= |s|
    ensures forall j :: i <= j < k ==> !IsLineBreak(s[j])
    ensures k < |s| ==> IsLineBreak(s[k])
    decreases |s| - i
  {
    if i == |s| || IsLineBreak(s[i]) then i else LineBreakIndex(s, i + 1)
  }

  /** The pieces of `s` between line breaks, empty pieces included. */
  function LinePieces(s: string): (ps: seq<string>)
    decreases |s|
  {
    var k := LineBreakIndex(s, 0);
    if k == |s| then [s] else [s[..k]] + LinePieces(s[k + 1..])
  }

  /** A line as the parser keeps it: not empty, no whitespace at either end. */
  predicate IsTrimmedLine(l: string) {
    |l| > 0 && !IsWhiteSpace(l[0]) && !IsWhiteSpace(l[|l| - 1])
  }

  /** Trims each piece and keeps the non-blank ones. */
  function TrimmedNonBlank(ps: seq<string>): (ls: seq<string>)
    ensures forall k :: 0 <= k < |ls| ==> IsTrimmedLine(ls[k])
  {
    if |ps| == 0 then []
    else if IsBlank(ps[0]) then TrimmedNonBlank(ps[1..])
    else
      var rest := TrimmedNonBlank(ps[1..]);
      TrimmedLineOf(ps[0]);
      ConsTrimmedLines(Trim(ps[0]), rest);
      [Trim(ps[0])] + rest
  }

  /** Trimming a text that is not blank gives a line as the parser keeps it. */
  lemma TrimmedLineOf(p: string)
    requires !IsBlank(p)
    ensures IsTrimmedLine(Trim(p))
  {
  }

  lemma ConsTrimmedLines(line: string, rest: seq<string>)
    requires IsTrimmedLine(line) && forall k :: 0 <= k < |rest| ==> IsTrimmedLine(rest[k])
    ensures forall k :: 0 <= k < |[line] + rest| ==> IsTrimmedLine(([line] + rest)[k])
  {
    hide IsTrimmedLine;
    forall k | 0 <= k < |[line] + rest| ensures IsTrimmedLine(([line] + rest)[k]) {
      if k > 0 {
        assert ([line] + rest)[k] == rest[k - 1];
      }
    }
  }

  /** A trimmed line is not blank: its first character is not whitespace. */
  lemma NonBlankLine(l: string)
    requires |l| > 0 && !IsWhiteSpace(l[0])
    ensures !IsBlank(l)
  {
  }

  /**
   * The document text as the parser scans it: split at "\r\n", "\r" and "\n"
   * with empty entries removed, each line trimmed, blank lines dropped.
   */
  function Lines(text: string): (ls: seq<string>)
    ensures forall k :: 0 <= k < |ls| ==> IsTrimmedLine(ls[k])
  {
    TrimmedNonBlank(LinePieces(text))
  }
}

=== FILE: totals.dfy ===
/**
 * `ExtractTotalAmount`: five strategies tried in order, the first positive
 * amount winning; 0 when none finds one.
 */
module Totals {
  import opened Wrappers
  import opened Text
  import opened Tiers
  import opened AmountParser
  import opened HtmlDocument

  /** The labels of the grand total, in the order they are tried. */
  const TotalLabels: seq<string> := ["Samtala reiknings", "Upph\U{E6}\U{F0} reiknings", "Til grei\U{F0}slu"]

  // ---------------------------------------------------------------------------
  // Strategy 1: the `payable_amount` element
  // ---------------------------------------------------------------------------

  function PayableTier(payable: Option<string>): (r: real)
    ensures r >= 0.0
  {
    match payable
    case None => 0.0
    case Some(t) => Amount(t)
  }

  // ---------------------------------------------------------------------------
  // Strategy 2: the total labels
  // ---------------------------------------------------------------------------

  /** A cell, bold or paragraph under a label's parent counts only when `IsDecimal` accepts its text. */
  function CellValue(cell: string): (r: real)
    ensures r >= 0.0
  {
    if IsDecimal(cell) then Amount(cell) else 0.0
  }

  /** A following sibling counts only when it is an element (not text or a comment). */
  function SiblingValue(sibling: Sibling): (r: real)
    ensures r >= 0.0
  {
    if sibling.isElement then Amount(sibling.text) else 0.0
  }

  function CellValues(cells: seq<string>): (vs: seq<real>)
    ensures |vs| == |cells|
  {
    seq(|cells|, j requires 0 <= j < |cells| => CellValue(cells[j]))
  }

  function SiblingValues(following: seq<Sibling>): (vs: seq<real>)
    ensures |vs| == |following|
  {
    seq(|following|, j requires 0 <= j < |following| => SiblingValue(following[j]))
  }

  /**
   * The amounts one label hit offers, in the order they are tried: its
   * parent's whole text, then each `td`/`b`/`p` under the parent, then each
   * following sibling of the parent.
   */
  function HitValues(hit: LabelHit): (vs: seq<real>)
    ensures |vs| == 1 + |hit.cells| + |hit.following|
  {
    [Amount(hit.text)] + CellValues(hit.cells) + SiblingValues(hit.following)
  }

  /** The first positive amount of one label hit, 0 when it has none. */
  function HitAmount(hit: LabelHit): (r: real)
    ensures r >= 0.0
  {
    FirstPositive(HitValues(hit))
  }

  /** The hits of the query for one label; a label nothing matches has none. */
  function HitsFor(hits: map<string, seq<LabelHit> >, caption: string): seq<LabelHit>
  {
    if caption in hits then hits[caption] else []
  }

  function HitAmounts(hits: seq<LabelHit>): (vs: seq<real>)
    ensures |vs| == |hits|
  {
    seq(|hits|, j requires 0 <= j < |hits| => HitAmount(hits[j]))
  }

  /** For each total label in turn, the first positive amount of its hits. */
  function LabelAmounts(hits: map<string, seq<LabelHit> >): (vs: seq<real>)
    ensures |vs| == |TotalLabels|
  {
    seq(|TotalLabels|, k requires 0 <= k < |TotalLabels| => FirstPositive(HitAmounts(HitsFor(hits, TotalLabels[k]))))
  }

  /** The first positive amount of the first label, hit by hit, then of the second, then of the third. */
  function LabelTier(hits: map<string, seq<LabelHit> >): (r: real)
    ensures r >= 0.0
  {
    FirstPositive(LabelAmounts(hits))
  }

  /** A hit's amount is its parent's text when positive, else its first positive cell, else its first positive sibling. */
  lemma HitAmountByParts(hit: LabelHit)
    ensures var head := Amount(hit.text);
      var cells := FirstPositive(CellValues(hit.cells));
      HitAmount(hit) == if head > 0.0 then head else if cells > 0.0 then cells else FirstPositive(SiblingValues(hit.following))
  {
    hide Amount, NoCandidate, IsBlank;
    var head := Amount(hit.text);
    FirstPositiveAppend([head] + CellValues(hit.cells), SiblingValues(hit.following));
    FirstPositiveAppend([head], CellValues(hit.cells));
  }

  /** The three loops over one hit: the parent text, the cells, the following siblings. */
  method ScanHit(hit: LabelHit) returns (amount: real)
    ensures amount == HitAmount(hit)
  {
    hide Amount, IsDecimal, HitAmount, NoCandidate, IsBlank;
    HitAmountByParts(hit);
    ghost var cellValues := CellValues(hit.cells);
    ghost var siblingValues := SiblingValues(hit.following);
    amount := ParseDecimal(hit.text);
    if amount > 0.0 {
      return;
    }
    var siblings := hit.cells;
    for i := 0 to |siblings|
      invariant forall j :: 0 <= j < i ==> cellValues[j] <= 0.0
    {
      var siblingText := siblings[i];
      if IsDecimal(siblingText) {
        amount := ParseDecimal(siblingText);
        if amount > 0.0 {
          FirstPositiveAt(cellValues, i);
          return;
        }
      }
      assert cellValues[i] <= 0.0;
    }
    var following := hit.following;
    for i := 0 to |following|
      invariant forall j :: 0 <= j < i ==> siblingValues[j] <= 0.0
    {
      var nextSibling := following[i];
      if nextSibling.isElement {
        var siblingAmount := ParseDecimal(nextSibling.text);
        if siblingAmount > 0.0 {
          FirstPositiveAt(siblingValues, i);
          return siblingAmount;
        }
      }
      assert siblingValues[i] <= 0.0;
    }
    return 0.0;
  }

  /** The loop over the hits of one label. */
  method ScanLabelHits(hits: seq<LabelHit>) returns (amount: real)
    ensures amount == FirstPositive(HitAmounts(hits))
  {
    hide Amount, NoCandidate, IsBlank;
    var vs := HitAmounts(hits);
    for i := 0 to |hits|
      invariant forall j :: 0 <= j < i ==> vs[j] <= 0.0
    {
      amount := ScanHit(hits[i]);
      if amount > 0.0 {
        assert vs[i] == amount;
        return;
      }
      assert vs[i] <= 0.0;
    }
    return 0.0;
  }

  /** The loop over the three total labels. */
  method ScanTotalLabels(hits: map<string, seq<LabelHit> >) returns (amount: real)
    ensures amount == LabelTier(hits)
  {
    hide Amount, NoCandidate, IsBlank;
    ghost var vs := LabelAmounts(hits);
    for k := 0 to |TotalLabels|
      invariant forall j :: 0 <= j < k ==> vs[j] <= 0.0
    {
      var pattern := TotalLabels[k];
      var totalNodes := HitsFor(hits, pattern);
      amount := ScanLabelHits(totalNodes);
      if amount > 0.0 {
        assert vs[k] == amount;
        return;
      }
      assert vs[k] <= 0.0;
    }
    return 0.0;
  }

  // ---------------------------------------------------------------------------
  // Strategy 3: net plus VAT from the `upphaedsamantekt` summary
  // ---------------------------------------------------------------------------

  /** A net row counts when it has three cells or more: its third cell. */
  function NetValue(row: CellRow): (r: real)
    ensures r >= 0.0
  {
    if |row.cells| >= 3 then Amount(row.cells[2]) else 0.0
  }

  /** A VAT row: its third cell when it has three cells or more, else its whole text. */
  function VatValue(row: CellRow): (r: real)
    ensures r >= 0.0
  {
    if |row.cells| >= 3 then Amount(row.cells[2]) else Amount(row.text)
  }

  function NetValues(rows: seq<CellRow>): (vs: seq<real>)
    ensures |vs| == |rows|
  {
    seq(|rows|, j requires 0 <= j < |rows| => NetValue(rows[j]))
  }

  function VatValues(rows: seq<CellRow>): (vs: seq<real>)
    ensures |vs| == |rows|
  {
    seq(|rows|, j requires 0 <= j < |rows| => VatValue(rows[j]))
  }

  /** The first positive net amount, 0 when there is none. */
  function NetTotal(rows: seq<CellRow>): (r: real)
    ensures r >= 0.0
  {
    FirstPositive(NetValues(rows))
  }

  /** The first positive VAT amount, 0 when there is none. */
  function VatTotal(rows: seq<CellRow>): (r: real)
    ensures r >= 0.0
  {
    FirstPositive(VatValues(rows))
  }

  /** Net plus VAT when both are positive, the net alone when only it is, else nothing. */
  function SummaryTier(summary: Option<Summary>): (r: real)
    ensures r >= 0.0
    ensures summary.None? ==> r == 0.0
  {
    match summary
    case None => 0.0
    case Some(s) =>
      var net := NetTotal(s.netRows);
      var vat := VatTotal(s.vatRows);
      if net > 0.0 && vat > 0.0 then net + vat
      else if net > 0.0 then net
      else 0.0
  }

  /** The two loops over the summary's rows and the combination of their results. */
  method ScanSummary(summary: Summary) returns (amount: real)
    ensures amount == SummaryTier(Some(summary))
  {
    hide Amount, NoCandidate, IsBlank;
    var netTotal := 0.0;
    var vatTotal := 0.0;
    ghost var nets := NetValues(summary.netRows);
    ghost var vats := VatValues(summary.vatRows);
    var i := 0;
    while i < |summary.netRows|
      invariant 0 <= i <= |summary.netRows|
      invariant forall j :: 0 <= j < i ==> nets[j] <= 0.0
      invariant netTotal == 0.0
    {
      var cells := summary.netRows[i].cells;
      if |cells| >= 3 {
        netTotal := ParseDecimal(cells[2]);
        if netTotal > 0.0 {
          assert nets[i] == netTotal;
          break;
        }
      }
      assert nets[i] <= 0.0;
      i := i + 1;
    }
    assert netTotal == NetTotal(summary.netRows);
    i := 0;
    while i < |summary.vatRows|
      invariant 0 <= i <= |summary.vatRows|
      invariant forall j :: 0 <= j < i ==> vats[j] <= 0.0
      invariant vatTotal == 0.0
    {
      var row := summary.vatRows[i];
      if |row.cells| >= 3 {
        vatTotal := ParseDecimal(row.cells[2]);
      } else {
        vatTotal := ParseDecimal(row.text);
      }
      if vatTotal > 0.0 {
        assert vats[i] == vatTotal;
        break;
      }
      assert vats[i] <= 0.0;
      i := i + 1;
    }
    assert vatTotal == VatTotal(summary.vatRows);
    if netTotal > 0.0 && vatTotal > 0.0 {
      return netTotal + vatTotal;
    } else if netTotal > 0.0 {
      return netTotal;
    }
    return 0.0;
  }

  // ---------------------------------------------------------------------------
  // Strategy 4: the largest amount in any "Samtals" row
  // ---------------------------------------------------------------------------

  /** The amounts of one "Samtals" row: each `td` cell, or its whole text when it has none. */
  function CellAmounts(cells: seq<string>): (vs: seq<real>)
    ensures |vs| == |cells|
  {
    seq(|cells|, j requires 0 <= j < |cells| => Amount(cells[j]))
  }

  function RowAmounts(row: CellRow): (vs: seq<real>)
  {
    if |row.cells| > 0 then CellAmounts(row.cells) else [Amount(row.text)]
  }

  function RowMaxima(rows: seq<CellRow>): (vs: seq<real>)
    ensures |vs| == |rows|
  {
    seq(|rows|, j requires 0 <= j < |rows| => MaxFromZero(RowAmounts(rows[j])))
  }

  /** The largest amount of all "Samtals" rows, starting from 0. */
  function SamtalsTier(rows: seq<CellRow>): (r: real)
    ensures r >= 0.0
  {
    MaxFromZero(RowMaxima(rows))
  }

  /** The nested loops over the rows and their cells, raising one running maximum. */
  method ScanSamtalsRows(rows: seq<CellRow>) returns (maxAmount: real)
    ensures maxAmount == SamtalsTier(rows)
  {
    hide Amount, NoCandidate, IsBlank;
    maxAmount := 0.0;
    ghost var maxima := RowMaxima(rows);
    for k := 0 to |rows|
      invariant maxAmount == MaxFromZero(maxima[..k])
    {
      MaxFromZeroPrefixStep(maxima, k);
      ghost var before := maxAmount;
      var cells := rows[k].cells;
      if |cells| > 0 {
        ghost var vs := RowAmounts(rows[k]);
        for i := 0 to |cells|
          invariant maxAmount == if MaxFromZero(vs[..i]) > before then MaxFromZero(vs[..i]) else before
        {
          MaxFromZeroPrefixStep(vs, i);
          var amount := ParseDecimal(cells[i]);
          if amount > maxAmount {
            maxAmount := amount;
          }
        }
        assert vs[..|cells|] == vs;
      } else {
        var amount := ParseDecimal(rows[k].text);
        MaxFromZeroPrefixStep([amount], 0);
        assert [amount][..1] == [amount] && [amount][..0] == [];
        if amount > maxAmount {
          maxAmount := amount;
        }
      }
    }
    assert maxima[..|rows|] == maxima;
  }

  /**
   * Strategy 4 takes the largest amount of every cell of every "Samtals" row
   * (or of the row's text when it has no cells), not the first.
   */
  lemma SamtalsTierIsLargest(rows: seq<CellRow>)
    ensures forall j, k :: 0 <= j < |rows| && 0 <= k < |rows[j].cells| ==> Amount(rows[j].cells[k]) <= SamtalsTier(rows)
    ensures forall j :: 0 <= j < |rows| && |rows[j].cells| == 0 ==> Amount(rows[j].text) <= SamtalsTier(rows)
    ensures SamtalsTier(rows) == 0.0
      || (exists j, k :: 0 <= j < |rows| && 0 <= k < |rows[j].cells| && Amount(rows[j].cells[k]) == SamtalsTier(rows))
      || (exists j :: 0 <= j < |rows| && |rows[j].cells| == 0 && Amount(rows[j].text) == SamtalsTier(rows))
  {
    var maxima := RowMaxima(rows);
    forall j, k | 0 <= j < |rows| && 0 <= k < |rows[j].cells|
      ensures Amount(rows[j].cells[k]) <= SamtalsTier(rows)
    {
      assert RowAmounts(rows[j])[k] == Amount(rows[j].cells[k]);
      assert maxima[j] == MaxFromZero(RowAmounts(rows[j]));
    }
    forall j | 0 <= j < |rows| && |rows[j].cells| == 0
      ensures Amount(rows[j].text) <= SamtalsTier(rows)
    {
      assert RowAmounts(rows[j])[0] == Amount(rows[j].text);
      assert maxima[j] == MaxFromZero(RowAmounts(rows[j]));
    }
    var r := SamtalsTier(rows);
    if r != 0.0 {
      var j :| 0 <= j < |rows| && maxima[j] == r;
      var vs := RowAmounts(rows[j]);
      assert MaxFromZero(vs) == r;
      var k :| 0 <= k < |vs| && vs[k] == r;
      if |rows[j].cells| > 0 {
        assert Amount(rows[j].cells[k]) == r;
      } else {
        assert Amount(rows[j].text) == r;
      }
    }
  }

  // ---------------------------------------------------------------------------
  // Strategy 5: the document's lines with a total label
  // ---------------------------------------------------------------------------

  /** A line counts when it contains one of the total labels, ignoring case. */
  predicate IsTotalLine(line: string) {
    ContainsIgnoringCase(line, TotalLabels[0]) || ContainsIgnoringCase(line, TotalLabels[1])
    || ContainsIgnoringCase(line, TotalLabels[2])
  }

  function LineValue(line: string): (r: real)
    ensures r >= 0.0
  {
    if IsTotalLine(line) then Amount(line) else 0.0
  }

  function LineValues(lines: seq<string>): (vs: seq<real>)
    ensures |vs| == |lines|
  {
    seq(|lines|, j requires 0 <= j < |lines| => LineValue(lines[j]))
  }

  /** The amount of the first line with a total label and a positive amount, 0 when there is none. */
  function LineTier(lines: seq<string>): (r: real)
    ensures r >= 0.0
  {
    FirstPositive(LineValues(lines))
  }

  method ScanTotalLines(lines: seq<string>) returns (amount: real)
    ensures amount == LineTier(lines)
  {
    hide Amount, NoCandidate, IsBlank;
    ghost var vs := LineValues(lines);
    for i := 0 to |lines|
      invariant forall j :: 0 <= j < i ==> vs[j] <= 0.0
    {
      var line := lines[i];
      if IsTotalLine(line) {
        amount := ParseDecimal(line);
        if amount > 0.0 {
          assert vs[i] == amount;
          return;
        }
      }
      assert vs[i] <= 0.0;
    }
    return 0.0;
  }

  // ---------------------------------------------------------------------------
  // The five strategies together
  // ---------------------------------------------------------------------------

  /** The amounts of the five strategies, in order; 0 stands for "found nothing". */
  function TierAmounts(doc: Document): (vs: seq<real>)
    ensures |vs| == 5
  {
    [PayableTier(doc.payableAmount), LabelTier(doc.labelHits), SummaryTier(doc.summary),
     SamtalsTier(doc.samtalsRows), LineTier(Lines(doc.text))]
  }

  /** The grand total: the first strategy with a positive amount, else 0. */
  function TotalOf(doc: Document): (r: real)
    ensures r >= 0.0
  {
    FirstPositive(TierAmounts(doc))
  }

  method ExtractTotalAmount(doc: Document) returns (total: real)
    ensures total == TotalOf(doc)
  {
    hide Amount, Lines, LabelTier, SummaryTier, SamtalsTier, LineTier;
    var vs := TierAmounts(doc);
    if doc.payableAmount.Some? {
      var amount := ParseDecimal(doc.payableAmount.value);
      if amount > 0.0 {
        FirstPositiveAt(vs, 0);
        return amount;
      }
    }
    assert vs[0] <= 0.0;
    total := ScanTotalLabels(doc.labelHits);
    if total > 0.0 {
      FirstPositiveAt(vs, 1);
      return;
    }
    if doc.summary.Some? {
      total := ScanSummary(doc.summary.value);
      if total > 0.0 {
        FirstPositiveAt(vs, 2);
        return;
      }
    }
    assert vs[2] <= 0.0;
    total := ScanSamtalsRows(doc.samtalsRows);
    if total > 0.0 {
      FirstPositiveAt(vs, 3);
      return;
    }
    total := ScanTotalLines(Lines(doc.text));
    if total > 0.0 {
      FirstPositiveAt(vs, 4);
      return;
    }
    return 0.0;
  }

  // ---------------------------------------------------------------------------
  // Properties
  // ---------------------------------------------------------------------------

  /**
   * The summary strategy needs a positive net amount: a positive VAT amount
   * alone is ignored, and with a positive net it is added on.
   */
  lemma SummaryNeedsNet(s: Summary)
    ensures NetTotal(s.netRows) == 0.0 ==> SummaryTier(Some(s)) == 0.0
    ensures NetTotal(s.netRows) > 0.0 ==> SummaryTier(Some(s)) == NetTotal(s.netRows) + VatTotal(s.vatRows)
  {
  }

  /**
   * A positive total is the amount of one strategy, and every strategy
   * before it found nothing; a zero total means no strategy found anything.
   */
  lemma TotalIsFirstFindingTier(doc: Document)
    ensures var vs := TierAmounts(doc);
      (TotalOf(doc) == 0.0 <==> forall j :: 0 <= j < 5 ==> vs[j] == 0.0) &&
      (TotalOf(doc) > 0.0 ==> exists k :: 0 <= k < 5 && vs[k] == TotalOf(doc) && forall j :: 0 <= j < k ==> vs[j] == 0.0)
  {
    hide Amount, Lines, PayableTier, LabelTier, SummaryTier, SamtalsTier, LineTier;
  }
}

=== FILE: wrappers.dfy ===
/** The optional value used wherever a query or a pattern may find nothing. */
module Wrappers {

  datatype Option<+T> = None | Some(value: T) {

    /** The wrapped value, or `default` when there is none. */
    function GetOr(default: T): T {
      match this
      case Some(v) => v
      case None => default
    }
  }
}

/**
 * Ordered fallback chains: every header field, the grand total and the
 * choice of line-item strategy try a list of tiers in order and keep the
 * first one that succeeds.
 */
module Tiers {
  import opened Wrappers

  /** The result of the first element of `xs` on which `probe` succeeds. */
  function FirstSome<T, U>(xs: seq<T>, probe: T -> Option<U>): (r: Option<U>)
    ensures r.None? <==> forall j :: 0 <= j < |xs| ==> probe(xs[j]).None?
    ensures r.Some? ==>
      exists k :: 0 <= k < |xs| && probe(xs[k]) == r && forall j :: 0 <= j < k ==> probe(xs[j]).None?
  {
    if |xs| == 0 then None
    else if probe(xs[0]).Some? then probe(xs[0])
    else
      var rest := FirstSome(xs[1..], probe);
      assert forall j :: 1 <= j < |xs| ==> xs[1..][j - 1] == xs[j];
      rest
  }

  /** A success preceded by no success is the first success. */
  lemma FirstSomeAt<T, U>(xs: seq<T>, k: nat, probe: T -> Option<U>)
    requires k < |xs| && probe(xs[k]).Some?
    requires forall j :: 0 <= j < k ==> probe(xs[j]).None?
    ensures FirstSome(xs, probe) == probe(xs[k])
  {
  }

  /** Dropping a prefix on which the probe fails does not change the first success. */
  lemma {:induction false} FirstSomeSkip<T, U>(xs: seq<T>, i: nat, probe: T -> Option<U>)
    requires i <= |xs|
    requires forall j :: 0 <= j < i ==> probe(xs[j]).None?
    ensures FirstSome(xs, probe) == FirstSome(xs[i..], probe)
  {
    if i > 0 {
      assert xs[1..][i - 1..] == xs[i..];
      FirstSomeSkip(xs[1..], i - 1, probe);
    }
  }

  /** Index of the first element of `xs` at or after `i` on which `probe` succeeds, or |xs|. */
  function FirstSomeIndex<T, U>(xs: seq<T>, i: nat, probe: T -> Option<U>): (k: nat)
    requires i <= |xs|
    ensures i <= k <= |xs|
    ensures k < |xs| ==> probe(xs[k]).Some?
    ensures forall j :: i <= j < k ==> probe(xs[j]).None?
    decreases |xs| - i
  {
    if i == |xs| || probe(xs[i]).Some? then i else FirstSomeIndex(xs, i + 1, probe)
  }

  /** The first positive value of `xs`, or 0 when none is positive (amount tiers: "valid only if > 0"). */
  function FirstPositive(xs: seq<real>): (r: real)
    ensures r >= 0.0
    ensures r == 0.0 <==> forall j :: 0 <= j < |xs| ==> xs[j] <= 0.0
    ensures r > 0.0 ==> exists k :: 0 <= k < |xs| && xs[k] == r && forall j :: 0 <= j < k ==> xs[j] <= 0.0
  {
    if |xs| == 0 then 0.0
    else if xs[0] > 0.0 then xs[0]
    else
      var rest := FirstPositive(xs[1..]);
      assert forall j :: 1 <= j < |xs| ==> xs[1..][j - 1] == xs[j];
      rest
  }

  /** A positive value preceded by no positive value is the first positive value. */
  lemma FirstPositiveAt(xs: seq<real>, k: nat)
    requires k < |xs| && xs[k] > 0.0
    requires forall j :: 0 <= j < k ==> xs[j] <= 0.0
    ensures FirstPositive(xs) == xs[k]
  {
  }

  /** The first positive value of a concatenation is found in the first part when it has one. */
  lemma {:induction false} FirstPositiveAppend(a: seq<real>, b: seq<real>)
    ensures FirstPositive(a + b) == if FirstPositive(a) > 0.0 then FirstPositive(a) else FirstPositive(b)
  {
    if |a| > 0 {
      assert (a + b)[1..] == a[1..] + b;
      FirstPositiveAppend(a[1..], b);
    } else {
      assert a + b == b;
    }
  }

  /** The largest value of `xs`, starting from 0 (an accumulator initialised to 0 and raised by each larger value). */
  function MaxFromZero(xs: seq<real>): (r: real)
    ensures r >= 0.0
    ensures forall j :: 0 <= j < |xs| ==> xs[j] <= r
    ensures r == 0.0 || exists k :: 0 <= k < |xs| && xs[k] == r
  {
    if |xs| == 0 then 0.0
    else
      var m := MaxFromZero(xs[..|xs| - 1]);
      assert forall j :: 0 <= j < |xs| - 1 ==> xs[..|xs| - 1][j] == xs[j];
      if xs[|xs| - 1] > m then xs[|xs| - 1] else m
  }

  /** Appending a value raises the running maximum exactly when the value exceeds it. */
  lemma MaxFromZeroAppend(xs: seq<real>, x: real)
    ensures MaxFromZero(xs + [x]) == if x > MaxFromZero(xs) then x else MaxFromZero(xs)
  {
    assert (xs + [x])[..|xs|] == xs;
  }

  /** One more element of a prefix raises the running maximum exactly when it exceeds it. */
  lemma MaxFromZeroPrefixStep(xs: seq<real>, k: nat)
    requires k < |xs|
    ensures MaxFromZero(xs[..k + 1]) == if xs[k] > MaxFromZero(xs[..k]) then xs[k] else MaxFromZero(xs[..k])
  {
    assert xs[..k + 1][..k] == xs[..k];
  }

  /** The first positive value of a sequence with one more value appended. */
  lemma FirstPositiveStep(xs: seq<real>, x: real)
    ensures FirstPositive(xs + [x]) == if FirstPositive(xs) > 0.0 then FirstPositive(xs) else FirstPositive([x])
  {
    FirstPositiveAppend(xs, [x]);
  }

  /**
   * The result of `probe` at the leftmost position in `i..n` where it
   * succeeds (a regex match searched from left to right).
   */
  function Leftmost<U>(probe: nat -> Option<U>, i: nat, n: nat): (r: Option<U>)
    requires i <= n
    ensures r.None? <==> forall p :: i <= p <= n ==> probe(p).None?
    ensures r.Some? ==> exists p :: i <= p <= n && probe(p) == r && forall q :: i <= q < p ==> probe(q).None?
    decreases n - i
  {
    if probe(i).Some? then probe(i)
    else if i == n then None
    else Leftmost(probe, i + 1, n)
  }

  /** The result of the last element of `xs` on which `probe` succeeds (a loop that keeps overwriting). */
  function LastSome<T, U>(xs: seq<T>, probe: T -> Option<U>): (r: Option<U>)
    ensures r.None? <==> forall j :: 0 <= j < |xs| ==> probe(xs[j]).None?
    ensures r.Some? ==>
      exists k :: 0 <= k < |xs| && probe(xs[k]) == r && forall j :: k < j < |xs| ==> probe(xs[j]).None?
  {
    if |xs| == 0 then None
    else
      var last := probe(xs[|xs| - 1]);
      if last.Some? then last
      else
        var rest := LastSome(xs[..|xs| - 1], probe);
        assert forall j :: 0 <= j < |xs| - 1 ==> xs[..|xs| - 1][j] == xs[j];
        rest
  }

  /** One more element of a prefix: its result wins when the probe succeeds on it. */
  lemma LastSomeStep<T, U>(xs: seq<T>, i: nat, probe: T -> Option<U>)
    requires i < |xs|
    ensures LastSome(xs[..i + 1], probe) == if probe(xs[i]).Some? then probe(xs[i]) else LastSome(xs[..i], probe)
  {
    assert xs[..i + 1][..i] == xs[..i];
  }
}
